=== FILE: README.md ===
# Draw Steel character sheet: a Dafny model of its rules

The Draw Steel character sheet is a TaleSpire symbiote: an HTML form with
tabs (main, details, inventory, notes) that keeps a hero's stamina,
recoveries, heroic resource, skills, abilities, items and notes. It saves
characters into the host's global storage blob and lists and loads them
back. Almost all of it is DOM wiring. Under the wiring there are small
sequential rules, and this project states them as pure Dafny functions over
integers, strings, sequences and maps, and proves what they promise.

Each DOM read becomes a parameter. A number input read with
`parseInt(el.value) || 0` is an `int`, and a checkbox is a `bool`. Each UI
list is a sequence.

Modules, one per concern of the sheet:

- `Util`: the JavaScript string and number primitives the sheet relies on:
  `trim`, `String(n)`, `parseInt`, `Number`, and `<` on strings.
- `Json`: stored values, documents (maps from key to value), truthiness, and
  how an input shows an assigned value.
- `Stamina`: recoveries, damage, healing, limits and the four stamina states.
- `Resources`: resetting resources and the heroic-resource gain roll.
- `MainTab`: exclusive checkbox groups, the power roll, and the handling of
  heroic roll results.
- `SheetCore`: dice descriptors and the tab file lookup.
- `InventoryTab`: new item rows, bonus totals over the eight stats, base
  values and bonus badges.
- `DetailsTab`: the skill table, the selected-skill groups, adding,
  removing and regrouping skills.
- `DetailsAbilities`: the abilities list with its id counter.
- `DetailsDocument`: the details tab's part of a saved document.
- `NotesTab`: the notes pages state machine.
- `CharacterName`: the file-name sanitiser.
- `SaveCollect`: assembling a character document from the sheet.
- `SaveStore`: the `characters` section of the blob, and the save.
- `SaveCleanup`: the duplicate clean-up.
- `SaveList`: the saved-character list and its newest-first sort.
- `SaveLoad`: loading a document back into the sheet.

Clocks, fresh ids, the dice tray's answers and the textarea of the current
notes page are parameters. Asynchronous storage calls are modelled by their
effect on the blob value.

## Model

| member | source | states |
|---|---|---|
| Stamina.UseRecovery | javascript/stamina.js:1-34 | Without a recovery left nothing changes. A change always raises stamina and spends exactly one recovery. Stamina then gains the full recovery value, or stops at `max + temp`, whichever comes first. With a recovery left, a positive recovery value and room below `max + temp`, a recovery is used. No other field changes. |
| Stamina.AbsorbDamage | javascript/stamina.js:50-54 | Positive temporary stamina soaks damage first and never goes negative. The damage carried over is never negative. Either all damage was soaked or the temporary stamina is used up. Zero or negative temporary stamina absorbs nothing. |
| Stamina.EnforceStaminaLimits | javascript/stamina.js:124-142 | The value is lowered only to `max + temp` and raised only to `floor(-max/2)`. When that range is non-empty the result lies inside it. A value already inside is unchanged. When the range is empty (a negative `max`), the ceiling is tested first: a value above it gets the ceiling, and any other value below the floor gets the floor. |
| Stamina.EnforceStaminaLimitsIdempotent | javascript/stamina.js:133-141 | Clamping twice gives the same result as clamping once, when the floor is not above the ceiling. |
| Stamina.TakeDamage | javascript/stamina.js:36-67 | A non-positive amount changes nothing. Otherwise positive temporary stamina soaks the damage first: it becomes what `AbsorbDamage` leaves, and stamina loses only the rest before the limits are enforced. Temporary stamina never grows and, when positive, never becomes negative. The amount input is reset and the other fields are kept. |
| Stamina.TemporaryAbsorbsFirst | javascript/stamina.js:50-54 | Damage no larger than the temporary stamina comes off it alone, and stamina is untouched. |
| Stamina.ExcessDamageEmptiesTemporary | javascript/stamina.js:50-59 | Damage beyond the temporary stamina empties it, and exactly the excess comes off stamina. |
| Stamina.DamageNeverHeals | javascript/stamina.js:46-59 | Damage never raises stamina that is at or above the floor. |
| Stamina.DamageIsConserved | javascript/stamina.js:46-59 | Without temporary stamina, damage that stays within the limits comes off stamina exactly, and temporary stamina is untouched. |
| Stamina.Heal | javascript/stamina.js:69-87 | A non-positive amount changes nothing. Otherwise stamina becomes `min(max, current + amount)`: it is either `max` or the sum, never above either, and exactly the sum when it fits under `max`. Only stamina and the amount input change. |
| Stamina.HealUndoesDamage | javascript/stamina.js:36-87 | Without temporary stamina, healing the same amount after damage that stayed within the limits gives back the stamina held before. |
| Stamina.HealDropsTemporaryExcess | javascript/stamina.js:79-81 | Healing stamina that sits above `max` lowers it to `max`. |
| Stamina.StaminaStatus | javascript/stamina.js:89-107 | Each of the four states, in both directions. Dead iff `2*current <= -max`. Dying iff above that and `current <= 0`. Winded iff `0 < current <= max/2`. Healthy otherwise. |
| Stamina.StatusMonotone | javascript/stamina.js:94-106 | More stamina never gives a worse state. |
| Stamina.EnforceRecoveryLimits | javascript/stamina.js:109-122 | Above the maximum becomes the maximum. Below zero becomes zero. Otherwise the value is unchanged. With a non-negative maximum the result lies in `[0, max]`. |
| Stamina.EnforceRecoveryLimitsIdempotent | javascript/stamina.js:117-121 | With a non-negative maximum, clamping twice gives the same result as clamping once. |
| Stamina.EnforceMinZero | javascript/stamina.js:144-150 | The result is never negative. A negative value becomes 0 and any other value is unchanged. |
| Resources.ResetResources | Draw_Steel_Character_Sheet/javascript/resources.js:1-17 | Surges become 0. The heroic resource is the number of checked victory boxes, wherever they stand (the size of the set of checked positions). |
| Resources.ResetCountsScatteredVictories | Draw_Steel_Character_Sheet/javascript/resources.js:9-13 | The boxes `[checked, clear, checked]` reset the heroic resource to 2. |
| Resources.ResetCountsLeadingVictories | Draw_Steel_Character_Sheet/javascript/resources.js:9-13 | With exactly the first `k` victory boxes checked, the heroic resource is reset to `k`. |
| Resources.GainLabel | Draw_Steel_Character_Sheet/javascript/resources.js:27-32 | The label always ends in ` Gain`. It starts with the trimmed resource name, or with `Heroic Resource` when the name is blank. |
| Resources.AddRandomHeroic | Draw_Steel_Character_Sheet/javascript/resources.js:21-39 | The request is a `1d6` roll under the gain label. A rejected roll tracks nothing new. An accepted roll adds exactly its id to the tracked rolls, remembering the heroic value read before the roll, and keeps the other entries. |
| MainTab.ExclusiveChange | javascript/main_tab.js:3-30 | Checking box `i` unchecks every other box of its group and keeps `i` checked. Unchecking a box leaves the group alone. |
| MainTab.ClickKeepsAtMostOne | javascript/main_tab.js:3-30 | A click on any box of a group with at most one box checked leaves at most one box checked. A box that the click checks is the only one checked. |
| MainTab.EdgeBane | javascript/main_tab.js:52-54 | Edge gives 2, whatever bane says. Bane alone gives -2. Neither gives 0. The result is positive iff edge is checked, and negative iff bane is checked without edge. |
| MainTab.EdgeBaneMirror | javascript/main_tab.js:52-54 | When not both are checked, swapping edge and bane negates the modifier. |
| MainTab.BeforeFirst | javascript/main_tab.js:46-47 | The result is a prefix of the text that contains no separator, and the separator follows it whenever it is shorter than the text. |
| MainTab.Capitalize | javascript/main_tab.js:48 | Only the first character may change. A lower-case ASCII letter there becomes the upper-case letter at the same alphabet position, and any other first character leaves the text unchanged. |
| MainTab.CapitalizeIdempotent | javascript/main_tab.js:48 | Capitalizing twice is capitalizing once. |
| MainTab.FirstCheckedIsFirst | javascript/main_tab.js:42-45 | The found id belongs to a checked box with no checked box before it. Nothing is found exactly when no box is checked. |
| MainTab.StatPart | javascript/main_tab.js:42-49 | With no stat box checked the stat adds 0 and has no name. Otherwise the first checked box's id, up to its first `-`, names the stat element. A missing element fails the roll (the source throws there). A present one adds its integer value, and the stat is named with its first letter upper-cased. |
| MainTab.PowerRollLabel | javascript/main_tab.js:64-66 | The label starts with `Power Roll`. |
| MainTab.SignedText | javascript/main_tab.js:69-72 | The text starts with a sign, `-` exactly for negative numbers, and reads back as the number. After the sign come digits with no leading zero. |
| MainTab.SignedTextUnique | javascript/main_tab.js:69-72 | Those three facts fix the text: any text with them is the one written, so `+05` or `-0` never occur. |
| MainTab.PerformPowerRoll | javascript/main_tab.js:40-76 | A roll is made exactly when the stat part exists. The roll is `2d10` followed by signed text that reads back as stat + edge/bane + other. The label starts with `Power Roll`. |
| MainTab.Gain | javascript/main_tab.js:94-96 | The gain is between 1 and 3: 1 for a die of at most 2 and 3 for a die of at least 5. |
| MainTab.GainOverFaces | javascript/main_tab.js:94-96 | Over the six faces the gains are 1, 1, 2, 2, 3, 3. |
| MainTab.HandleRollResult | javascript/main_tab.js:78-111 | An untracked roll changes nothing. A tracked roll is always forgotten. When a die came back, the heroic value set is the remembered value plus the gain of the first die. |
| MainTab.HeroicGainRoundTrip | javascript/main_tab.js:78-111 | A gain roll started by `addRandomHeroic` under a fresh id and answered by a die leaves the pending rolls as they were. It sets the heroic value to the value read at the start plus 1 to 3. |
| SheetCore.CreateDiceRoll | javascript/sheet_core.js:269-286 | The label is `data-label` when present and the element text otherwise. The roll starts with the dice type. Without an input, with an empty input or with `no-mod`, the roll is the dice type alone. |
| SheetCore.CreateDiceRollOfInteger | javascript/sheet_core.js:270-280 | For an input holding an integer, the roll is the dice type plus a signed suffix that reads back as that integer. |
| SheetCore.SignedRoll | javascript/sheet_core.js:272 | A non-negative input gets a `+` in front. A negative input is used as it is. |
| SheetCore.GetTabFileName | javascript/sheet_core.js:100-109 | A file is returned iff the id is one of the five tabs, and it is `tabs/<id>_tab.html`. |
| InventoryTab.StatOfKey | javascript/inventory_tab.js:154-164 | A key is recognised exactly when it is the key of one of the eight stats, and the stat returned has that key. |
| InventoryTab.KeyInjective | javascript/inventory_tab.js:142-151 | No two stats share a key. |
| InventoryTab.NewItemRow | javascript/inventory_tab.js:11-95 | A new row has quantity 1, an empty name and description, and exactly one bonus input per stat, each at 0. |
| InventoryTab.AddInput | javascript/inventory_tab.js:157-163 | The totals keep exactly the eight stats, and only the stat the input names gains its value. |
| InventoryTab.AddRowBonuses | javascript/inventory_tab.js:155-164 | After one row the totals keep exactly the eight stats, and each gains the sum of that row's inputs for it. |
| InventoryTab.RecalculateItemBonuses | javascript/inventory_tab.js:141-171 | There is exactly one total per stat, and each equals the reference sum of that stat's inputs over all rows. |
| InventoryTab.ApplyItemBonuses | javascript/inventory_tab.js:173-200 | The base is captured from the shown values on the first application and never overwritten later. Every shown stat with a base becomes base plus its total. When `stamina-max` is written, stamina is clamped to the new limits; when `recoveries-max` is written, recoveries are. Otherwise both are kept, and temporary stamina is always kept. |
| InventoryTab.LowerMaxClampsStamina | javascript/inventory_tab.js:186-195 | A bonus that lowers `stamina-max` below the current stamina brings stamina down to the new `max + temp`. |
| InventoryTab.ReapplyDoesNotCompound | javascript/inventory_tab.js:175-195 | Applying the same totals again keeps the base, shows the same values and leaves the clamped stamina and recoveries where they are. |
| InventoryTab.ZeroBonusesRestoreBase | javascript/inventory_tab.js:186-190 | With every total at 0 the shown values are the captured base. |
| InventoryTab.UpdateBaseStatValue | javascript/inventory_tab.js:246-251 | Before the first capture nothing changes. Afterwards only an existing base entry takes the new value, and the set of base keys is unchanged. |
| InventoryTab.BonusIndicator | javascript/inventory_tab.js:202-243 | No badge for 0. Otherwise the badge reads back as the bonus and starts with `+` iff the bonus is positive and `-` iff it is negative. After the sign come digits with no leading zero. |
| InventoryTab.BonusIndicatorUnique | javascript/inventory_tab.js:202-243 | For a non-zero bonus those facts fix the badge text exactly. |
| DetailsTab.GetSkillCategory | javascript/details_tab.js:13-20 | `Other` iff no category lists the skill. Otherwise the result is a category that lists it. |
| DetailsTab.SelectedSkills | javascript/details_tab.js:131-135 | The listed skills are exactly those of the groups. Well-formed groups list each skill once. |
| DetailsTab.SelectedSkillsListAsWritten | javascript/details_tab.js:131-135 | The list as the selector returns it: every skill twice in a row, holding the same skills. |
| DetailsTab.GroupIndex | javascript/details_tab.js:162 | The first group with the category, or past the end when none has it. |
| DetailsTab.InsertPosition | javascript/details_tab.js:199-215 | The position before the first group whose non-empty category sorts after the new one, or the end. |
| DetailsTab.AddSelectedSkill | javascript/details_tab.js:137-227 | A skill already selected changes nothing. Otherwise the skills grow by exactly that skill (as a multiset), and well-formed groups stay well-formed. Well-formed means: each skill once, each group non-empty and filed under its skill's category, categories ascending. |
| DetailsTab.RemoveSelectedSkill | javascript/details_tab.js:350-390 | A skill not shown changes nothing. Otherwise exactly that skill leaves, an emptied group goes with it, and well-formed groups stay well-formed. |
| DetailsTab.RemoveUndoesAdd | javascript/details_tab.js:137-227 | Removing a skill just added gives back the groups as they were. |
| DetailsTab.AddAllDoubled | javascript/details_tab.js:143-146 | Adding every skill twice in a row ends where adding each once does. |
| DetailsTab.AddTwice | javascript/details_tab.js:143-146 | Adding the same skill twice equals adding it once. |
| DetailsTab.RebuildFromList | javascript/details_tab.js:461-465 | Re-adding the listed skills of well-formed groups, in order, from nothing rebuilds exactly those groups. |
| DetailsTab.Regroup | javascript/details_tab.js:291-307 | The regrouped skills are a permutation of the input, with ascending categories and each group sorted. |
| DetailsTab.ReorganizeSkillsDisplay | javascript/details_tab.js:265-348 | Corrected regrouping: the same skills, each once for well-formed groups, under ascending categories and sorted within each. |
| DetailsTab.ReorganizeSkillsDisplayAsWritten | javascript/details_tab.js:265-348 | As-written regrouping: a sorted grouping of the doubled list. |
| DetailsTab.ReorganizeAsWrittenShowsTwice | javascript/details_tab.js:272 | Every selected skill appears twice after the as-written regrouping and once after the corrected one. |
| DetailsAbilities.AbilityIdInjective | javascript/details_tab.js:694 | Different counter values give different ability ids. |
| DetailsAbilities.DamageOptions | javascript/details_tab.js:680-691 | A row gives an option exactly when its dice text is not blank. Every kept row's option is in the result and every option comes from a kept row. Each option has non-blank dice and a non-blank type (`damage` when blank). A single row gives its option or nothing. |
| DetailsAbilities.DamageOptionsConcat | javascript/details_tab.js:680-691 | The options of two blocks of rows are those of the first block followed by those of the second, so options keep the rows' order. |
| DetailsAbilities.SaveNewAbility | javascript/details_tab.js:667-715 | A blank trimmed name is refused with no change. Otherwise one ability is appended under `ability-n`, with the trimmed name, type, keywords, target and description, the action as given and the damage options of the form. The earlier abilities are kept, and the counter advances by one. |
| DetailsAbilities.SaveKeepsValid | javascript/details_tab.js:693-704 | The new id is not yet in use, and the list stays valid (distinct ids, none drawn from a future counter value). |
| DetailsAbilities.RemoveAbility | javascript/details_tab.js:781-800 | Exactly the abilities with the id leave, and the counter is untouched. Removing from any split of the list is removing from each part and joining them, so the others keep their order. An unknown id changes nothing. |
| DetailsAbilities.WithoutAbilityConcat | javascript/details_tab.js:783 | Filtering two blocks is filtering each block and joining the results. |
| DetailsAbilities.RemoveUndoesSave | javascript/details_tab.js:667-800 | Removing the ability just saved restores the list and keeps the advanced counter. |
| DetailsAbilities.FindAbility | javascript/details_tab.js:575 | Nothing is found iff no ability has the id. Otherwise the result is the first ability of the list with that id, as `find` returns it. |
| DetailsAbilities.FilterAbilities | javascript/details_tab.js:569-598 | One outcome per displayed element. An unknown id leaves the element alone. A known one is shown iff the filter is `all` or matches its action. The visible count is exactly the number of elements shown. |
| DetailsAbilities.FilterAllShowsEverything | javascript/details_tab.js:581-582 | Under `all`, every displayed element whose ability exists is counted visible. |
| DetailsAbilities.GetAbilitiesData | javascript/details_tab.js:802-807 | The document holds exactly the list and the counter, with one stored value per ability. |
| DetailsAbilities.LoadAbilitiesData | javascript/details_tab.js:809-830 | Without an array nothing changes. Otherwise the list is replaced by one ability per stored element, each read from its element, and the counter is the stored value read as an integer, or 1 when it is missing or falsy. |
| DetailsAbilities.AbilitiesRoundTrip | javascript/details_tab.js:802-830 | Saving and loading gives back the list and the counter, whatever was loaded before, for a non-zero counter. |
| DetailsAbilities.ZeroCounterLoadsAsOne | javascript/details_tab.js:812 | A stored counter of 0 reads back as 1. |
| DetailsDocument.SkillNamesOfValue | javascript/details_tab.js:414-415 | Skill names stored as an array read back as the same names. |
| DetailsDocument.GetDetailsTabData | javascript/details_tab.js:400-431 | As written: the keys are the text fields, `skills`, the skill checkbox ids and the abilities entries. The abilities entries win over a checkbox id. With checkbox ids clear of the other keys, the text fields are kept and `skills` holds every selected skill twice in a row. |
| DetailsDocument.GetDetailsTabDataIntended | javascript/details_tab.js:400-431 | The corrected document: the same keys and entries, with `skills` holding each selected skill once. |
| DetailsDocument.LegacySkills | javascript/details_tab.js:467-482 | Exactly the non-empty checkbox values of `skill-` keys stored as `true` whose checkbox exists are added, at most one per key. |
| DetailsDocument.LoadDetailsTabData | javascript/details_tab.js:433-487 | A text field changes iff its key is present. The skills are rebuilt well-formed, holding exactly the names of the stored array (or of the legacy checkboxes). The abilities are loaded as `loadAbilitiesData` does. |
| DetailsDocument.DetailsRoundTrip | javascript/details_tab.js:400-487 | Saving the tab as written and loading it gives it back, whatever it showed before: the doubled skill list reloads to the same groups. This needs checkbox ids clear of the tab's keys and a non-zero ability counter. |
| DetailsDocument.DetailsRoundTripIntended | javascript/details_tab.js:400-487 | The same round trip holds for the corrected document. |
| DetailsDocument.DoubledListReloadsTheSame | javascript/details_tab.js:131-135 | The doubled skill list that is actually saved still reloads to the same groups. |
| NotesTab.PageIdInjective | javascript/notes_tab.js:358-365 | Different counter values give different page ids. |
| NotesTab.SaveCurrentPageContent | javascript/notes_tab.js:21-35 | Ids, names, the current page and the counter are unchanged. Only the current page's content can change, and with a current page and an editor it becomes the editor's text. |
| NotesTab.FirstIndexOfId | javascript/notes_tab.js:464-466 | The first page with the id, or past the end when none has it. |
| NotesTab.SwitchToNotesPage | javascript/notes_tab.js:462-498 | The target becomes current, and ids, names and the counter are kept. Switching away from a current page flushes it exactly as `saveCurrentPageContent` does, so the page left holds the editor's text. Switching to the current page, or with no current page, leaves every content as it was. Only the page left can change. |
| NotesTab.SwitchKeepsValid | javascript/notes_tab.js:462-498 | Switching to an existing page keeps the notes valid. |
| NotesTab.AddNotesPage | javascript/notes_tab.js:351-388 | A name in use is refused. Otherwise the counter advances by one, a blank page `notes-page-n` is appended after the flush and becomes current, and page names stay distinct. |
| NotesTab.AddedValid | javascript/notes_tab.js:358-371 | Adding a page keeps the notes valid: distinct ids and names, a current page that exists, and no id that a future counter value can draw. |
| NotesTab.WithoutId | javascript/notes_tab.js:517 | Exactly the pages without the id are kept. A single page is kept exactly when its id differs. |
| NotesTab.WithoutIdConcat | javascript/notes_tab.js:517 | `filter` keeps the order: filtering a concatenation concatenates the filtered parts. |
| NotesTab.FirstKeptLeads | javascript/notes_tab.js:517-535 | The first page left is the first page, in the original order, whose id differs. |
| NotesTab.DeleteNotesPage | javascript/notes_tab.js:500-558 | An unknown id changes nothing. Otherwise exactly that page leaves. When it was current, the first page in the original order with another id becomes current, or none when no page is left. Another current page stays. |
| NotesTab.DeleteKeepsValid | javascript/notes_tab.js:517-548 | Deleting keeps the notes valid and removes the id. |
| NotesTab.PageRoundTrip | javascript/notes_tab.js:565-616 | A stored page reads back as the page. |
| NotesTab.NotesDocument | javascript/notes_tab.js:570-579 | The document holds exactly the pages, the current id and the counter, and each stored page reads back as its page. |
| NotesTab.GetNotesTabData | javascript/notes_tab.js:565-580 | The current page is flushed before the data is handed out. |
| NotesTab.LoadNotesTabData | javascript/notes_tab.js:582-643 | A non-empty page array replaces the pages. The current page is the saved id if it names a loaded page, else the first page. The counter is the stored value, or 1 when it is missing or falsy. Otherwise a non-blank legacy `notes` text becomes the single current page `Notes`, with counter 2. Without either there are no pages and no current page, and without any page array the counter is kept. |
| NotesTab.SaveLoadRoundTrip | javascript/notes_tab.js:565-643 | Saving and loading valid notes gives back the flushed state. |
| CharacterName.Rewrite | javascript/save_system.js:97-101 | After the four rewrites the name is its words joined by single underscores, where a word is a maximal run of characters that are not white space, `_` or forbidden. It is empty iff the name has no word. So it has no forbidden character, no white space, no double underscore and no underscore at either end. |
| CharacterName.RewriteKeepsWords | javascript/save_system.js:97-101 | Each of the four rewrites keeps the words of the name. |
| CharacterName.CanonicalIsJoinedWords | javascript/save_system.js:100-101 | A clean name without double or outer underscores is the join of its own words. |
| CharacterName.Capped | javascript/save_system.js:109-111 | The first at most 50 characters: non-empty, still clean, and the whole name when it fits. |
| CharacterName.GetCharacterName | javascript/save_system.js:86-114 | The file name is the first at most 50 characters of the name's words joined by `_`, or of `Unnamed_Character_` plus the date digits for a blank name, or of `Character` when the name has no word. It is non-empty, with no forbidden character or white space, no double underscore and no leading underscore. |
| CharacterName.SpaceBetweenWords | javascript/save_system.js:86-114 | Two words separated by a space file as the two words joined by `_`, when that fits in 50 characters. |
| CharacterName.SafeNameKept | javascript/save_system.js:86-114 | A name already in sanitised form is its own file name. |
| CharacterName.BlankNameGetsDatedDefault | javascript/save_system.js:91-94 | A blank name files the character as `Unnamed_Character_` plus the date digits. |
| SaveCollect.CollectFields | javascript/save_system.js:10-18 | One entry per recorded id (one with an id that is not `clear-storage`), holding the checked state or value of the last control with that id. |
| SaveCollect.CollectBonuses | javascript/save_system.js:40-47 | Exactly the stats with a non-zero input are kept, never with a value of 0. Each holds the value of the last non-zero input for that stat. |
| SaveCollect.CollectItem | javascript/save_system.js:31-47 | Name and description are kept. A quantity of 0 or NaN is stored as 1, and any other quantity as it is. The bonuses are the row's collected bonus map. |
| SaveCollect.CollectInventory | javascript/save_system.js:20-55 | Every row with a name or a description is stored, as its stored item, and every item comes from such a row. A single row gives its item or nothing. |
| SaveCollect.CollectInventoryConcat | javascript/save_system.js:20-55 | The items of two blocks of rows are those of the first block followed by those of the second, so items keep the rows' order. |
| SaveCollect.BlankRowsDropped | javascript/save_system.js:49-52 | Rows without name and description leave no item. |
| SaveCollect.CollectAllCharacterData | javascript/save_system.js:4-84 | The keys are the fields, the inventory, the details and notes documents and the metadata. Later sources override earlier ones. `victoryCount` is the number of checked boxes. |
| SaveStore.DateOf | javascript/save_system.js:212 | A number in the date range is its own time value. Text, arrays and objects are invalid dates. |
| SaveStore.LastNamed | javascript/save_system.js:160-166 | The entry found carries the name with no later entry carrying it. None is found iff no entry carries it. |
| SaveStore.StoredDoc | javascript/save_system.js:171-177 | The stored document is the collected one with the name, save time and id written over it, and every other key unchanged. |
| SaveStore.Put | javascript/save_system.js:172-177 | An existing key is overwritten in place. A new key is appended. Every other entry is unchanged. |
| SaveStore.SaveCharacterData | javascript/save_system.js:145-190 | Unreadable text fails the save. Otherwise the document is stored under the id used, every other entry is kept at its position, and none is added. |
| SaveStore.SaveExistingKeepsId | javascript/save_system.js:160-177 | Saving under a name already filed keeps its key and does not grow the store. |
| SaveStore.SaveNewAppends | javascript/save_system.js:168-177 | A new name under an unused fresh id adds exactly one entry, at the end. |
| SaveStore.SaveKeepsUniqueIds | javascript/save_system.js:172-177 | The save keeps the keys distinct. |
| SaveStore.SaveTwiceIsUpsert | javascript/save_system.js:145-190 | A second save of the same name finds the first save's entry and overwrites it. |
| SaveCleanup.Without | javascript/save_system.js:223-226 | Exactly the entries whose key is not listed are kept. A single entry is kept exactly when its key is not listed. |
| SaveCleanup.WithoutConcat | javascript/save_system.js:223-226 | Deleting keeps the order of the rest: deleting from a concatenation concatenates what is left of each part. |
| SaveCleanup.CleanupDuplicateCharacters | javascript/save_system.js:193-239 | Only stored entries remain, and the blob is rewritten iff some entry was listed for deletion. |
| SaveCleanup.CleanupOnePerName | javascript/save_system.js:205-226 | Every name of the store survives on exactly one entry. |
| SaveCleanup.CleanupKeepsLatest | javascript/save_system.js:205-221 | The first entry of a name stays unless a later one carries a strictly later valid date. No entry of its name is later than the survivor, and every earlier entry of the name is strictly older or undated. A first entry with no valid date always survives, because no date compares as later than an invalid one. |
| SaveCleanup.UndatedFirstBeatsDated | javascript/save_system.js:208-216 | Of two entries with one name, an undated first entry stays and the second is deleted, whatever its date. |
| SaveCleanup.CleanupRewritesIffDuplicates | javascript/save_system.js:228-234 | The blob is written back iff two entries share a name. |
| SaveCleanup.CleanupIdempotent | javascript/save_system.js:193-239 | A second clean-up changes nothing and writes nothing. |
| SaveCleanup.WithoutKeepsUniqueIds | javascript/save_system.js:223-226 | Deleting keeps the keys distinct. |
| SaveCleanup.CleanupBlob | javascript/save_system.js:193-239 | A missing or unreadable blob is left alone. A stored one keeps only stored entries. |
| SaveCleanup.CleanupBlobFacts | javascript/save_system.js:193-239 | A blob with distinct names is left alone, and a valid blob stays valid. |
| SaveList.OrDefault | javascript/save_system.js:345-347 | A truthy value is kept and anything else gives the fallback. |
| SaveList.SummaryOf | javascript/save_system.js:341-354 | A row exists iff the name (or `Unknown Character`) is text. It keeps the id and document. The display name is the name with each `_` as a space. A truthy `savedAt` is shown and dated as it is; otherwise the current time is used. |
| SaveList.Summaries | javascript/save_system.js:336-362 | The rows are the entries' summaries in key order, and complete iff no summary throws. |
| SaveList.InsertPermutes | javascript/save_system.js:358 | Inserting adds the row and loses nothing. |
| SaveList.InsertKeepsOrder | javascript/save_system.js:358 | Inserting into a newest-first list keeps it newest first. |
| SaveList.SortPermutes | javascript/save_system.js:358 | The sort neither loses nor adds a row. |
| SaveList.SortOrders | javascript/save_system.js:358 | The sorted list is newest first. |
| SaveList.SortIsStable | javascript/save_system.js:358 | Rows saved at the same time keep their order. |
| SaveList.SortKeepsSorted | javascript/save_system.js:358 | A list already newest first is unchanged. |
| SaveList.GetAllSavedCharacters | javascript/save_system.js:328-370 | An unreadable or empty store lists nothing. Otherwise the rows are the summaries, newest first when every summary is built and dated. |
| SaveList.SavedCharacterListed | javascript/save_system.js:145-190 | After a save, the list has a row with the id the save used and the document it stored. |
| SaveList.InListing | javascript/save_system.js:328-370 | Every entry's summary is in the list when every name is text or missing. |
| SaveLoad.LoadFields | javascript/save_system.js:533-549 | Only elements whose id is a key of the document and not a skipped key are written. Elements keep their kind, and every other element is unchanged. |
| SaveLoad.FieldsRoundTrip | javascript/save_system.js:10-18 | Writing back the fields a form saved gives the form, for a form of the same shape whose ids the load does not skip. |
| SaveLoad.RestoreAll | javascript/save_system.js:561-573 | One row per item in order, until a restore throws. The run is complete iff no item throws. |
| SaveLoad.RestoreInventoryAsWritten | javascript/save_system.js:561-573 | As written every item comes back as a blank new row. |
| SaveLoad.LoadAsWrittenLosesItems | javascript/save_system.js:561-573 | A stored `Rope` is lost by an as-written load followed by a save. |
| SaveLoad.RestoredInputs | javascript/save_system.js:299-306 | One input per stat in order. A stat present in the object takes its value read back as an integer, the others stay 0. |
| SaveLoad.RestoreItem | javascript/save_system.js:282-306 | A `null` item throws. Otherwise the name and description are restored, the quantity is read as an integer (1 when missing), and an object of bonuses is written into the stat inputs; without one the inputs stay 0. |
| SaveLoad.RestoreInventory | javascript/save_system.js:282-306 | Each item restored in order, complete iff no item is `null`. |
| SaveLoad.BonusesRoundTrip | javascript/save_system.js:299-306 | The bonus inputs of a sheet row, stored and restored, come back unchanged. |
| SaveLoad.ItemRoundTrip | javascript/save_system.js:282-306 | Restoring a stored item and storing it again gives the same item. |
| SaveLoad.InventoryRoundTrip | javascript/save_system.js:20-55 | Restoring a stored inventory and storing it again gives the same items. |
| SaveLoad.VictoryLimit | javascript/save_system.js:600 | A number limits as itself and `null` as 0. An object is NaN. |
| SaveLoad.RestoreVictories | javascript/save_system.js:593-605 | Without `victoryCount` the boxes keep their state. Otherwise exactly the first `min(victoryCount, boxes)` are checked. |
| SaveLoad.CheckedFromLeftByCount | javascript/save_system.js:68-77 | Boxes checked from the left are exactly the first `victoryCount` ones. |
| SaveLoad.VictoriesRoundTrip | javascript/save_system.js:68-77 | Victories checked from the left, counted and loaded back, come back as they were. |
| SaveLoad.LoadCharacterFromDataAsWritten | javascript/save_system.js:527-614 | The fields are loaded, the inventory is replaced only by an array, and the victories are restored. |
| SaveLoad.LoadCharacterFromData | javascript/save_system.js:527-614 | The corrected load: the fields are loaded, and an inventory array is replaced by its items restored in order through each row's inputs. It completes iff no item is `null`, and then the victories are restored. |
| SaveLoad.LoadAfterSave | javascript/save_system.js:4-84 | Saving a sheet and loading it into a sheet of the same shape gives back its fields, its stored inventory and its victories. |
| SaveLoad.LoadAfterSaveAsWritten | javascript/save_system.js:527-614 | As written, saving again after a load stores no items. |

## Left out

- Asynchronous storage, `fetch` of tab pages, `FileReader`, notifications,
  modal dialogs, styling and the font selector are I/O or presentation. The
  blob, the clock, fresh ids, dice answers and editor text are parameters.
- `JSON.parse` and `JSON.stringify`: a blob is `Missing`, `Corrupt` or the
  parsed `characters` section. Pretty-printing has no meaning here.
- The key order of JavaScript objects is modelled as the order of the stored
  entries. Integer-like keys, which JavaScript lists first, are not treated
  specially.
- SaveStore.DateOf: date text is not parsed. A `savedAt` that is text reads
  as an invalid date.
- SaveList.SortNewestFirst: the comparator is a difference of `Date`
  values. With an invalid date it yields NaN and the order is up to the
  engine. The model sorts only when every date is valid, and otherwise leaves
  key order.
- SaveCleanup.CleanupDuplicateCharacters: names are compared as stored
  values, by structure. The source keys a `Map` by the name, which compares
  by SameValueZero: two equal-looking array or object names are different
  keys there and are not merged, and the model merges them.
- SaveCollect.CollectAllCharacterData: `lastSaved` is a number, not ISO
  date text. The level, class and other display fields of the saved list are
  left out.
- MainTab.PowerRollLabel: the contract states only the `Power Roll` prefix.
  The stat, edge, bane and "Other" suffixes and their order are given by
  the definition alone.
- MainTab.PerformPowerRoll: the same holds for the label of the roll.
- NotesTab.PageOf: a stored page's fields are read as text. A non-text id or
  name reads as empty text.
- NotesTab.LoadNotesTabData: a `null` element of a stored page array reads
  as a blank page, and the load completes. The source keeps the array as
  stored, and `createNotesPageContent` reads `page.id` of the `null` and
  throws, when the notes area exists. No page is then switched to. The
  model's pages cannot hold `null`, so that state is not represented.
- SaveStore.StoredDoc: `savedAt` is stored as a time value, where the
  source stores the ISO text of the same instant. `new Date` reads either
  back as that instant, so the clean-up and the list compare the same times.
- DetailsTab.ReorganizeSkillsDisplay: its groups are identified by their
  category. The source does not give regrouped groups a `data-category`
  attribute, so a later `addSelectedSkill` would not find them. Nothing in
  the sheet calls the regrouping.
- SaveLoad.VictoryLimit: only integer text is read as a number. Decimal or
  exponent text reads as NaN.
- SaveLoad.LoadCharacterFromData: the delayed calls that load the details and
  notes tabs and recalculate bonuses after a load are timers. Their effect is
  given by `DetailsDocument.LoadDetailsTabData`, `NotesTab.LoadNotesTabData`
  and `InventoryTab.RecalculateItemBonuses` on their own.
- Change and input events fired by the sheet, auto-save timers, the notes
  typing debounce and the race between overlapping saves are timing and
  concurrency.
- The `wasUpdate` guess in the save: a timestamp heuristic with no stable
  meaning.
- The check in the save that the new id is unique: the source draws it from
  the clock and does not guarantee it, so it is a parameter.
- Number inputs are `int`s: browser sanitisation of a number input's value
  and fractional values are not modelled.
- SheetCore.CreateDiceRoll: a fractional modifier such as `1.5` reads as
  not a number (`ToNumber` reads integers only), so the roll is the dice
  type followed by `1.5` with no `+`. The source's `value >= 0` converts the
  text to the number 1.5 and writes `+1.5`.
- CharacterName.Capped: the 50-character cap counts characters. JavaScript's
  `substring` counts UTF-16 code units, so a name with characters beyond
  U+FFFF is cut earlier in the source, possibly inside a surrogate pair.
- MainTab.Capitalize: only the ASCII letters `a` to `z` are upper-cased.
  JavaScript's `toUpperCase` also maps other letters, such as `é`.
- DetailsAbilities.LoadAbilitiesData: a stored counter that is not a number
  is read as `parseInt` of its text, or 0 when that fails: `"5x"` gives
  `ability-5` and `true` gives `ability-0`. The source keeps the stored value,
  and `nextAbilityId++` converts it with `Number`: `"5x"` gives
  `ability-NaN` for this and every later ability, and `true` gives
  `ability-1`.
- DetailsAbilities.LoadAbilitiesData: the source keeps the stored ability
  objects as they are, and `getAbilitiesData` saves them back unchanged. The
  model reads each one through `AbilityFrom`: a field that is not text reads
  as empty text, and fields other than the eight of an ability are dropped.
- DetailsAbilities.LoadAbilitiesData: a `null` element of the stored ability
  array reads as a blank ability. In the source, `displayAbility` reads
  `ability.id` of the `null` and throws, when the ability list exists, before
  the filter is applied. The model's abilities cannot hold `null`, so that
  state is not represented.
- NotesTab.NextIdOf: only a number counter is read. A text counter such as
  `"5"` is truthy in the source and kept, and the model reads it as 1.
- SheetCore.GetTabFileName: the source looks the id up in an object
  literal, so an inherited key such as `toString` returns a function rather
  than `undefined`. The model returns `None` for every id but the five tabs.
- DetailsDocument.SkillNames: a `null` element reads as empty text. The
  source passes `null` to `addSelectedSkill`, where it is shown as the text
  `null`.
- A CSS selector built from a skill or stat name that is not valid syntax
  (the source would throw) is not modelled: names are matched exactly.
- The skill-checkbox legacy path reads the checkboxes' values as a
  parameter. The skill dropdown and `loadExistingSkills` (a no-op) are UI.
- `parseActions`, `loadStoredData`, `clearSheet`, the tab initialisation
  sequence and `findFirstSiblingWithClass` in `sheet_core.js` are regex,
  legacy I/O and plumbing.
- Dice randomness and the host dice service: only the roll descriptors and
  the handling of results are modelled.
- Every lemma is written with automatic induction off, so that each
  inductive argument is spelled out in the proof.

## Findings

| source | as written | input that shows it | evidently intended | confidence | as-written member | corrected member |
|---|---|---|---|---|---|---|
| javascript/save_system.js:561-573 | Each loaded item is written into the new row's inputs whose placeholder is `Item` or `Description`. No row has such an input: its textareas are found by `data-field`. So every item comes back as a blank row. | A document with `inventoryItems: [{quantity: 1, name: "Rope", description: "", bonuses: {}}]`: after the load the row is blank, and the next save stores no items. | Restore each item through the row's own `data-field` textareas, quantity input and `data-stat` inputs, as the file load does at lines 282-306. | not executed | SaveLoad.LoadCharacterFromDataAsWritten (with SaveLoad.LoadAsWrittenLosesItems and SaveLoad.LoadAfterSaveAsWritten) | SaveLoad.LoadCharacterFromData (with SaveLoad.InventoryRoundTrip and SaveLoad.LoadAfterSave) |
| javascript/details_tab.js:131-135 | `[data-skill]` matches both a skill tag and its remove button, which also carries `data-skill` (line 250). So every selected skill is listed twice: the `skills` array `getDetailsTabData` saves (lines 414-415) holds each name twice, and `reorganizeSkillsDisplay` would rebuild each skill twice. Reloading the doubled array still gives the same groups, because adding a selected skill again is a no-op. | One selected skill `Climb`: the list is `["Climb", "Climb"]`, and regrouping shows two `Climb` tags. | List each selected skill once, e.g. by matching `.selected-skill`. | not executed | DetailsTab.SelectedSkillsListAsWritten (with DetailsTab.ReorganizeSkillsDisplayAsWritten, DetailsTab.ReorganizeAsWrittenShowsTwice, DetailsDocument.GetDetailsTabData and DetailsDocument.DetailsRoundTrip) | DetailsTab.SelectedSkills (with DetailsTab.ReorganizeSkillsDisplay, DetailsTab.RebuildFromList, DetailsDocument.GetDetailsTabDataIntended and DetailsDocument.DetailsRoundTripIntended) |

=== FILE: character_name.dfy ===
/** The file-safe character name the save system files a character under:
    the trimmed name input (or a dated default), with forbidden characters,
    white space runs and underscore runs each turned into one underscore,
    outer underscores dropped, and the length capped at 50. */
module CharacterName {
  import opened Util

  /** The characters the sanitiser treats as invalid in a file name:
      `< > : " / \ | ? *` and the control characters U+0000 to U+001F. */
  predicate IsForbidden(c: char) {
    || c == '<' || c == '>' || c == ':' || c == '"' || c == '/'
    || c == '\\' || c == '|' || c == '?' || c == '*' || (c as int) < 0x20
  }

  /** No forbidden character and no white space. */
  predicate CleanChars(s: string) {
    forall c :: c in s ==> !IsForbidden(c) && !IsSpace(c)
  }

  /** No two underscores in a row. */
  predicate NoDoubleUnderscore(s: string) {
    forall i :: 0 <= i < |s| - 1 ==> !(s[i] == '_' && s[i + 1] == '_')
  }

  /** Every character of `r` is an underscore or a character of `s`. */
  predicate CharsFrom(r: string, s: string) {
    forall c :: c in r ==> c == '_' || c in s
  }

  const MaxNameLength := 50
  const DefaultPrefix := "Unnamed_Character_"
  const FallbackName := "Character"

  // ---------------------------------------------------------------------------
  // The words of a name

  /** A character that separates words: an underscore, white space or a
      forbidden character. */
  predicate IsSeparator(c: char) {
    c == '_' || IsSpace(c) || IsForbidden(c)
  }

  /** The words of `s`: its maximal runs of characters that are not
      separators, in order. */
  function Words(s: string): (ws: seq<string>)
    ensures forall i :: 0 <= i < |ws| ==> ws[i] != []
    ensures s != [] && !IsSeparator(s[0]) ==> ws != []
    decreases |s|
  {
    if s == [] then []
    else if IsSeparator(s[0]) then Words(s[1..])
    else if |s| == 1 || IsSeparator(s[1]) then [[s[0]]] + Words(s[1..])
    else
      var rest := Words(s[1..]);
      [[s[0]] + rest[0]] + rest[1..]
  }

  /** The words joined with one underscore between each two. */
  function JoinWords(ws: seq<string>): string {
    if ws == [] then []
    else if |ws| == 1 then ws[0]
    else ws[0] + "_" + JoinWords(ws[1..])
  }

  /** The name a sanitised file name stands for: its words joined by `_`, or
      `Character` when it has none. */
  function WordsName(name: string): string {
    var ws := Words(name);
    if ws == [] then FallbackName else JoinWords(ws)
  }

  /** Each forbidden character becomes `_`. */
  function ReplaceForbidden(s: string): (r: string)
    ensures |r| == |s|
    ensures forall i :: 0 <= i < |s| ==> r[i] == (if IsForbidden(s[i]) then '_' else s[i])
  {
    seq(|s|, i requires 0 <= i < |s| => if IsForbidden(s[i]) then '_' else s[i])
  }

  /** Each maximal run of white space becomes one `_`. */
  function ReplaceSpaceRuns(s: string): (r: string)
    ensures forall c :: c in r ==> !IsSpace(c)
    ensures CharsFrom(r, s)
    ensures |r| <= |s|
    decreases |s|
  {
    if s == [] then []
    else if IsSpace(s[0]) then
      var rest := TrimStart(s);
      assert rest == [] || rest[0] != s[0];
      var tail := ReplaceSpaceRuns(rest);
      assert forall c :: c in rest ==> c in s;
      "_" + tail
    else
      var tail := ReplaceSpaceRuns(s[1..]);
      assert forall c :: c in s[1..] ==> c in s;
      [s[0]] + tail
  }

  /** `s` without its leading underscores. */
  function DropUnderscores(s: string): (r: string)
    ensures |r| <= |s| && r == s[|s| - |r|..]
    ensures r == [] || r[0] != '_'
  {
    if s != [] && s[0] == '_' then DropUnderscores(s[1..]) else s
  }

  /** Each maximal run of underscores becomes one `_`. */
  function CollapseUnderscores(s: string): (r: string)
    ensures NoDoubleUnderscore(r)
    ensures forall c :: c in r ==> c in s
    ensures s != [] ==> r != [] && r[0] == s[0]
    ensures |r| <= |s|
    decreases |s|
  {
    if s == [] then []
    else if s[0] == '_' then
      var rest := DropUnderscores(s);
      var tail := CollapseUnderscores(rest);
      assert forall c :: c in rest ==> c in s;
      ConsNoDouble('_', tail);
      "_" + tail
    else
      var tail := CollapseUnderscores(s[1..]);
      assert forall c :: c in s[1..] ==> c in s;
      ConsNoDouble(s[0], tail);
      [s[0]] + tail
  }

  lemma {:induction false} ConsNoDouble(c: char, t: string)
    ensures NoDoubleUnderscore(t) && (c != '_' || t == [] || t[0] != '_') ==> NoDoubleUnderscore([c] + t)
  {
    if NoDoubleUnderscore(t) && (c != '_' || t == [] || t[0] != '_') {
      var r := [c] + t;
      forall i | 0 <= i < |r| - 1 ensures !(r[i] == '_' && r[i + 1] == '_') {
        if i > 0 { assert r[i] == t[i - 1] && r[i + 1] == t[i]; }
      }
    }
  }

  /** `s` without its trailing underscores. */
  function DropTrailingUnderscores(s: string): (r: string)
    ensures |r| <= |s| && r == s[..|r|]
    ensures r == [] || r[|r| - 1] != '_'
  {
    if s != [] && s[|s| - 1] == '_' then DropTrailingUnderscores(s[..|s| - 1]) else s
  }

  /** The number of leading underscores of `s`. */
  function LeadingUnderscores(s: string): (n: nat)
    ensures n <= |s|
  {
    |s| - |DropUnderscores(s)|
  }

  /** Leading and trailing underscores removed: the slice of `s` that starts
      after its leading underscores. */
  function StripUnderscores(s: string): (r: string)
    ensures LeadingUnderscores(s) + |r| <= |s|
    ensures r == s[LeadingUnderscores(s)..LeadingUnderscores(s) + |r|]
    ensures r == [] || (r[0] != '_' && r[|r| - 1] != '_')
  {
    var t := DropUnderscores(s);
    DropTrailingUnderscores(t)
  }

  /** The four rewrites in order: forbidden characters, white space runs,
      underscore runs, outer underscores. Whatever is left is clean. */
  function Rewrite(name: string): (r: string)
    ensures r == [] || (CleanChars(r) && NoDoubleUnderscore(r) && r[0] != '_' && r[|r| - 1] != '_')
    ensures r == JoinWords(Words(name))
    ensures r == [] <==> Words(name) == []
  {
    RewriteFacts(name);
    StripUnderscores(CollapseUnderscores(ReplaceSpaceRuns(ReplaceForbidden(name))))
  }

  lemma {:induction false} RewriteFacts(name: string)
    ensures var d := StripUnderscores(CollapseUnderscores(ReplaceSpaceRuns(ReplaceForbidden(name))));
      && (d == [] || (CleanChars(d) && NoDoubleUnderscore(d) && d[0] != '_' && d[|d| - 1] != '_'))
      && d == JoinWords(Words(name))
      && (d == [] <==> Words(name) == [])
  {
    var d := StripUnderscores(CollapseUnderscores(ReplaceSpaceRuns(ReplaceForbidden(name))));
    RewriteShape(name);
    RewriteKeepsWords(name);
    CanonicalIsJoinedWords(d);
    JoinWordsEmpty(Words(name));
  }

  /** The pipeline's result is clean, with no doubled or outer underscore. */
  lemma {:induction false} RewriteShape(name: string)
    ensures var d := StripUnderscores(CollapseUnderscores(ReplaceSpaceRuns(ReplaceForbidden(name))));
      d == [] || (CleanChars(d) && NoDoubleUnderscore(d) && d[0] != '_' && d[|d| - 1] != '_')
  {
    var a := ReplaceForbidden(name);
    ForbiddenReplaced(name);
    SpaceRunsClean(a);
    CollapseClean(ReplaceSpaceRuns(a));
    StripClean(CollapseUnderscores(ReplaceSpaceRuns(a)));
  }

  lemma {:induction false} CollapseClean(b: string)
    requires CleanChars(b)
    ensures CleanChars(CollapseUnderscores(b)) && NoDoubleUnderscore(CollapseUnderscores(b))
  {
  }

  lemma {:induction false} StripClean(c: string)
    requires CleanChars(c) && NoDoubleUnderscore(c)
    ensures var d := StripUnderscores(c);
      d == [] || (CleanChars(d) && NoDoubleUnderscore(d) && d[0] != '_' && d[|d| - 1] != '_')
  {
    var d := StripUnderscores(c);
    SliceKeeps(c, LeadingUnderscores(c), |d|);
  }

  /** The trimmed input, or the dated default when the input is blank.
      `today` is the `YYYYMMDD` text of the current date. */
  function NameOrDefault(nameInput: string, today: string): string {
    var trimmed := Trim(nameInput);
    if trimmed != [] then trimmed else DefaultPrefix + today
  }

  /** The name before it is cut to length: the rewritten name, or
      `Character` when nothing is left. */
  function Sanitized(nameInput: string, today: string): (s: string)
    ensures |s| > 0 && CleanChars(s) && NoDoubleUnderscore(s) && s[0] != '_' && s[|s| - 1] != '_'
    ensures s == WordsName(NameOrDefault(nameInput, today))
  {
    var r := Rewrite(NameOrDefault(nameInput, today));
    FallbackClean();
    if r == [] then FallbackName else r
  }

  /** At most the first 50 characters. */
  function Capped(s: string): (r: string)
    requires |s| > 0 && CleanChars(s) && NoDoubleUnderscore(s) && s[0] != '_'
    ensures 0 < |r| <= MaxNameLength && |r| <= |s| && r == s[..|r|]
    ensures |r| == Min(|s|, MaxNameLength)
    ensures CleanChars(r) && NoDoubleUnderscore(r) && r[0] != '_'
    ensures |s| <= MaxNameLength ==> r == s
  {
    var r := if |s| > MaxNameLength then s[..MaxNameLength] else s;
    SliceKeeps(s, 0, |r|);
    r
  }

  /** `getCharacterName`. */
  function GetCharacterName(nameInput: string, today: string): (r: string)
    ensures 0 < |r| <= MaxNameLength
    ensures CleanChars(r) && NoDoubleUnderscore(r) && r[0] != '_'
    ensures var full := WordsName(NameOrDefault(nameInput, today));
      r == full[..Min(|full|, MaxNameLength)]
  {
    CappedSanitized(nameInput, today);
    Capped(Sanitized(nameInput, today))
  }

  lemma {:induction false} CappedSanitized(nameInput: string, today: string)
    ensures var full := WordsName(NameOrDefault(nameInput, today));
      var r := Capped(Sanitized(nameInput, today));
      && 0 < |r| <= MaxNameLength
      && CleanChars(r) && NoDoubleUnderscore(r) && r[0] != '_'
      && r == full[..Min(|full|, MaxNameLength)]
  {
    var full := Sanitized(nameInput, today);
    var r := Capped(full);
    assert r == full[..Min(|full|, MaxNameLength)];
  }

  /** A slice of a clean string is clean. */
  lemma {:induction false} SliceKeeps(s: string, a: nat, n: nat)
    requires a + n <= |s|
    ensures CleanChars(s) ==> CleanChars(s[a..a + n])
    ensures NoDoubleUnderscore(s) ==> NoDoubleUnderscore(s[a..a + n])
  {
    var d := s[a..a + n];
    assert forall c :: c in d ==> c in s;
    if NoDoubleUnderscore(s) {
      forall i | 0 <= i < |d| - 1 ensures !(d[i] == '_' && d[i + 1] == '_') {
        assert d[i] == s[a + i] && d[i + 1] == s[a + i + 1];
      }
    }
  }

  lemma {:induction false} FallbackClean()
    ensures CleanChars(FallbackName) && NoDoubleUnderscore(FallbackName)
  {
    forall c | c in FallbackName ensures !IsForbidden(c) && !IsSpace(c) {
      assert 'C' <= c <= 't';
    }
  }

  lemma {:induction false} ForbiddenReplaced(s: string)
    ensures forall c :: c in ReplaceForbidden(s) ==> !IsForbidden(c)
  {
    var r := ReplaceForbidden(s);
    forall c | c in r ensures !IsForbidden(c) {
      var i :| 0 <= i < |r| && r[i] == c;
    }
  }

  lemma {:induction false} SpaceRunsClean(a: string)
    requires forall c :: c in a ==> !IsForbidden(c)
    ensures CleanChars(ReplaceSpaceRuns(a))
  {
  }

  // ---------------------------------------------------------------------------
  // Names the sanitiser leaves alone

  /** A name already in the form the sanitiser produces, with no underscore
      at its end. */
  predicate SafeName(s: string) {
    && 0 < |s| <= MaxNameLength
    && CleanChars(s) && NoDoubleUnderscore(s)
    && s[0] != '_' && s[|s| - 1] != '_'
  }

  /** A safe name is its own file name: entering the name a character was
      filed under files it under the same name again. */
  lemma {:induction false} SafeNameKept(name: string, today: string)
    requires SafeName(name)
    ensures GetCharacterName(name, today) == name
  {
    TrimKeeps(name);
    assert NameOrDefault(name, today) == name;
    RewritesKeep(name);
    assert Sanitized(name, today) == name;
  }

  /** A blank name input files the character as `Unnamed_Character_` followed
      by the date digits. */
  lemma {:induction false} BlankNameGetsDatedDefault(nameInput: string, today: string)
    requires IsBlank(nameInput)
    requires |today| == 8 && forall i :: 0 <= i < 8 ==> IsDigit(today[i])
    ensures GetCharacterName(nameInput, today) == DefaultPrefix + today
  {
    TrimEmptyIffBlank(nameInput);
    var name := DefaultPrefix + today;
    assert CleanChars(name) by {
      forall c | c in name ensures !IsForbidden(c) && !IsSpace(c) {
        var i :| 0 <= i < |name| && name[i] == c;
        if i >= |DefaultPrefix| { assert IsDigit(today[i - |DefaultPrefix|]); }
      }
    }
    assert NoDoubleUnderscore(name) by {
      forall i | 0 <= i < |name| - 1 ensures !(name[i] == '_' && name[i + 1] == '_') {
        if i + 1 >= |DefaultPrefix| { assert IsDigit(today[i + 1 - |DefaultPrefix|]); }
      }
    }
    assert IsDigit(name[|name| - 1]);
    assert NameOrDefault(nameInput, today) == name;
    RewritesKeep(name);
    assert Sanitized(nameInput, today) == name;
  }

  /** A non-empty run of characters that are not separators. */
  predicate IsWord(w: string) {
    w != [] && forall i :: 0 <= i < |w| ==> !IsSeparator(w[i])
  }

  /** Two words with a space between them are filed as the two words joined
      by an underscore: `John Smith` becomes `John_Smith`. */
  lemma {:induction false} SpaceBetweenWords(w1: string, w2: string, today: string)
    requires IsWord(w1) && IsWord(w2) && |w1| + 1 + |w2| <= MaxNameLength
    ensures GetCharacterName(w1 + " " + w2, today) == w1 + "_" + w2
  {
    var name := w1 + " " + w2;
    assert name[0] == w1[0] && name[|name| - 1] == w2[|w2| - 1];
    assert !IsSeparator(w1[0]) && !IsSeparator(w2[|w2| - 1]);
    TrimKeeps(name);
    WordsOfTwo(w1, w2);
    assert WordsName(NameOrDefault(name, today)) == w1 + "_" + w2;
  }

  lemma {:induction false} WordsOfTwo(w1: string, w2: string)
    requires IsWord(w1) && IsWord(w2)
    ensures Words(w1 + " " + w2) == [w1, w2]
    ensures JoinWords([w1, w2]) == w1 + "_" + w2
  {
    WordThenSeparator(w2, []);
    assert w2 + [] == w2;
    SeparatorFirst(' ', w2);
    WordThenSeparator(w1, " " + w2);
    assert w1 + " " + w2 == w1 + (" " + w2);
  }

  /** A word followed by nothing or by a separator is the first word. */
  lemma {:induction false} WordThenSeparator(w: string, x: string)
    requires IsWord(w) && (x == [] || IsSeparator(x[0]))
    ensures Words(w + x) == [w] + Words(x)
    decreases |w|
  {
    var s := w + x;
    assert s[0] == w[0];
    assert s[1..] == w[1..] + x;
    assert !IsSeparator(w[0]);
    if |w| == 1 {
      assert s[1..] == x;
      assert x != [] ==> s[1] == x[0];
      assert w == [w[0]];
    } else {
      assert IsWord(w[1..]) by {
        forall i | 0 <= i < |w| - 1 ensures !IsSeparator(w[1..][i]) {
          assert w[1..][i] == w[i + 1];
        }
      }
      WordThenSeparator(w[1..], x);
      assert s[1] == w[1];
      assert [w[0]] + w[1..] == w;
    }
  }

  lemma {:induction false} TrimKeeps(s: string)
    requires s != [] && !IsSpace(s[0]) && !IsSpace(s[|s| - 1])
    ensures Trim(s) == s
  {
    assert TrimStart(s) == s;
    assert TrimEnd(s) == s;
  }

  /** The four rewrites change nothing on a name with no forbidden character,
      no white space, no double underscore and no outer underscore. */
  lemma {:induction false} RewritesKeep(name: string)
    requires name != [] && CleanChars(name) && NoDoubleUnderscore(name)
    requires name[0] != '_' && name[|name| - 1] != '_'
    ensures Rewrite(name) == name
  {
    assert ReplaceForbidden(name) == name;
    SpaceRunsKeep(name);
    CollapseKeeps(name);
  }

  lemma {:induction false} SpaceRunsKeep(s: string)
    requires forall c :: c in s ==> !IsSpace(c)
    ensures ReplaceSpaceRuns(s) == s
  {
    if s != [] {
      assert s[0] in s;
      assert forall c :: c in s[1..] ==> c in s;
      SpaceRunsKeep(s[1..]);
      assert s == [s[0]] + s[1..];
    }
  }

  lemma {:induction false} CollapseKeeps(s: string)
    requires NoDoubleUnderscore(s)
    ensures CollapseUnderscores(s) == s
  {
    if s != [] {
      NoDoubleTail(s);
      CollapseKeeps(s[1..]);
      if s[0] == '_' {
        DropOneUnderscore(s);
      }
      assert s == [s[0]] + s[1..];
    }
  }

  lemma {:induction false} NoDoubleTail(s: string)
    requires s != [] && NoDoubleUnderscore(s)
    ensures NoDoubleUnderscore(s[1..])
  {
    var t := s[1..];
    forall i | 0 <= i < |t| - 1 ensures !(t[i] == '_' && t[i + 1] == '_') {
      assert t[i] == s[i + 1] && t[i + 1] == s[i + 2];
    }
  }

  /** A lone leading underscore is the only one dropped. */
  lemma {:induction false} DropOneUnderscore(s: string)
    requires s != [] && s[0] == '_' && NoDoubleUnderscore(s)
    ensures DropUnderscores(s) == s[1..]
  {
    assert |s| > 1 ==> s[1] != '_';
    var t := s[1..];
    assert t == [] || t[0] != '_';
    assert DropUnderscores(t) == t;
  }

  // ---------------------------------------------------------------------------
  // Each rewrite keeps the words

  /** The words of a non-separator followed by `x` depend only on the words
      of `x` and on whether `x` starts with a word. */
  lemma {:induction false} ConsSameWords(c: char, x: string, y: string)
    requires !IsSeparator(c) && Words(x) == Words(y)
    requires x == [] <==> y == []
    requires x != [] && y != [] ==> (IsSeparator(x[0]) <==> IsSeparator(y[0]))
    ensures Words([c] + x) == Words([c] + y)
  {
    assert ([c] + x)[1..] == x;
    assert ([c] + y)[1..] == y;
  }

  /** A leading separator adds no word. */
  lemma {:induction false} SeparatorFirst(c: char, x: string)
    requires IsSeparator(c)
    ensures Words([c] + x) == Words(x)
  {
    assert ([c] + x)[1..] == x;
  }

  /** Leading separators add no word. */
  lemma {:induction false} DropSeparatorsKeepsWords(s: string, k: nat)
    requires k <= |s| && forall i :: 0 <= i < k ==> IsSeparator(s[i])
    ensures Words(s[k..]) == Words(s)
    decreases k
  {
    if k > 0 {
      DropSeparatorsKeepsWords(s[1..], k - 1);
      assert s[1..][k - 1..] == s[k..];
    }
  }

  /** A trailing separator adds no word. */
  lemma {:induction false} SeparatorLast(x: string, c: char)
    requires IsSeparator(c)
    ensures Words(x + [c]) == Words(x)
    decreases |x|
  {
    if x != [] {
      var s := x + [c];
      assert s[1..] == x[1..] + [c];
      SeparatorLast(x[1..], c);
      if |x| > 1 { assert s[1] == x[1]; }
    }
  }

  /** Two strings that agree on which positions are separators and on every
      other character have the same words. */
  lemma {:induction false} SameSeparatorsSameWords(a: string, b: string)
    requires |a| == |b|
    requires forall i :: 0 <= i < |a| ==> (IsSeparator(a[i]) <==> IsSeparator(b[i]))
    requires forall i :: 0 <= i < |a| && !IsSeparator(a[i]) ==> a[i] == b[i]
    ensures Words(a) == Words(b)
    decreases |a|
  {
    if a != [] {
      SameSeparatorsSameWords(a[1..], b[1..]);
    }
  }

  lemma {:induction false} ForbiddenKeepsWords(s: string)
    ensures Words(ReplaceForbidden(s)) == Words(s)
  {
    SameSeparatorsSameWords(ReplaceForbidden(s), s);
  }

  lemma {:induction false} SpaceRunsKeepWords(s: string)
    ensures Words(ReplaceSpaceRuns(s)) == Words(s)
    ensures ReplaceSpaceRuns(s) == [] <==> s == []
    ensures s != [] ==> (IsSeparator(ReplaceSpaceRuns(s)[0]) <==> IsSeparator(s[0]))
    decreases |s|
  {
    if s != [] {
      if IsSpace(s[0]) {
        var rest := TrimStart(s);
        SpaceRunsKeepWords(rest);
        SeparatorFirst('_', ReplaceSpaceRuns(rest));
        DropSeparatorsKeepsWords(s, |s| - |rest|);
      } else if IsSeparator(s[0]) {
        SpaceRunsKeepWords(s[1..]);
        SeparatorFirst(s[0], ReplaceSpaceRuns(s[1..]));
        SeparatorFirst(s[0], s[1..]);
        assert s == [s[0]] + s[1..];
      } else {
        SpaceRunsKeepWords(s[1..]);
        ConsSameWords(s[0], ReplaceSpaceRuns(s[1..]), s[1..]);
        assert s == [s[0]] + s[1..];
      }
    }
  }

  lemma {:induction false} CollapseKeepsWords(s: string)
    ensures Words(CollapseUnderscores(s)) == Words(s)
    ensures CollapseUnderscores(s) == [] <==> s == []
    decreases |s|
  {
    if s != [] {
      if s[0] == '_' {
        var rest := DropUnderscores(s);
        DropUnderscoresAll(s);
        CollapseKeepsWords(rest);
        SeparatorFirst('_', CollapseUnderscores(rest));
        DropSeparatorsKeepsWords(s, |s| - |rest|);
      } else {
        CollapseKeepsWords(s[1..]);
        assert s == [s[0]] + s[1..];
        if IsSeparator(s[0]) {
          SeparatorFirst(s[0], CollapseUnderscores(s[1..]));
          SeparatorFirst(s[0], s[1..]);
        } else {
          ConsSameWords(s[0], CollapseUnderscores(s[1..]), s[1..]);
        }
      }
    }
  }

  /** `DropUnderscores` removes only underscores. */
  lemma {:induction false} DropUnderscoresAll(s: string)
    ensures forall i :: 0 <= i < |s| - |DropUnderscores(s)| ==> s[i] == '_'
    decreases |s|
  {
    if s != [] && s[0] == '_' {
      DropUnderscoresAll(s[1..]);
      forall i | 0 <= i < |s| - |DropUnderscores(s)| ensures s[i] == '_' {
        if i > 0 { assert s[i] == s[1..][i - 1]; }
      }
    }
  }

  lemma {:induction false} DropTrailingKeepsWords(s: string)
    ensures Words(DropTrailingUnderscores(s)) == Words(s)
    decreases |s|
  {
    if s != [] && s[|s| - 1] == '_' {
      var init := s[..|s| - 1];
      DropTrailingKeepsWords(init);
      SeparatorLast(init, '_');
      assert init + ['_'] == s;
    }
  }

  lemma {:induction false} StripKeepsWords(s: string)
    ensures Words(StripUnderscores(s)) == Words(s)
  {
    var t := DropUnderscores(s);
    DropUnderscoresAll(s);
    DropSeparatorsKeepsWords(s, |s| - |t|);
    DropTrailingKeepsWords(t);
  }

  /** The rewrites keep the words of the name. */
  lemma {:induction false} RewriteKeepsWords(name: string)
    ensures Words(StripUnderscores(CollapseUnderscores(ReplaceSpaceRuns(ReplaceForbidden(name))))) == Words(name)
  {
    var a := ReplaceForbidden(name);
    var b := ReplaceSpaceRuns(a);
    var c := CollapseUnderscores(b);
    ForbiddenKeepsWords(name);
    SpaceRunsKeepWords(a);
    CollapseKeepsWords(b);
    StripKeepsWords(c);
  }

  /** A word with a character put in front of the first word. */
  lemma {:induction false} JoinWordsCons(c: char, ws: seq<string>)
    requires ws != []
    ensures JoinWords([[c] + ws[0]] + ws[1..]) == [c] + JoinWords(ws)
  {
    var vs := [[c] + ws[0]] + ws[1..];
    assert vs[1..] == ws[1..];
  }

  lemma {:induction false} JoinWordsEmpty(ws: seq<string>)
    requires forall i :: 0 <= i < |ws| ==> ws[i] != []
    ensures JoinWords(ws) == [] <==> ws == []
  {
  }

  /** The only separator is `_`, never doubled and never at either end. */
  predicate Canonical(s: string) {
    && (forall i :: 0 <= i < |s| && IsSeparator(s[i]) ==> s[i] == '_')
    && NoDoubleUnderscore(s)
    && (s == [] || (s[0] != '_' && s[|s| - 1] != '_'))
  }

  lemma {:induction false} CleanIsCanonical(s: string)
    requires CleanChars(s) && NoDoubleUnderscore(s)
    requires s == [] || (s[0] != '_' && s[|s| - 1] != '_')
    ensures Canonical(s)
  {
    forall i | 0 <= i < |s| && IsSeparator(s[i]) ensures s[i] == '_' {
      assert s[i] in s;
    }
  }

  /** Dropping the first word character, or it and the underscore after it,
      leaves a canonical string. */
  lemma {:induction false} CanonicalSuffix(s: string, k: nat)
    requires Canonical(s) && 0 < k < |s| && s[k] != '_'
    ensures Canonical(s[k..])
  {
    var t := s[k..];
    forall i | 0 <= i < |t| - 1 ensures !(t[i] == '_' && t[i + 1] == '_') {
      assert t[i] == s[k + i] && t[i + 1] == s[k + i + 1];
    }
    forall i | 0 <= i < |t| && IsSeparator(t[i]) ensures t[i] == '_' {
      assert t[i] == s[k + i];
    }
  }

  /** A canonical string is its own words joined by `_`. */
  lemma {:induction false} CanonicalJoined(s: string)
    requires Canonical(s)
    ensures JoinWords(Words(s)) == s
    decreases |s|, 1
  {
    if s != [] {
      assert !IsSeparator(s[0]);
      if |s| == 1 {
      } else if s[1] == '_' {
        JoinedAfterUnderscore(s);
      } else {
        JoinedAfterWordChar(s);
      }
    }
  }

  /** The step of `CanonicalJoined` at a one-character word followed by `_`. */
  lemma {:induction false} JoinedAfterUnderscore(s: string)
    requires Canonical(s) && |s| >= 2 && s[1] == '_'
    ensures JoinWords(Words(s)) == s
    decreases |s|, 0
  {
    assert !IsSeparator(s[0]);
    assert s[2] != '_';
    var u := s[2..];
    CanonicalSuffix(s, 2);
    CanonicalJoined(u);
    assert s[1..] == ['_'] + u;
    SeparatorFirst('_', u);
    assert Words(s) == [[s[0]]] + Words(u);
    var vs := [[s[0]]] + Words(u);
    assert vs[1..] == Words(u);
    assert s == [s[0]] + "_" + u;
  }

  /** The step of `CanonicalJoined` inside a word. */
  lemma {:induction false} JoinedAfterWordChar(s: string)
    requires Canonical(s) && |s| >= 2 && s[1] != '_'
    ensures JoinWords(Words(s)) == s
    decreases |s|, 0
  {
    assert !IsSeparator(s[0]);
    var t := s[1..];
    CanonicalSuffix(s, 1);
    CanonicalJoined(t);
    JoinWordsCons(s[0], Words(t));
    assert s == [s[0]] + t;
  }

  /** A clean string with no doubled and no outer underscore is its own words
      joined by `_`. */
  lemma {:induction false} CanonicalIsJoinedWords(s: string)
    requires CleanChars(s) && NoDoubleUnderscore(s)
    requires s == [] || (s[0] != '_' && s[|s| - 1] != '_')
    ensures JoinWords(Words(s)) == s
  {
    CleanIsCanonical(s);
    CanonicalJoined(s);
  }
}

=== FILE: details_abilities.dfy ===
/** The abilities list of the details tab: abilities created from the
    ability dialog under ids drawn from a counter, removal by id, the action
    filter, and the list's part of a character document. */
module DetailsAbilities {
  import opened Util
  import opened Json

  /** One damage option of an ability: dice text and damage type. */
  datatype Damage = Damage(dice: string, damageType: string)

  datatype Ability = Ability(
    id: string,
    name: string,
    abilityType: string,
    keywords: string,
    action: string,
    target: string,
    damage: seq<Damage>,
    description: string
  )

  /** The list and the counter the next id is drawn from. */
  datatype AbilitiesState = AbilitiesState(abilities: seq<Ability>, nextId: int)

  const InitialAbilities := AbilitiesState([], 1)

  /** What the ability dialog holds when "save" is pressed: the raw values of
      its inputs and, per damage row, the values of the row's inputs. */
  datatype AbilityForm = AbilityForm(
    name: string,
    abilityType: string,
    keywords: string,
    action: string,
    target: string,
    description: string,
    damageRows: seq<seq<string>>
  )

  function AbilityId(n: int): string { "ability-" + IntToString(n) }

  lemma {:induction false} AbilityIdInjective(a: int, b: int)
    ensures AbilityId(a) == AbilityId(b) ==> a == b
  {
    if AbilityId(a) == AbilityId(b) {
      assert IntToString(a) == AbilityId(a)[8..];
      assert IntToString(b) == AbilityId(b)[8..];
      IntToStringInjective(a, b);
    }
  }

  /** A damage row is kept when it has two inputs and the dice text is not blank. */
  predicate KeepsRow(row: seq<string>) {
    |row| >= 2 && Trim(row[0]) != []
  }

  /** The option a kept row gives: trimmed dice, trimmed type or `damage`. */
  function DamageOf(row: seq<string>): Damage
    requires |row| >= 2
  {
    Damage(Trim(row[0]), if Trim(row[1]) != [] then Trim(row[1]) else "damage")
  }

  /** Every kept row gives an option of `r`. */
  predicate KeptIn(rows: seq<seq<string>>, r: seq<Damage>) {
    forall i :: 0 <= i < |rows| && KeepsRow(rows[i]) ==> DamageOf(rows[i]) in r
  }

  /** Every option of `r` comes from a kept row. */
  ghost predicate FromRows(rows: seq<seq<string>>, r: seq<Damage>) {
    forall d :: d in r ==> exists i :: 0 <= i < |rows| && KeepsRow(rows[i]) && d == DamageOf(rows[i])
  }

  /** Both texts of the option are non-empty. */
  predicate Filled(d: Damage) {
    d.dice != [] && d.damageType != []
  }

  lemma {:induction false} FilledDamageOf(row: seq<string>)
    ensures KeepsRow(row) ==> Filled(DamageOf(row))
  {
  }

  /** The damage options collected from the rows, in row order. */
  function DamageOptions(rows: seq<seq<string>>): (r: seq<Damage>)
    ensures |r| <= |rows|
    ensures forall k :: 0 <= k < |r| ==> Filled(r[k])
    ensures KeptIn(rows, r) && FromRows(rows, r)
    ensures |rows| == 1 ==> r == OptionOf(rows[0])
  {
    if rows == [] then []
    else
      var n := |rows| - 1;
      var prev := DamageOptions(rows[..n]);
      var r := prev + OptionOf(rows[n]);
      FilledStep(rows[n], prev, r);
      KeptStep(rows, prev, r);
      FromRowsStep(rows, prev, r);
      r
  }

  /** The options of two blocks of rows are the options of the first block
      followed by those of the second: the rows' order is kept. */
  lemma {:induction false} DamageOptionsConcat(a: seq<seq<string>>, b: seq<seq<string>>)
    ensures DamageOptions(a + b) == DamageOptions(a) + DamageOptions(b)
  {
    DamageOptionsIsFlatMap(a);
    DamageOptionsIsFlatMap(b);
    DamageOptionsIsFlatMap(a + b);
    FlatMapConcat(a, b, OptionOf);
  }

  /** The option one row gives on its own: none, or exactly one. */
  function OptionOf(row: seq<string>): seq<Damage> {
    if KeepsRow(row) then [DamageOf(row)] else []
  }

  lemma {:induction false} DamageOptionsIsFlatMap(rows: seq<seq<string>>)
    ensures DamageOptions(rows) == FlatMap(rows, OptionOf)
  {
    if rows != [] {
      DamageOptionsIsFlatMap(rows[..|rows| - 1]);
    }
  }

  lemma {:induction false} FilledStep(row: seq<string>, prev: seq<Damage>, r: seq<Damage>)
    requires forall k :: 0 <= k < |prev| ==> Filled(prev[k])
    requires r == if KeepsRow(row) then prev + [DamageOf(row)] else prev
    ensures forall k :: 0 <= k < |r| ==> Filled(r[k])
  {
    if KeepsRow(row) {
      FilledDamageOf(row);
      forall k | 0 <= k < |r| ensures Filled(r[k]) {
        if k < |prev| { assert r[k] == prev[k]; }
      }
    }
  }

  lemma {:induction false} KeptStep(rows: seq<seq<string>>, prev: seq<Damage>, r: seq<Damage>)
    requires rows != [] && KeptIn(rows[..|rows| - 1], prev)
    requires r == if KeepsRow(rows[|rows| - 1]) then prev + [DamageOf(rows[|rows| - 1])] else prev
    ensures KeptIn(rows, r)
  {
    var n := |rows| - 1;
    var last := rows[n];
    assert prev <= r;
    forall i | 0 <= i < |rows| && KeepsRow(rows[i]) ensures DamageOf(rows[i]) in r {
      if i < n {
        var row := rows[..n][i];
        assert row == rows[i];
        assert DamageOf(row) in prev;
      } else {
        assert r[|prev|] == DamageOf(last);
      }
    }
  }

  lemma {:induction false} FromRowsStep(rows: seq<seq<string>>, prev: seq<Damage>, r: seq<Damage>)
    requires rows != [] && FromRows(rows[..|rows| - 1], prev)
    requires r == if KeepsRow(rows[|rows| - 1]) then prev + [DamageOf(rows[|rows| - 1])] else prev
    ensures FromRows(rows, r)
  {
    var n := |rows| - 1;
    forall d | d in r ensures exists i :: 0 <= i < |rows| && KeepsRow(rows[i]) && d == DamageOf(rows[i]) {
      if d in prev {
        var i :| 0 <= i < n && KeepsRow(rows[..n][i]) && d == DamageOf(rows[..n][i]);
        assert rows[i] == rows[..n][i];
      } else {
        assert KeepsRow(rows[n]) && d == DamageOf(rows[n]);
      }
    }
  }

  /** `saveNewAbility`: a blank name is refused (`None`) and nothing changes.
      Otherwise the ability, with its text fields trimmed (the action is
      taken as it is), is appended under the id drawn from the counter, and
      the counter moves on by one. */
  function SaveNewAbility(st: AbilitiesState, f: AbilityForm): (r: Option<AbilitiesState>)
    ensures r.None? <==> Trim(f.name) == []
    ensures r.Some? ==> r.value.nextId == st.nextId + 1
    ensures r.Some? ==> |r.value.abilities| == |st.abilities| + 1 && r.value.abilities[..|st.abilities|] == st.abilities
    ensures r.Some? ==> var a := r.value.abilities[|st.abilities|];
      a.id == AbilityId(st.nextId) && a.name == Trim(f.name) && a.name != []
      && a.action == f.action && a.damage == DamageOptions(f.damageRows)
    ensures r.Some? ==> var a := r.value.abilities[|st.abilities|];
      a.abilityType == Trim(f.abilityType) && a.keywords == Trim(f.keywords)
      && a.target == Trim(f.target) && a.description == Trim(f.description)
  {
    var name := Trim(f.name);
    if name == [] then None
    else
      var a := Ability(AbilityId(st.nextId), name, Trim(f.abilityType), Trim(f.keywords), f.action,
                       Trim(f.target), DamageOptions(f.damageRows), Trim(f.description));
      var abilities := st.abilities + [a];
      assert abilities[..|st.abilities|] == st.abilities;
      Some(AbilitiesState(abilities, st.nextId + 1))
  }

  predicate HasAbility(abilities: seq<Ability>, id: string) {
    exists i :: 0 <= i < |abilities| && abilities[i].id == id
  }

  lemma {:induction false} HasAbilityLast(abilities: seq<Ability>, id: string)
    requires abilities != []
    ensures HasAbility(abilities, id) <==>
      HasAbility(abilities[..|abilities| - 1], id) || abilities[|abilities| - 1].id == id
  {
    var n := |abilities| - 1;
    if HasAbility(abilities[..n], id) {
      var i :| 0 <= i < n && abilities[..n][i].id == id;
      assert abilities[i] == abilities[..n][i];
    }
    if HasAbility(abilities, id) && abilities[n].id != id {
      var i :| 0 <= i < |abilities| && abilities[i].id == id;
      assert abilities[..n][i] == abilities[i];
    }
  }

  lemma {:induction false} HasAbilityFirst(abilities: seq<Ability>, id: string)
    requires abilities != []
    ensures HasAbility(abilities, id) <==> abilities[0].id == id || HasAbility(abilities[1..], id)
  {
    if HasAbility(abilities[1..], id) {
      var i :| 0 <= i < |abilities| - 1 && abilities[1..][i].id == id;
      assert abilities[i + 1] == abilities[1..][i];
    }
    if HasAbility(abilities, id) && abilities[0].id != id {
      var i :| 0 <= i < |abilities| && abilities[i].id == id;
      assert abilities[1..][i - 1] == abilities[i];
    }
  }

  /** Every id was drawn from the counter below its current value, and no id
      occurs twice. */
  ghost predicate DrawnBelow(id: string, next: int) {
    exists k :: 1 <= k < next && id == AbilityId(k)
  }

  ghost predicate Valid(st: AbilitiesState) {
    && st.nextId >= 1
    && (forall i :: 0 <= i < |st.abilities| ==> DrawnBelow(st.abilities[i].id, st.nextId))
    && (forall i, j :: 0 <= i < j < |st.abilities| ==> st.abilities[i].id != st.abilities[j].id)
  }

  lemma {:induction false} InitialValid()
    ensures Valid(InitialAbilities)
  {
  }

  /** The counter only moves up, so the new id is fresh and the list stays valid. */
  lemma {:induction false} SaveKeepsValid(st: AbilitiesState, f: AbilityForm)
    requires Valid(st) && Trim(f.name) != []
    ensures !HasAbility(st.abilities, AbilityId(st.nextId))
    ensures Valid(SaveNewAbility(st, f).value)
  {
    var r := SaveNewAbility(st, f).value;
    var n := |st.abilities|;
    var a := r.abilities[n];
    assert r.abilities == st.abilities + [a];
    AppendFreshKeepsValid(st, a);
  }

  /** Appending an ability under the counter's current id and advancing the
      counter keeps the list valid. */
  lemma {:induction false} AppendFreshKeepsValid(st: AbilitiesState, a: Ability)
    requires Valid(st) && a.id == AbilityId(st.nextId)
    ensures !HasAbility(st.abilities, a.id)
    ensures Valid(AbilitiesState(st.abilities + [a], st.nextId + 1))
  {
    var r := st.abilities + [a];
    var n := |st.abilities|;
    forall i | 0 <= i < n ensures st.abilities[i].id != a.id {
      NotDrawnYet(st.abilities[i].id, st.nextId);
    }
    forall i | 0 <= i < |r| ensures DrawnBelow(r[i].id, st.nextId + 1) {
      if i < n {
        assert r[i] == st.abilities[i];
        DrawnBelowGrows(st.abilities[i].id, st.nextId);
      } else {
        assert r[i].id == AbilityId(st.nextId);
      }
    }
    forall i, j | 0 <= i < j < |r| ensures r[i].id != r[j].id {
      assert r[i] == st.abilities[i];
      if j < n {
        assert r[j] == st.abilities[j];
      }
    }
  }

  lemma {:induction false} NotDrawnYet(id: string, next: int)
    requires DrawnBelow(id, next)
    ensures id != AbilityId(next)
  {
    var k :| 1 <= k < next && id == AbilityId(k);
    AbilityIdInjective(k, next);
  }

  lemma {:induction false} DrawnBelowGrows(id: string, next: int)
    requires DrawnBelow(id, next)
    ensures DrawnBelow(id, next + 1)
  {
    var k :| 1 <= k < next && id == AbilityId(k);
    assert 1 <= k < next + 1 && id == AbilityId(k);
  }

  /** The abilities whose id differs from `id`, in their order. */
  function WithoutAbility(abilities: seq<Ability>, id: string): (r: seq<Ability>)
    ensures |r| <= |abilities|
    ensures forall a {:trigger a in r} :: a in r <==> a in abilities && a.id != id
    ensures |abilities| == 1 ==> r == (if abilities[0].id == id then [] else abilities)
  {
    if abilities == [] then []
    else
      var rest := WithoutAbility(abilities[1..], id);
      assert abilities == [abilities[0]] + abilities[1..];
      if abilities[0].id == id then rest else [abilities[0]] + rest
  }

  /** Removing an id the list does not hold changes nothing. */
  lemma {:induction false} WithoutAbsentId(abilities: seq<Ability>, id: string)
    ensures !HasAbility(abilities, id) ==> WithoutAbility(abilities, id) == abilities
    decreases |abilities|
  {
    if abilities != [] && !HasAbility(abilities, id) {
      HasAbilityFirst(abilities, id);
      WithoutAbsentId(abilities[1..], id);
      assert abilities == [abilities[0]] + abilities[1..];
    }
  }

  /** Removing from two blocks is removing from each block in turn: the
      survivors keep their order. */
  lemma {:induction false} WithoutAbilityConcat(a: seq<Ability>, b: seq<Ability>, id: string)
    ensures WithoutAbility(a + b, id) == WithoutAbility(a, id) + WithoutAbility(b, id)
  {
    WithoutAbilityIsFlatMap(a, id);
    WithoutAbilityIsFlatMap(b, id);
    WithoutAbilityIsFlatMap(a + b, id);
    FlatMapConcat(a, b, Survivor(id));
  }

  /** What one ability leaves after removing `id`: nothing, or itself. */
  function Survivor(id: string): Ability -> seq<Ability> {
    (a: Ability) => if a.id == id then [] else [a]
  }

  lemma {:induction false} WithoutAbilityIsFlatMap(abilities: seq<Ability>, id: string)
    ensures WithoutAbility(abilities, id) == FlatMap(abilities, Survivor(id))
    decreases |abilities|
  {
    if abilities != [] {
      var x := abilities[0];
      WithoutAbilityIsFlatMap(abilities[1..], id);
      FlatMapConcat([x], abilities[1..], Survivor(id));
      assert FlatMap([x], Survivor(id)) == Survivor(id)(x) by {
        assert [x][..0] == [];
      }
      assert abilities == [x] + abilities[1..];
    }
  }

  /** `removeAbility`: the abilities with that id leave the list, the others
      keep their order, and the counter is untouched. */
  function RemoveAbility(st: AbilitiesState, id: string): (r: AbilitiesState)
    ensures r.nextId == st.nextId
    ensures forall a :: a in r.abilities <==> a in st.abilities && a.id != id
    ensures !HasAbility(st.abilities, id) ==> r == st
    ensures !HasAbility(r.abilities, id)
    ensures forall k :: 0 <= k <= |st.abilities| ==>
      r.abilities == WithoutAbility(st.abilities[..k], id) + WithoutAbility(st.abilities[k..], id)
  {
    var r := WithoutAbility(st.abilities, id);
    assert forall i :: 0 <= i < |r| ==> r[i] in r;
    WithoutAbsentId(st.abilities, id);
    forall k | 0 <= k <= |st.abilities|
      ensures r == WithoutAbility(st.abilities[..k], id) + WithoutAbility(st.abilities[k..], id)
    {
      WithoutAbilityConcat(st.abilities[..k], st.abilities[k..], id);
      assert st.abilities[..k] + st.abilities[k..] == st.abilities;
    }
    AbilitiesState(r, st.nextId)
  }

  lemma {:induction false} WithoutAppended(abilities: seq<Ability>, a: Ability)
    requires !HasAbility(abilities, a.id)
    ensures WithoutAbility(abilities + [a], a.id) == abilities
  {
    WithoutAbilityConcat(abilities, [a], a.id);
    WithoutAbsentId(abilities, a.id);
  }

  /** Removing the ability just saved restores the list and keeps the
      advanced counter. */
  lemma {:induction false} RemoveUndoesSave(st: AbilitiesState, f: AbilityForm)
    requires Valid(st) && Trim(f.name) != []
    ensures var r := RemoveAbility(SaveNewAbility(st, f).value, AbilityId(st.nextId));
      r.abilities == st.abilities && r.nextId == st.nextId + 1
  {
    SaveKeepsValid(st, f);
    var s := SaveNewAbility(st, f).value;
    assert s.abilities == st.abilities + [s.abilities[|st.abilities|]];
    WithoutAppended(st.abilities, s.abilities[|st.abilities|]);
  }

  /** The first ability with the id, as `Array.prototype.find` returns it. */
  function FindAbility(abilities: seq<Ability>, id: string): (r: Option<Ability>)
    ensures r.None? <==> !HasAbility(abilities, id)
    ensures r.Some? ==> r.value in abilities && r.value.id == id
    ensures r.Some? ==> exists k :: (0 <= k < |abilities| && abilities[k] == r.value
      && forall j :: 0 <= j < k ==> abilities[j].id != id)
  {
    if abilities == [] then None
    else if abilities[0].id == id then Some(abilities[0])
    else
      HasAbilityFirst(abilities, id);
      var r := FindAbility(abilities[1..], id);
      if r.Some? then
        var k :| 0 <= k < |abilities| - 1 && abilities[1..][k] == r.value
          && forall j :: 0 <= j < k ==> abilities[1..][j].id != id;
        assert abilities[k + 1] == r.value;
        assert forall j :: 0 <= j < k + 1 ==> abilities[j].id != id by {
          forall j | 0 <= j < k + 1 ensures abilities[j].id != id {
            if j > 0 { assert abilities[j] == abilities[1..][j - 1]; }
          }
        }
        r
      else r
  }

  /** Whether `filterAbilities` shows an ability under the filter. */
  predicate Shown(a: Ability, filterType: string) {
    filterType == "all" || a.action == filterType
  }

  /** `filterAbilities`: for each displayed ability element (given by its
      `data-ability-id`), `Some(shown)` when the list holds that id and
      `None` when it does not (the element is left alone); the count is the
      number of elements shown. */
  function FilterAbilities(abilities: seq<Ability>, displayed: seq<string>, filterType: string): (r: (seq<Option<bool>>, nat))
    ensures |r.0| == |displayed|
    ensures forall i :: 0 <= i < |displayed| ==>
      (r.0[i].None? <==> !HasAbility(abilities, displayed[i]))
    ensures forall i :: 0 <= i < |displayed| && r.0[i].Some? ==>
      (r.0[i].value <==> Shown(FindAbility(abilities, displayed[i]).value, filterType))
    ensures r.1 == |ShownAt(r.0)|
  {
    var flags := seq(|displayed|, i requires 0 <= i < |displayed| =>
      match FindAbility(abilities, displayed[i])
      case None => None
      case Some(a) => Some(Shown(a, filterType)));
    (flags, CountShown(flags))
  }

  /** The positions whose flag says "shown". */
  function ShownAt(flags: seq<Option<bool>>): set<nat> {
    set i: nat | i < |flags| && flags[i] == Some(true)
  }

  /** The number of flags that say "shown", counted from the last. */
  function CountShown(flags: seq<Option<bool>>): (n: nat)
    ensures n == |ShownAt(flags)|
  {
    if flags == [] then 0
    else
      var k := |flags| - 1;
      var before := flags[..k];
      assert ShownAt(flags) == ShownAt(before) + (if flags[k] == Some(true) then {k} else {});
      assert k !in ShownAt(before);
      CountShown(before) + (if flags[k] == Some(true) then 1 else 0)
  }

  lemma {:induction false} CountShownAll(flags: seq<Option<bool>>)
    requires forall i :: 0 <= i < |flags| ==> flags[i] == Some(true)
    ensures CountShown(flags) == |flags|
  {
    if flags != [] {
      var k := |flags| - 1;
      CountShownAll(flags[..k]);
    }
  }

  /** Under the filter `all`, every displayed element whose ability exists is shown. */
  lemma {:induction false} FilterAllShowsEverything(abilities: seq<Ability>, displayed: seq<string>)
    requires forall i :: 0 <= i < |displayed| ==> HasAbility(abilities, displayed[i])
    ensures FilterAbilities(abilities, displayed, "all").1 == |displayed|
  {
    var r := FilterAbilities(abilities, displayed, "all");
    CountShownAll(r.0);
  }

  // ---------------------------------------------------------------------------
  // The list in a character document

  function DamageValue(d: Damage): Value {
    Obj(map["dice" := Str(d.dice), "type" := Str(d.damageType)])
  }

  function AbilityValue(a: Ability): Value {
    Obj(map[
      "id" := Str(a.id), "name" := Str(a.name), "type" := Str(a.abilityType),
      "keywords" := Str(a.keywords), "action" := Str(a.action), "target" := Str(a.target),
      "damage" := Arr(seq(|a.damage|, i requires 0 <= i < |a.damage| => DamageValue(a.damage[i]))),
      "description" := Str(a.description)])
  }

  /** A text field of a stored object; a missing or non-text field reads as
      empty text. */
  function TextField(fields: map<string, Value>, key: string): string {
    if key in fields && fields[key].Str? then fields[key].s else ""
  }

  function DamageFrom(v: Value): Damage {
    if v.Obj? then Damage(TextField(v.fields, "dice"), TextField(v.fields, "type")) else Damage("", "")
  }

  function AbilityFrom(v: Value): Ability {
    if v.Obj? then
      var f := v.fields;
      var damage := if "damage" in f && f["damage"].Arr? then f["damage"].elems else [];
      Ability(TextField(f, "id"), TextField(f, "name"), TextField(f, "type"), TextField(f, "keywords"),
              TextField(f, "action"), TextField(f, "target"),
              seq(|damage|, i requires 0 <= i < |damage| => DamageFrom(damage[i])),
              TextField(f, "description"))
    else Ability("", "", "", "", "", "", [], "")
  }

  lemma {:induction false} AbilityRoundTrip(a: Ability)
    ensures AbilityFrom(AbilityValue(a)) == a
  {
    var v := AbilityValue(a);
    var damage := v.fields["damage"].elems;
    assert seq(|damage|, i requires 0 <= i < |damage| => DamageFrom(damage[i])) == a.damage;
  }

  /** `getAbilitiesData`: the list and the counter under their document keys. */
  function GetAbilitiesData(st: AbilitiesState): (d: Document)
    ensures d.Keys == {"characterAbilities", "nextAbilityId"}
    ensures d["nextAbilityId"] == Num(st.nextId)
    ensures d["characterAbilities"].Arr? && |d["characterAbilities"].elems| == |st.abilities|
  {
    map[
      "characterAbilities" := Arr(seq(|st.abilities|, i requires 0 <= i < |st.abilities| => AbilityValue(st.abilities[i]))),
      "nextAbilityId" := Num(st.nextId)]
  }

  /** `loadAbilitiesData`: without an array under `characterAbilities`
      nothing changes; otherwise the list is replaced and the counter is the
      stored value, or 1 when that is missing or falsy (`|| 1`). */
  function LoadAbilitiesData(st: AbilitiesState, data: Document): (r: AbilitiesState)
    ensures !("characterAbilities" in data && data["characterAbilities"].Arr?) ==> r == st
    ensures "characterAbilities" in data && data["characterAbilities"].Arr? ==>
      var elems := data["characterAbilities"].elems;
      |r.abilities| == |elems| && (forall i :: 0 <= i < |elems| ==> r.abilities[i] == AbilityFrom(elems[i]))
      && r.nextId == (if "nextAbilityId" in data && Truthy(data["nextAbilityId"]) then IntOf(data["nextAbilityId"]) else 1)
  {
    if "characterAbilities" in data && data["characterAbilities"].Arr? then
      var elems := data["characterAbilities"].elems;
      var next := if "nextAbilityId" in data && Truthy(data["nextAbilityId"]) then IntOf(data["nextAbilityId"]) else 1;
      AbilitiesState(seq(|elems|, i requires 0 <= i < |elems| => AbilityFrom(elems[i])), next)
    else st
  }

  /** Saving then loading gives back the same list and counter, whatever was
      loaded before, as long as the counter is not 0. */
  lemma {:induction false} AbilitiesRoundTrip(st: AbilitiesState, prior: AbilitiesState)
    requires st.nextId != 0
    ensures LoadAbilitiesData(prior, GetAbilitiesData(st)) == st
  {
    var d := GetAbilitiesData(st);
    var elems := d["characterAbilities"].elems;
    forall i | 0 <= i < |elems| ensures AbilityFrom(elems[i]) == st.abilities[i] {
      AbilityRoundTrip(st.abilities[i]);
    }
    assert seq(|elems|, i requires 0 <= i < |elems| => AbilityFrom(elems[i])) == st.abilities;
  }

  /** A stored counter of 0 reads back as 1. */
  lemma {:induction false} ZeroCounterLoadsAsOne(st: AbilitiesState, prior: AbilitiesState)
    requires st.nextId == 0
    ensures LoadAbilitiesData(prior, GetAbilitiesData(st)).nextId == 1
  {
  }
}

=== FILE: details_document.dfy ===
/** The details tab's part of a character document: the three text fields,
    the selected skills as a list of names, the legacy per-checkbox skill
    entries, and the abilities list. */
module DetailsDocument {
  import opened Util
  import opened Json
  import opened DetailsTab
  import opened DetailsAbilities

  /** What the details tab shows: the three text inputs, the selected-skills
      groups and the abilities list with its counter. */
  datatype Details = Details(
    culture: string,
    languages: string,
    projectPoints: string,
    skills: seq<Group>,
    abilities: AbilitiesState
  )

  /** The skill names as the `skills` array of a document. */
  function SkillsValue(l: seq<string>): (v: Value)
    ensures v.Arr? && |v.elems| == |l|
    ensures forall i :: 0 <= i < |l| ==> v.elems[i] == Str(l[i])
  {
    Arr(seq(|l|, i requires 0 <= i < |l| => Str(l[i])))
  }

  /** The skill names `addSelectedSkill` receives from a stored `skills`
      array: each element as the text it reads as. */
  function SkillNames(elems: seq<Value>): (r: seq<string>)
    ensures |r| == |elems|
    ensures forall i :: 0 <= i < |elems| && elems[i].Str? ==> r[i] == elems[i].s
  {
    seq(|elems|, i requires 0 <= i < |elems| => ToText(elems[i]))
  }

  lemma {:induction false} SkillNamesOfValue(l: seq<string>)
    ensures SkillNames(SkillsValue(l).elems) == l
  {
  }

  /** The details document holding `names` as its `skills` entry.
      `checkboxes` are the skill checkboxes that have an id, with their
      checked state; they are copied under their ids after the `skills` entry
      and before the abilities entries, so the abilities entries win. */
  function DetailsDocumentWith(st: Details, checkboxes: map<string, bool>, names: seq<string>): (d: Document)
    ensures "culture" in d && "languages" in d && "project-points" in d && "skills" in d
    ensures "characterAbilities" in d && "nextAbilityId" in d && checkboxes.Keys <= d.Keys
    ensures d.Keys == {"culture", "languages", "project-points", "skills", "characterAbilities", "nextAbilityId"} + checkboxes.Keys
    ensures d["characterAbilities"] == GetAbilitiesData(st.abilities)["characterAbilities"]
    ensures d["nextAbilityId"] == Num(st.abilities.nextId)
    ensures forall id :: id in checkboxes && id !in {"characterAbilities", "nextAbilityId"} ==> d[id] == Bool(checkboxes[id])
    ensures Disjoint(checkboxes) ==>
      d["culture"] == Str(st.culture) && d["languages"] == Str(st.languages)
      && d["project-points"] == Str(st.projectPoints)
      && d["skills"] == SkillsValue(names)
  {
    var fields := map[
      "culture" := Str(st.culture),
      "languages" := Str(st.languages),
      "project-points" := Str(st.projectPoints)];
    var withSkills := fields["skills" := SkillsValue(names)];
    var withBoxes := withSkills + map id | id in checkboxes :: Bool(checkboxes[id]);
    var abilities := GetAbilitiesData(st.abilities);
    withBoxes["characterAbilities" := abilities["characterAbilities"]]["nextAbilityId" := abilities["nextAbilityId"]]
  }

  /** `getDetailsTabData` as written: the `skills` entry is what
      `getSelectedSkillsList` returns, every selected skill twice in a row. */
  function GetDetailsTabData(st: Details, checkboxes: map<string, bool>): (d: Document)
    ensures d.Keys == {"culture", "languages", "project-points", "skills", "characterAbilities", "nextAbilityId"} + checkboxes.Keys
    ensures d["characterAbilities"] == GetAbilitiesData(st.abilities)["characterAbilities"]
    ensures d["nextAbilityId"] == Num(st.abilities.nextId)
    ensures forall id :: id in checkboxes && id !in {"characterAbilities", "nextAbilityId"} ==> d[id] == Bool(checkboxes[id])
    ensures Disjoint(checkboxes) ==>
      d["culture"] == Str(st.culture) && d["languages"] == Str(st.languages)
      && d["project-points"] == Str(st.projectPoints)
      && d["skills"] == SkillsValue(Doubled(SelectedSkills(st.skills)))
  {
    DetailsDocumentWith(st, checkboxes, SelectedSkillsListAsWritten(st.skills))
  }

  /** `getDetailsTabData` with the skills list holding each selected skill
      once. */
  function GetDetailsTabDataIntended(st: Details, checkboxes: map<string, bool>): (d: Document)
    ensures d.Keys == {"culture", "languages", "project-points", "skills", "characterAbilities", "nextAbilityId"} + checkboxes.Keys
    ensures d["characterAbilities"] == GetAbilitiesData(st.abilities)["characterAbilities"]
    ensures d["nextAbilityId"] == Num(st.abilities.nextId)
    ensures forall id :: id in checkboxes && id !in {"characterAbilities", "nextAbilityId"} ==> d[id] == Bool(checkboxes[id])
    ensures Disjoint(checkboxes) ==>
      d["culture"] == Str(st.culture) && d["languages"] == Str(st.languages)
      && d["project-points"] == Str(st.projectPoints)
      && d["skills"] == SkillsValue(SelectedSkills(st.skills))
  {
    DetailsDocumentWith(st, checkboxes, SelectedSkills(st.skills))
  }

  /** No checkbox id collides with a key the details tab writes itself. */
  predicate Disjoint(checkboxes: map<string, bool>) {
    forall id :: id in checkboxes ==> id !in {"culture", "languages", "project-points", "skills", "characterAbilities", "nextAbilityId"}
  }

  /** Whether `key` is a legacy checkbox entry: `skill-` followed by at least
      one character, stored as `true`. */
  predicate LegacyKey(data: Document, key: string) {
    |key| > 6 && key[..6] == "skill-" && key in data && data[key] == Bool(true)
  }

  /** The legacy path of `loadDetailsTabData`: the document's keys in their
      order, and for each legacy entry whose checkbox exists with a non-empty
      value, that value. `boxValues` maps checkbox ids to their values. */
  function LegacySkills(keys: seq<string>, data: Document, boxValues: map<string, string>): (r: seq<string>)
    ensures |r| <= |keys|
    ensures forall s :: s in r <==> exists k :: k in keys && LegacyKey(data, k) && k in boxValues && boxValues[k] == s && s != []
  {
    if keys == [] then []
    else
      var n := |keys| - 1;
      var k := keys[n];
      var prev := LegacySkills(keys[..n], data, boxValues);
      assert keys == keys[..n] + [k];
      if LegacyKey(data, k) && k in boxValues && boxValues[k] != [] then prev + [boxValues[k]] else prev
  }

  /** `loadDetailsTabData`. A text field is written only when its key is in
      the document (as the text the value reads as). The skills are cleared
      and rebuilt by `addSelectedSkill` from the `skills` array, or, when
      there is none, from the legacy checkbox entries. The abilities are
      loaded by `loadAbilitiesData`. */
  function LoadDetailsTabData(st: Details, data: Document, keys: seq<string>, boxValues: map<string, string>): (r: Details)
    ensures "culture" in data ==> r.culture == ToText(data["culture"])
    ensures "culture" !in data ==> r.culture == st.culture
    ensures "languages" in data ==> r.languages == ToText(data["languages"])
    ensures "languages" !in data ==> r.languages == st.languages
    ensures "project-points" in data ==> r.projectPoints == ToText(data["project-points"])
    ensures "project-points" !in data ==> r.projectPoints == st.projectPoints
    ensures r.abilities == LoadAbilitiesData(st.abilities, data)
    ensures WellFormed(r.skills)
    ensures "skills" in data && data["skills"].Arr? ==>
      forall s :: s in SelectedSkills(r.skills) <==> s in SkillNames(data["skills"].elems)
    ensures !("skills" in data && data["skills"].Arr?) ==>
      forall s :: s in SelectedSkills(r.skills) <==> s in LegacySkills(keys, data, boxValues)
  {
    var culture := if "culture" in data then ToText(data["culture"]) else st.culture;
    var languages := if "languages" in data then ToText(data["languages"]) else st.languages;
    var projectPoints := if "project-points" in data then ToText(data["project-points"]) else st.projectPoints;
    var names := if "skills" in data && data["skills"].Arr? then SkillNames(data["skills"].elems)
                 else LegacySkills(keys, data, boxValues);
    AddAllFacts(names);
    Details(culture, languages, projectPoints, AddAll([], names), LoadAbilitiesData(st.abilities, data))
  }

  /** Adding a list to the empty tab gives well-formed groups holding exactly
      the names of the list. */
  lemma {:induction false} AddAllFacts(names: seq<string>)
    ensures WellFormed(AddAll([], names))
    ensures forall s :: s in SelectedSkills(AddAll([], names)) <==> s in names
  {
    if names != [] {
      var n := |names| - 1;
      var x := names[n];
      AddAllFacts(names[..n]);
      var prev := AddAll([], names[..n]);
      AddStep(prev, x);
      InLast(names);
    }
  }

  lemma {:induction false} InLast(l: seq<string>)
    requires l != []
    ensures forall s :: s in l <==> s in l[..|l| - 1] || s == l[|l| - 1]
  {
    assert l == l[..|l| - 1] + [l[|l| - 1]];
  }

  /** One step of the fold, through the contract of `AddSelectedSkill`. */
  lemma {:induction false} AddStep(gs: seq<Group>, x: string)
    requires WellFormed(gs)
    ensures WellFormed(AddSkill(gs, x))
    ensures forall s :: s in SelectedSkills(AddSkill(gs, x)) <==> s in SelectedSkills(gs) || s == x
  {
    AddSkillIsAdd(gs, x);
  }

  /** Saving and loading the details tab gives it back, whatever it showed
      before, as long as the skill checkbox ids stay clear of the tab's own
      keys and the ability counter is not 0. The doubled skills list the
      save writes reloads to the same groups. */
  lemma {:induction false} DetailsRoundTrip(st: Details, prior: Details, checkboxes: map<string, bool>, keys: seq<string>, boxValues: map<string, string>)
    requires WellFormed(st.skills) && st.abilities.nextId != 0 && Disjoint(checkboxes)
    ensures LoadDetailsTabData(prior, GetDetailsTabData(st, checkboxes), keys, boxValues) == st
  {
    var d := GetDetailsTabData(st, checkboxes);
    DoubledListReloadsTheSame(st.skills);
    var ad := GetAbilitiesData(st.abilities);
    assert LoadAbilitiesData(prior.abilities, d) == LoadAbilitiesData(prior.abilities, ad);
    AbilitiesRoundTrip(st.abilities, prior.abilities);
  }

  /** The same round trip for the document with each skill listed once. */
  lemma {:induction false} DetailsRoundTripIntended(st: Details, prior: Details, checkboxes: map<string, bool>, keys: seq<string>, boxValues: map<string, string>)
    requires WellFormed(st.skills) && st.abilities.nextId != 0 && Disjoint(checkboxes)
    ensures LoadDetailsTabData(prior, GetDetailsTabDataIntended(st, checkboxes), keys, boxValues) == st
  {
    var d := GetDetailsTabDataIntended(st, checkboxes);
    SkillNamesOfValue(SelectedSkills(st.skills));
    RebuildFromList(st.skills);
    var ad := GetAbilitiesData(st.abilities);
    assert LoadAbilitiesData(prior.abilities, d) == LoadAbilitiesData(prior.abilities, ad);
    AbilitiesRoundTrip(st.abilities, prior.abilities);
  }

  /** Saving the skills list with every name twice, as `getSelectedSkillsList`
      returns it, reloads to the same groups as the list with each name once. */
  lemma {:induction false} DoubledListReloadsTheSame(gs: seq<Group>)
    requires WellFormed(gs)
    ensures AddAll([], SkillNames(SkillsValue(SelectedSkillsListAsWritten(gs)).elems)) == gs
  {
    SkillNamesOfValue(SelectedSkillsListAsWritten(gs));
    AddAllDoubled([], SelectedSkills(gs));
    RebuildFromList(gs);
  }
}

=== FILE: details_tab.dfy ===
/** The details tab: selected skills shown in category groups kept in
    alphabetical order, the (never called) full regrouping of the skills, the
    list of character abilities with its id counter, and the tab's part of a
    character document. */
module DetailsTab {
  import opened Util
  import opened Json

  // ---------------------------------------------------------------------------
  // Skill categories

  /** The fixed table of categories and their skills, in its source order. */
  const SkillCategories: seq<(string, seq<string>)> := [
    ("Crafting", ["Alchemy", "Architecture", "Blacksmithing", "Carpentry", "Cooking", "Fletching", "Forgery", "Jewelry", "Mechanics", "Tailoring"]),
    ("Exploration", ["Climb", "Drive", "Endurance", "Gymnastics", "Heal", "Jump", "Lift", "Navigate", "Ride", "Swim"]),
    ("Interpersonal", ["Brag", "Empathize", "Flirt", "Gamble", "Handle Animals", "Interrogate", "Intimidate", "Lead", "Lie", "Music", "Performance", "Persuade", "Read Person"]),
    ("Intrigue", ["Alertness", "Conceal Object", "Disguise", "Eavesdrop", "Escape Artist", "Hide", "Pick Lock", "Pick Pocket", "Sabotage", "Search", "Sneak", "Track"]),
    ("Lore", ["Culture", "Criminal Underworld", "History", "Magic", "Monsters", "Nature", "Psionics", "Religion", "Rumors", "Society", "Strategy", "Timescape"])
  ]

  const OtherCategory := "Other"

  /** The first category of `table` (from position `from` on) whose list holds
      the skill. */
  function CategoryFrom(table: seq<(string, seq<string>)>, skill: string, from: nat): (r: Option<nat>)
    requires from <= |table|
    ensures r.Some? ==> (from <= r.value < |table| && skill in table[r.value].1
      && forall k :: from <= k < r.value ==> skill !in table[k].1)
    ensures r.None? ==> forall k :: from <= k < |table| ==> skill !in table[k].1
    decreases |table| - from
  {
    if from == |table| then None
    else if skill in table[from].1 then Some(from)
    else CategoryFrom(table, skill, from + 1)
  }

  /** `getSkillCategory`: the first category listing the skill, `Other` if
      none does. */
  function GetSkillCategory(skill: string): (r: string)
    ensures r == OtherCategory <==> forall k :: 0 <= k < |SkillCategories| ==> skill !in SkillCategories[k].1
    ensures r != OtherCategory ==> exists k :: 0 <= k < |SkillCategories| && SkillCategories[k].0 == r && skill in SkillCategories[k].1
    ensures r != ""
  {
    match CategoryFrom(SkillCategories, skill, 0)
    case Some(k) => SkillCategories[k].0
    case None => OtherCategory
  }

  // ---------------------------------------------------------------------------
  // Selected skills

  /** One category group of the selected skills, in display order. */
  datatype Group = Group(category: string, skills: seq<string>)

  /** The skills of all groups in document order. */
  function Flatten(gs: seq<Group>): seq<string> {
    if gs == [] then [] else Flatten(gs[..|gs| - 1]) + gs[|gs| - 1].skills
  }

  lemma {:induction false} FlattenConcat(a: seq<Group>, b: seq<Group>)
    ensures Flatten(a + b) == Flatten(a) + Flatten(b)
  {
    if b == [] {
      assert a + b == a;
    } else {
      var n := |b| - 1;
      assert (a + b)[..|a + b| - 1] == a + b[..n];
      FlattenConcat(a, b[..n]);
    }
  }

  lemma {:induction false} FlattenSplit(gs: seq<Group>, i: nat)
    requires i < |gs|
    ensures Flatten(gs) == Flatten(gs[..i]) + gs[i].skills + Flatten(gs[i + 1..])
  {
    assert gs == gs[..i] + [gs[i]] + gs[i + 1..];
    InsertFlatten(gs[..i], gs[i], gs[i + 1..]);
  }

  lemma {:induction false} FlattenOne(g: Group)
    ensures Flatten([g]) == g.skills
  {
    assert [g][..0] == [];
  }

  lemma {:induction false} InsertFlatten(left: seq<Group>, g: Group, right: seq<Group>)
    ensures Flatten(left + [g] + right) == Flatten(left) + g.skills + Flatten(right)
  {
    FlattenConcat(left + [g], right);
    FlattenConcat(left, [g]);
    FlattenOne(g);
  }

  lemma {:induction false} InFlatten(gs: seq<Group>, s: string)
    ensures s in Flatten(gs) <==> exists i :: 0 <= i < |gs| && s in gs[i].skills
  {
    if gs != [] {
      var n := |gs| - 1;
      InFlatten(gs[..n], s);
      if s in Flatten(gs) && s !in gs[n].skills {
        var i :| 0 <= i < n && s in gs[..n][i].skills;
        assert gs[i] == gs[..n][i];
      }
      if exists i :: 0 <= i < |gs| && s in gs[i].skills {
        var i :| 0 <= i < |gs| && s in gs[i].skills;
        if i < n { assert gs[..n][i] == gs[i]; }
      }
    }
  }

  /** No skill occurs twice. */
  predicate NoDuplicates(l: seq<string>) {
    forall s :: s in l ==> multiset(l)[s] == 1
  }

  /** The shape `addSelectedSkill` and `removeSelectedSkill` keep: groups
      strictly ascending by category, none empty, every skill in the group of
      its own category, and no skill twice. */
  predicate WellFormed(gs: seq<Group>) {
    CategoriesAscending(gs) && NoEmptyGroup(gs) && Categorized(gs) && NoDuplicates(Flatten(gs))
  }

  predicate CategoriesAscending(gs: seq<Group>) {
    forall i, j :: 0 <= i < j < |gs| ==> LexLess(gs[i].category, gs[j].category)
  }

  predicate NoEmptyGroup(gs: seq<Group>) {
    forall i :: 0 <= i < |gs| ==> gs[i].skills != [] && gs[i].category != ""
  }

  /** Every skill sits in the group of its own category. */
  predicate Categorized(gs: seq<Group>) {
    forall i, k :: 0 <= i < |gs| && 0 <= k < |gs[i].skills| ==> GetSkillCategory(gs[i].skills[k]) == gs[i].category
  }

  /** The corrected reading of the selected skills: each skill once, in
      document order. */
  function SelectedSkills(gs: seq<Group>): (r: seq<string>)
    ensures forall s :: s in r <==> exists i :: 0 <= i < |gs| && s in gs[i].skills
    ensures WellFormed(gs) ==> NoDuplicates(r)
  {
    forall s ensures s in Flatten(gs) <==> exists i :: 0 <= i < |gs| && s in gs[i].skills {
      InFlatten(gs, s);
    }
    Flatten(gs)
  }

  /** Every element twice in a row. */
  function Doubled(l: seq<string>): (r: seq<string>)
    ensures |r| == 2 * |l|
    ensures forall i :: 0 <= i < |l| ==> r[2 * i] == l[i] && r[2 * i + 1] == l[i]
  {
    if l == [] then [] else Doubled(l[..|l| - 1]) + [l[|l| - 1], l[|l| - 1]]
  }

  /** `getSelectedSkillsList` as written: `[data-skill]` matches both a skill
      tag and the remove button inside it, so every skill comes out twice. */
  function SelectedSkillsListAsWritten(gs: seq<Group>): (r: seq<string>)
    ensures r == Doubled(SelectedSkills(gs))
    ensures forall s :: s in r <==> s in SelectedSkills(gs)
  {
    var l := SelectedSkills(gs);
    forall s ensures s in Doubled(l) <==> s in l {
      if s in Doubled(l) {
        var k :| 0 <= k < |Doubled(l)| && Doubled(l)[k] == s;
        assert l[k / 2] == s;
      }
      if s in l {
        var k :| 0 <= k < |l| && l[k] == s;
        assert Doubled(l)[2 * k] == s;
      }
    }
    Doubled(l)
  }

  /** Index of the first group with the category, `|gs|` if none. */
  function GroupIndex(gs: seq<Group>, category: string): (i: nat)
    ensures i <= |gs|
    ensures i < |gs| ==> gs[i].category == category
    ensures forall k :: 0 <= k < i ==> gs[k].category != category
  {
    if gs == [] then 0
    else if gs[0].category == category then 0
    else 1 + GroupIndex(gs[1..], category)
  }

  /** Where a new group goes: before the first group whose (non-empty)
      category sorts after it, else at the end. */
  function InsertPosition(gs: seq<Group>, category: string): (j: nat)
    ensures j <= |gs|
    ensures j < |gs| ==> gs[j].category != "" && LexLess(category, gs[j].category)
    ensures forall k :: 0 <= k < j ==> !(gs[k].category != "" && LexLess(category, gs[k].category))
  {
    if gs == [] then 0
    else if gs[0].category != "" && LexLess(category, gs[0].category) then 0
    else 1 + InsertPosition(gs[1..], category)
  }

  /** `addSelectedSkill`: a skill already selected changes nothing; otherwise
      it is appended to the group of its category, or a new group holding it
      is inserted at its alphabetical place. */
  function AddSelectedSkill(gs: seq<Group>, skill: string): (r: seq<Group>)
    ensures skill in SelectedSkills(gs) ==> r == gs
    ensures forall s :: s in SelectedSkills(r) <==> s in SelectedSkills(gs) || s == skill
    ensures skill !in SelectedSkills(gs) ==> multiset(SelectedSkills(r)) == multiset(SelectedSkills(gs)) + multiset{skill}
    ensures WellFormed(gs) ==> WellFormed(r)
  {
    if skill in SelectedSkills(gs) then gs
    else
      var r := PlaceSkill(gs, skill, GetSkillCategory(skill));
      AddFacts(gs, skill, r);
      r
  }

  /** `AddSelectedSkill` without its contract, for the proofs about lists of
      additions. */
  function AddSkill(gs: seq<Group>, skill: string): seq<Group> {
    if skill in Flatten(gs) then gs else PlaceSkill(gs, skill, GetSkillCategory(skill))
  }

  lemma {:induction false} AddSkillIsAdd(gs: seq<Group>, skill: string)
    ensures AddSkill(gs, skill) == AddSelectedSkill(gs, skill)
  {
  }

  /** The placement step of `addSelectedSkill` for a skill of category `c`. */
  function PlaceSkill(gs: seq<Group>, skill: string, c: string): seq<Group> {
    var i := GroupIndex(gs, c);
    if i < |gs| then gs[i := Group(c, gs[i].skills + [skill])]
    else
      var j := InsertPosition(gs, c);
      gs[..j] + [Group(c, [skill])] + gs[j..]
  }

  lemma {:induction false} AddIsPlace(gs: seq<Group>, skill: string, c: string)
    requires skill !in Flatten(gs) && GetSkillCategory(skill) == c
    ensures AddSkill(gs, skill) == PlaceSkill(gs, skill, c)
  {
  }

  lemma {:induction false} AddFacts(gs: seq<Group>, skill: string, r: seq<Group>)
    requires skill !in SelectedSkills(gs)
    requires r == PlaceSkill(gs, skill, GetSkillCategory(skill))
    ensures multiset(Flatten(r)) == multiset(Flatten(gs)) + multiset{skill}
    ensures forall s :: s in SelectedSkills(r) <==> s in SelectedSkills(gs) || s == skill
    ensures WellFormed(gs) ==> WellFormed(r)
  {
    var c := GetSkillCategory(skill);
    var i := GroupIndex(gs, c);
    if i < |gs| {
      AppendToGroup(gs, i, skill);
      if WellFormed(gs) {
        AppendKeepsWellFormed(gs, i, skill);
      }
    } else {
      var j := InsertPosition(gs, c);
      InsertGroup(gs, j, Group(c, [skill]));
      if WellFormed(gs) {
        InsertKeepsWellFormed(gs, j, skill);
      }
    }
    MultisetMembership(Flatten(r), Flatten(gs), skill);
  }

  lemma {:induction false} MultisetMembership(b: seq<string>, a: seq<string>, x: string)
    requires multiset(b) == multiset(a) + multiset{x}
    ensures forall s :: s in b <==> s in a || s == x
  {
    forall s ensures s in b <==> s in a || s == x {
      assert s in b <==> s in multiset(b);
      assert s in a <==> s in multiset(a);
    }
  }

  /** Adding one element that is not yet present keeps a list free of duplicates. */
  lemma {:induction false} NoDuplicatesAdd(b: seq<string>, a: seq<string>, x: string)
    requires multiset(b) == multiset(a) + multiset{x}
    requires x !in a && NoDuplicates(a)
    ensures NoDuplicates(b)
  {
    forall s | s in b ensures multiset(b)[s] == 1 {
      assert s in a <==> s in multiset(a);
      if s != x {
        assert s in multiset(b);
        assert multiset(b)[s] == multiset(a)[s];
      } else {
        assert multiset(a)[x] == 0;
      }
    }
  }

  lemma {:induction false} AppendToGroup(gs: seq<Group>, i: nat, skill: string)
    requires i < |gs|
    ensures Flatten(gs[i := Group(gs[i].category, gs[i].skills + [skill])])
      == Flatten(gs[..i]) + gs[i].skills + [skill] + Flatten(gs[i + 1..])
    ensures multiset(Flatten(gs[i := Group(gs[i].category, gs[i].skills + [skill])]))
      == multiset(Flatten(gs)) + multiset{skill}
  {
    var r := gs[i := Group(gs[i].category, gs[i].skills + [skill])];
    FlattenSplit(gs, i);
    FlattenSplit(r, i);
    assert r[..i] == gs[..i] && r[i + 1..] == gs[i + 1..];
  }

  lemma {:induction false} AppendKeepsWellFormed(gs: seq<Group>, i: nat, skill: string)
    requires WellFormed(gs) && skill !in Flatten(gs)
    requires i < |gs| && gs[i].category == GetSkillCategory(skill)
    ensures WellFormed(gs[i := Group(gs[i].category, gs[i].skills + [skill])])
  {
    var r := gs[i := Group(gs[i].category, gs[i].skills + [skill])];
    AppendToGroup(gs, i, skill);
    NoDuplicatesAdd(Flatten(r), Flatten(gs), skill);
    AppendKeepsCategorized(gs, i, skill);
    assert NoEmptyGroup(r);
    assert CategoriesAscending(r);
  }

  lemma {:induction false} AppendKeepsCategorized(gs: seq<Group>, i: nat, skill: string)
    requires Categorized(gs)
    requires i < |gs| && gs[i].category == GetSkillCategory(skill)
    ensures Categorized(gs[i := Group(gs[i].category, gs[i].skills + [skill])])
  {
    var r := gs[i := Group(gs[i].category, gs[i].skills + [skill])];
    forall a, k | 0 <= a < |r| && 0 <= k < |r[a].skills|
      ensures GetSkillCategory(r[a].skills[k]) == r[a].category
    {
      if a == i && k < |gs[i].skills| {
        assert r[a].skills[k] == gs[a].skills[k];
      }
    }
  }

  lemma {:induction false} InsertGroup(gs: seq<Group>, j: nat, g: Group)
    requires j <= |gs|
    ensures multiset(Flatten(gs[..j] + [g] + gs[j..])) == multiset(Flatten(gs)) + multiset(g.skills)
  {
    var left, right := gs[..j], gs[j..];
    InsertFlatten(left, g, right);
    assert gs == left + right;
    FlattenConcat(left, right);
    var fl, fr := Flatten(left), Flatten(right);
    assert multiset(fl + g.skills + fr) == multiset(fl) + multiset(g.skills) + multiset(fr);
  }

  lemma {:induction false} InsertKeepsWellFormed(gs: seq<Group>, j: nat, skill: string)
    requires WellFormed(gs) && skill !in Flatten(gs)
    requires GroupIndex(gs, GetSkillCategory(skill)) == |gs|
    requires j == InsertPosition(gs, GetSkillCategory(skill))
    ensures WellFormed(gs[..j] + [Group(GetSkillCategory(skill), [skill])] + gs[j..])
  {
    var g := Group(GetSkillCategory(skill), [skill]);
    var r := gs[..j] + [g] + gs[j..];
    InsertGroup(gs, j, g);
    NoDuplicatesAdd(Flatten(r), Flatten(gs), skill);
    InsertKeepsOrder(gs, j, g);
    InsertKeepsShape(gs, j, g);
  }

  lemma {:induction false} InsertKeepsShape(gs: seq<Group>, j: nat, g: Group)
    requires NoEmptyGroup(gs) && Categorized(gs) && j <= |gs|
    requires g.skills != [] && g.category != ""
    requires forall k :: 0 <= k < |g.skills| ==> GetSkillCategory(g.skills[k]) == g.category
    ensures NoEmptyGroup(gs[..j] + [g] + gs[j..]) && Categorized(gs[..j] + [g] + gs[j..])
  {
    var r := gs[..j] + [g] + gs[j..];
    forall a | 0 <= a < |r| ensures r[a].skills != [] && r[a].category != "" {
      InsertAt(gs, j, g, a);
    }
    forall a, k | 0 <= a < |r| && 0 <= k < |r[a].skills|
      ensures GetSkillCategory(r[a].skills[k]) == r[a].category
    {
      InsertAt(gs, j, g, a);
    }
  }

  /** The element at position `a` after inserting `g` at `j`. */
  lemma {:induction false} InsertAt(gs: seq<Group>, j: nat, g: Group, a: nat)
    requires j <= |gs| && a <= |gs|
    ensures (gs[..j] + [g] + gs[j..])[a] == if a < j then gs[a] else if a == j then g else gs[a - 1]
  {
  }

  /** A new group at its insertion position keeps the categories ascending. */
  lemma {:induction false} InsertKeepsOrder(gs: seq<Group>, j: nat, g: Group)
    requires CategoriesAscending(gs)
    requires GroupIndex(gs, g.category) == |gs|
    requires j == InsertPosition(gs, g.category)
    ensures CategoriesAscending(gs[..j] + [g] + gs[j..])
  {
    var c := g.category;
    var r := gs[..j] + [g] + gs[j..];
    forall a | 0 <= a < j ensures LexLess(gs[a].category, c) {
      LexLessTotal(gs[a].category, c);
    }
    forall b | j <= b < |gs| ensures LexLess(c, gs[b].category) {
      if b > j { LexLessTransitive(c, gs[j].category, gs[b].category); }
    }
    forall a, b | 0 <= a < b < |r| ensures LexLess(r[a].category, r[b].category) {
      InsertAt(gs, j, g, a);
      InsertAt(gs, j, g, b);
      if a < j && b > j {
        LexLessTransitive(gs[a].category, c, gs[b - 1].category);
      }
    }
  }

  /** Index of the first group holding the skill, `|gs|` if none does. */
  function GroupWith(gs: seq<Group>, skill: string): (i: nat)
    ensures i <= |gs|
    ensures i < |gs| ==> skill in gs[i].skills
    ensures forall k :: 0 <= k < i ==> skill !in gs[k].skills
  {
    if gs == [] then 0
    else if skill in gs[0].skills then 0
    else 1 + GroupWith(gs[1..], skill)
  }

  /** Index of the first occurrence of `x` in `l`. */
  function IndexOf(l: seq<string>, x: string): (k: nat)
    requires x in l
    ensures k < |l| && l[k] == x
    ensures forall j :: 0 <= j < k ==> l[j] != x
  {
    if l[0] == x then 0 else 1 + IndexOf(l[1..], x)
  }

  /** `removeSelectedSkill`: the first element carrying the skill is taken out
      of its group, and the group goes too once it holds no skill; a skill that
      is not shown changes nothing. */
  function RemoveSelectedSkill(gs: seq<Group>, skill: string): (r: seq<Group>)
    ensures skill !in SelectedSkills(gs) ==> r == gs
    ensures skill in SelectedSkills(gs) ==>
      multiset(SelectedSkills(r)) == multiset(SelectedSkills(gs)) - multiset{skill}
    ensures WellFormed(gs) ==> WellFormed(r)
    ensures WellFormed(gs) ==> forall s :: s in SelectedSkills(r) <==> s in SelectedSkills(gs) && s != skill
  {
    var i := GroupWith(gs, skill);
    if i == |gs| then
      InFlatten(gs, skill);
      gs
    else
      var k := IndexOf(gs[i].skills, skill);
      var rest := gs[i].skills[..k] + gs[i].skills[k + 1..];
      var r := if rest == [] then gs[..i] + gs[i + 1..] else gs[i := Group(gs[i].category, rest)];
      RemoveFacts(gs, i, k, r);
      r
  }

  lemma {:induction false} RemoveFacts(gs: seq<Group>, i: nat, k: nat, r: seq<Group>)
    requires i < |gs| && k < |gs[i].skills|
    requires var rest := gs[i].skills[..k] + gs[i].skills[k + 1..];
      r == if rest == [] then gs[..i] + gs[i + 1..] else gs[i := Group(gs[i].category, rest)]
    ensures gs[i].skills[k] in Flatten(gs)
    ensures multiset(Flatten(r)) == multiset(Flatten(gs)) - multiset{gs[i].skills[k]}
    ensures WellFormed(gs) ==> WellFormed(r)
    ensures WellFormed(gs) ==> forall s :: s in Flatten(r) <==> s in Flatten(gs) && s != gs[i].skills[k]
  {
    var skill := gs[i].skills[k];
    var l := gs[i].skills;
    var rest := l[..k] + l[k + 1..];
    assert l == l[..k] + [skill] + l[k + 1..];
    assert multiset(l) == multiset(rest) + multiset{skill};
    FlattenSplit(gs, i);
    RemoveFlatten(gs, i, rest, r);
    var fl, fr := Flatten(gs[..i]), Flatten(gs[i + 1..]);
    assert multiset(Flatten(gs)) == multiset(fl) + multiset(l) + multiset(fr);
    assert multiset(Flatten(r)) == multiset(fl) + multiset(rest) + multiset(fr);
    if WellFormed(gs) {
      NoDuplicatesRemove(Flatten(r), Flatten(gs), skill);
      forall x | x in rest ensures x in l { }
      RemoveKeepsShape(gs, i, rest, r);
      MultisetRemoveMembership(Flatten(r), Flatten(gs), skill);
    }
  }

  lemma {:induction false} RemoveFlatten(gs: seq<Group>, i: nat, rest: seq<string>, r: seq<Group>)
    requires i < |gs|
    requires r == if rest == [] then gs[..i] + gs[i + 1..] else gs[i := Group(gs[i].category, rest)]
    ensures Flatten(r) == Flatten(gs[..i]) + rest + Flatten(gs[i + 1..])
  {
    if rest == [] {
      FlattenConcat(gs[..i], gs[i + 1..]);
    } else {
      FlattenSplit(r, i);
      assert r[..i] == gs[..i] && r[i + 1..] == gs[i + 1..];
    }
  }

  lemma {:induction false} RemoveKeepsShape(gs: seq<Group>, i: nat, rest: seq<string>, r: seq<Group>)
    requires CategoriesAscending(gs) && NoEmptyGroup(gs) && Categorized(gs)
    requires i < |gs| && forall x :: x in rest ==> x in gs[i].skills
    requires r == if rest == [] then gs[..i] + gs[i + 1..] else gs[i := Group(gs[i].category, rest)]
    ensures CategoriesAscending(r) && NoEmptyGroup(r) && Categorized(r)
  {
    if rest == [] {
      forall a | 0 <= a < |r| ensures r[a] == gs[if a < i then a else a + 1] {
      }
    } else {
      forall a, k | 0 <= a < |r| && 0 <= k < |r[a].skills|
        ensures GetSkillCategory(r[a].skills[k]) == r[a].category
      {
        if a == i {
          assert r[a].skills[k] in gs[i].skills;
        }
      }
    }
  }

  /** Taking one element out keeps a list free of duplicates. */
  lemma {:induction false} NoDuplicatesRemove(b: seq<string>, a: seq<string>, x: string)
    requires multiset(b) == multiset(a) - multiset{x}
    requires NoDuplicates(a)
    ensures NoDuplicates(b)
  {
    forall s | s in b ensures multiset(b)[s] == 1 {
      assert s in multiset(b);
      assert s in multiset(a);
    }
  }

  lemma {:induction false} MultisetRemoveMembership(b: seq<string>, a: seq<string>, x: string)
    requires multiset(b) == multiset(a) - multiset{x}
    requires NoDuplicates(a)
    ensures forall s :: s in b <==> s in a && s != x
  {
    forall s ensures s in b <==> s in a && s != x {
      assert s in b <==> s in multiset(b);
      assert s in a <==> s in multiset(a);
    }
  }

  /** Removing a skill just added takes the groups back to where they were. */
  lemma {:induction false} RemoveUndoesAdd(gs: seq<Group>, skill: string)
    requires WellFormed(gs) && skill !in SelectedSkills(gs)
    ensures RemoveSelectedSkill(AddSelectedSkill(gs, skill), skill) == gs
  {
    var c := GetSkillCategory(skill);
    var i := GroupIndex(gs, c);
    forall k | 0 <= k < |gs| ensures skill !in gs[k].skills {
      InFlatten(gs, skill);
    }
    if i < |gs| {
      RemoveAppended(gs, i, skill);
    } else {
      RemoveInserted(gs, InsertPosition(gs, c), Group(c, [skill]));
    }
  }

  lemma {:induction false} RemoveAppended(gs: seq<Group>, i: nat, skill: string)
    requires i < |gs| && gs[i].skills != []
    requires forall k :: 0 <= k < |gs| ==> skill !in gs[k].skills
    ensures RemoveSelectedSkill(gs[i := Group(gs[i].category, gs[i].skills + [skill])], skill) == gs
  {
    var r := gs[i := Group(gs[i].category, gs[i].skills + [skill])];
    assert r[i].skills[|gs[i].skills|] == skill;
    assert forall k :: 0 <= k < i ==> r[k] == gs[k];
    assert GroupWith(r, skill) == i;
    var k := IndexOf(r[i].skills, skill);
    assert k == |gs[i].skills|;
    assert r[i].skills[..k] + r[i].skills[k + 1..] == gs[i].skills;
  }

  lemma {:induction false} RemoveInserted(gs: seq<Group>, j: nat, g: Group)
    requires j <= |gs| && |g.skills| == 1
    requires forall k :: 0 <= k < |gs| ==> g.skills[0] !in gs[k].skills
    ensures RemoveSelectedSkill(gs[..j] + [g] + gs[j..], g.skills[0]) == gs
  {
    var skill := g.skills[0];
    var r := gs[..j] + [g] + gs[j..];
    forall a | 0 <= a < j ensures skill !in r[a].skills {
      assert r[a] == gs[a];
    }
    assert r[j] == g;
    assert GroupWith(r, skill) == j;
    assert IndexOf(g.skills, skill) == 0;
    assert r[..j] + r[j + 1..] == gs;
  }

  // ---------------------------------------------------------------------------
  // Adding a list of skills

  /** `addSelectedSkill` called for each skill of the list in turn. */
  function AddAll(gs: seq<Group>, skills: seq<string>): seq<Group>
  {
    if skills == [] then gs
    else AddSkill(AddAll(gs, skills[..|skills| - 1]), skills[|skills| - 1])
  }

  lemma {:induction false} AddAllConcat(gs: seq<Group>, a: seq<string>, b: seq<string>)
    ensures AddAll(gs, a + b) == AddAll(AddAll(gs, a), b)
  {
    if b == [] {
      assert a + b == a;
    } else {
      var n := |b| - 1;
      assert (a + b)[..|a + b| - 1] == a + b[..n];
      AddAllConcat(gs, a, b[..n]);
    }
  }

  /** Adding every skill twice in a row ends where adding it once does: the
      second call finds the skill already selected. */
  lemma {:induction false} AddAllDoubled(gs: seq<Group>, l: seq<string>)
    ensures AddAll(gs, Doubled(l)) == AddAll(gs, l)
  {
    if l != [] {
      var n := |l| - 1;
      var x := l[n];
      var d := Doubled(l[..n]);
      assert Doubled(l) == d + [x, x];
      AddAllDoubled(gs, l[..n]);
      AddAllLast(gs, d + [x], x);
      assert d + [x] + [x] == d + [x, x];
      AddAllLast(gs, d, x);
      AddTwice(AddAll(gs, l[..n]), x);
    }
  }

  lemma {:induction false} AddAllLast(gs: seq<Group>, a: seq<string>, x: string)
    ensures AddAll(gs, a + [x]) == AddSkill(AddAll(gs, a), x)
  {
    assert (a + [x])[..|a|] == a;
  }

  lemma {:induction false} AddTwice(gs: seq<Group>, x: string)
    ensures AddSkill(AddSkill(gs, x), x) == AddSkill(gs, x)
  {
    AddSkillIsAdd(gs, x);
    AddSkillIsAdd(AddSkill(gs, x), x);
    assert x in SelectedSkills(AddSelectedSkill(gs, x));
  }

  /** `l[m]` does not occur before position `m` in a list without duplicates. */
  lemma {:induction false} NotInPrefix(l: seq<string>, m: nat)
    requires NoDuplicates(l) && m < |l|
    ensures l[m] !in l[..m]
  {
    var x := l[m];
    assert l == l[..m] + [x] + l[m + 1..];
    assert multiset(l)[x] == multiset(l[..m])[x] + 1 + multiset(l[m + 1..])[x];
    assert x in l;
    assert multiset(l[..m])[x] == 0;
  }

  lemma {:induction false} NoDuplicatesPrefix(a: seq<string>, b: seq<string>)
    requires NoDuplicates(a + b)
    ensures NoDuplicates(a)
  {
    forall s | s in a ensures multiset(a)[s] == 1 {
      assert multiset(a + b) == multiset(a) + multiset(b);
      assert s in multiset(a) && s in a + b;
    }
  }

  lemma {:induction false} WellFormedPrefix(gs: seq<Group>, n: nat)
    requires WellFormed(gs) && n <= |gs|
    ensures WellFormed(gs[..n])
  {
    assert gs == gs[..n] + gs[n..];
    FlattenConcat(gs[..n], gs[n..]);
    NoDuplicatesPrefix(Flatten(gs[..n]), Flatten(gs[n..]));
  }

  /** Adding the skills of a group that belongs after all existing groups
      rebuilds exactly that group. */
  lemma {:induction false} AddGroupSkills(init: seq<Group>, g: Group)
    requires WellFormed(init + [g])
    ensures AddAll(init, g.skills) == init + [g]
  {
    var gs := init + [g];
    assert gs[|init|] == g;
    FlattenConcat(init, [g]);
    FlattenOne(g);
    forall k | 0 <= k < |init| ensures LexLess(init[k].category, g.category) {
      assert gs[k] == init[k];
    }
    AddGroupPrefix(init, g, |g.skills|);
    assert g.skills[..|g.skills|] == g.skills;
  }

  lemma {:induction false} AddGroupPrefix(init: seq<Group>, g: Group, n: nat)
    requires NoDuplicates(Flatten(init) + g.skills)
    requires forall k :: 0 <= k < |init| ==> LexLess(init[k].category, g.category)
    requires forall j :: 0 <= j < |g.skills| ==> GetSkillCategory(g.skills[j]) == g.category
    requires 1 <= n <= |g.skills|
    ensures AddAll(init, g.skills[..n]) == init + [Group(g.category, g.skills[..n])]
  {
    var c := g.category;
    var x := g.skills[n - 1];
    var p := g.skills[..n - 1];
    var q := g.skills[..n];
    assert q == p + [x];
    NextNotSeen(Flatten(init), g.skills, n - 1);
    AddAllLast(init, p, x);
    if n == 1 {
      assert p == [];
      AddOpensLastGroup(init, c, x);
    } else {
      AddGroupPrefix(init, g, n - 1);
      AddGroupNext(init, c, p, x);
    }
  }

  /** One more skill of the last group, given the group built so far. */
  lemma {:induction false} AddGroupNext(init: seq<Group>, c: string, p: seq<string>, x: string)
    requires forall k :: 0 <= k < |init| ==> LexLess(init[k].category, c)
    requires x !in Flatten(init) + p && GetSkillCategory(x) == c
    requires AddAll(init, p) == init + [Group(c, p)]
    ensures AddSkill(AddAll(init, p), x) == init + [Group(c, p + [x])]
  {
    AddExtendsLastGroup(init, c, p, x);
  }

  lemma {:induction false} NextNotSeen(a: seq<string>, b: seq<string>, m: nat)
    requires NoDuplicates(a + b) && m < |b|
    ensures b[m] !in a + b[..m]
  {
    var l := a + b;
    assert b[m] == l[|a| + m];
    NotInPrefix(l, |a| + m);
    assert l[..|a| + m] == a + b[..m];
  }

  /** The first skill of a group that sorts after all existing groups opens
      that group at the end. */
  lemma {:induction false} AddOpensLastGroup(init: seq<Group>, c: string, x: string)
    requires forall k :: 0 <= k < |init| ==> LexLess(init[k].category, c)
    requires x !in Flatten(init) && GetSkillCategory(x) == c
    ensures AddSkill(init, x) == init + [Group(c, [x])]
  {
    AddIsPlace(init, x, c);
    AddNewLastGroup(init, c, x);
  }

  /** A further skill of the last group is appended to it. */
  lemma {:induction false} AddExtendsLastGroup(init: seq<Group>, c: string, p: seq<string>, x: string)
    requires forall k :: 0 <= k < |init| ==> LexLess(init[k].category, c)
    requires x !in Flatten(init) + p && GetSkillCategory(x) == c
    ensures AddSkill(init + [Group(c, p)], x) == init + [Group(c, p + [x])]
  {
    var h := init + [Group(c, p)];
    FlattenConcat(init, [Group(c, p)]);
    FlattenOne(Group(c, p));
    AddIsPlace(h, x, c);
    AddToLastGroup(init, c, p, x);
  }

  lemma {:induction false} AddNewLastGroup(init: seq<Group>, c: string, x: string)
    requires forall k :: 0 <= k < |init| ==> LexLess(init[k].category, c)
    ensures PlaceSkill(init, x, c) == init + [Group(c, [x])]
  {
    forall k | 0 <= k < |init| ensures init[k].category != c && !LexLess(c, init[k].category) {
      LexLessIrreflexive(c);
      LexLessAsymmetric(init[k].category, c);
    }
    assert GroupIndex(init, c) == |init|;
    assert InsertPosition(init, c) == |init|;
    assert init[..|init|] + [Group(c, [x])] + init[|init|..] == init + [Group(c, [x])];
  }

  lemma {:induction false} AddToLastGroup(init: seq<Group>, c: string, p: seq<string>, x: string)
    requires forall k :: 0 <= k < |init| ==> LexLess(init[k].category, c)
    ensures PlaceSkill(init + [Group(c, p)], x, c) == init + [Group(c, p + [x])]
  {
    var h := init + [Group(c, p)];
    forall k | 0 <= k < |init| ensures h[k].category != c {
      LexLessIrreflexive(c);
      assert h[k] == init[k];
    }
    assert h[|init|] == Group(c, p);
    assert GroupIndex(h, c) == |init|;
    assert h[|init| := Group(c, p + [x])] == init + [Group(c, p + [x])];
  }

  /** Re-adding the selected skills of well-formed groups, in the order they
      are listed, rebuilds the same groups from nothing. */
  lemma {:induction false} RebuildFromList(gs: seq<Group>)
    requires WellFormed(gs)
    ensures AddAll([], SelectedSkills(gs)) == gs
  {
    if gs != [] {
      var n := |gs| - 1;
      var init, last := gs[..n], gs[n];
      assert gs == init + [last];
      assert Flatten(gs) == Flatten(init) + last.skills;
      WellFormedPrefix(gs, n);
      RebuildFromList(init);
      assert AddAll([], Flatten(init)) == init;
      AddAllConcat([], Flatten(init), last.skills);
      AddGroupSkills(init, last);
      assert AddAll(init, last.skills) == gs;
    }
  }

  // ---------------------------------------------------------------------------
  // Regrouping

  /** Ascending by the string order `Array.prototype.sort` uses. */
  predicate SortedSkills(l: seq<string>) {
    forall i, j :: 0 <= i < j < |l| ==> LexLe(l[i], l[j])
  }

  /** The shape `reorganizeSkillsDisplay` builds: categories strictly
      ascending, no empty group, every skill in its category's group, and the
      skills of each group sorted. */
  predicate Regrouped(gs: seq<Group>) {
    CategoriesAscending(gs) && NoEmptyGroup(gs) && Categorized(gs) && GroupsSorted(gs)
  }

  predicate GroupsSorted(gs: seq<Group>) {
    forall i :: 0 <= i < |gs| ==> SortedSkills(gs[i].skills)
  }

  /** `x` put into a sorted list before the first element it sorts below. */
  function InsertSorted(l: seq<string>, x: string): (r: seq<string>)
    ensures multiset(r) == multiset(l) + multiset{x}
    ensures SortedSkills(l) ==> SortedSkills(r)
  {
    if l == [] then [x]
    else if LexLe(x, l[0]) then
      InsertSortedFront(l, x);
      [x] + l
    else
      var rest := InsertSorted(l[1..], x);
      assert l == [l[0]] + l[1..];
      InsertSortedCons(l, x, rest);
      [l[0]] + rest
  }

  lemma {:induction false} InsertSortedFront(l: seq<string>, x: string)
    requires l != [] && LexLe(x, l[0])
    ensures SortedSkills(l) ==> SortedSkills([x] + l)
  {
    if SortedSkills(l) {
      forall j | 0 < j < |l| + 1 ensures LexLe(x, ([x] + l)[j]) {
        assert ([x] + l)[j] == l[j - 1];
        if j > 1 && x != l[0] && l[0] != l[j - 1] {
          LexLessTransitive(x, l[0], l[j - 1]);
        }
      }
    }
  }

  lemma {:induction false} InsertSortedCons(l: seq<string>, x: string, rest: seq<string>)
    requires l != [] && !LexLe(x, l[0])
    requires multiset(rest) == multiset(l[1..]) + multiset{x}
    requires SortedSkills(l[1..]) ==> SortedSkills(rest)
    ensures SortedSkills(l) ==> SortedSkills([l[0]] + rest)
  {
    if SortedSkills(l) {
      LexLessTotal(x, l[0]);
      assert LexLess(l[0], x);
      forall j | 0 <= j < |rest| ensures LexLe(l[0], rest[j]) {
        assert rest[j] in multiset(rest);
        if rest[j] != x {
          assert rest[j] in multiset(l[1..]);
          var k :| 0 <= k < |l[1..]| && l[1..][k] == rest[j];
          assert l[k + 1] == rest[j];
        }
      }
      forall i, j | 0 <= i < j < |rest| + 1 ensures LexLe(([l[0]] + rest)[i], ([l[0]] + rest)[j]) {
        if i > 0 {
          assert ([l[0]] + rest)[i] == rest[i - 1];
        }
        assert ([l[0]] + rest)[j] == rest[j - 1];
      }
    }
  }

  /** One skill of the regrouping: sorted into the group of its category, or
      the start of a new group at its alphabetical place. */
  function RegroupSkill(gs: seq<Group>, skill: string, c: string): seq<Group> {
    var i := GroupIndex(gs, c);
    if i < |gs| then gs[i := Group(c, InsertSorted(gs[i].skills, skill))]
    else
      var j := InsertPosition(gs, c);
      gs[..j] + [Group(c, [skill])] + gs[j..]
  }

  /** The skills of `gs[i]` replaced by `ns`, as seen in the flattened list. */
  lemma {:induction false} ReplaceSkills(gs: seq<Group>, i: nat, ns: seq<string>, x: string)
    requires i < |gs| && multiset(ns) == multiset(gs[i].skills) + multiset{x}
    ensures multiset(Flatten(gs[i := Group(gs[i].category, ns)])) == multiset(Flatten(gs)) + multiset{x}
  {
    var r := gs[i := Group(gs[i].category, ns)];
    FlattenSplit(gs, i);
    FlattenSplit(r, i);
    assert r[..i] == gs[..i] && r[i + 1..] == gs[i + 1..];
    var a, b := Flatten(gs[..i]), Flatten(gs[i + 1..]);
    assert multiset(a + ns + b) == multiset(a) + multiset(ns) + multiset(b);
    assert multiset(a + gs[i].skills + b) == multiset(a) + multiset(gs[i].skills) + multiset(b);
  }

  lemma {:induction false} RegroupSkillFacts(gs: seq<Group>, skill: string)
    requires Regrouped(gs)
    ensures Regrouped(RegroupSkill(gs, skill, GetSkillCategory(skill)))
    ensures multiset(Flatten(RegroupSkill(gs, skill, GetSkillCategory(skill)))) == multiset(Flatten(gs)) + multiset{skill}
  {
    var c := GetSkillCategory(skill);
    var i := GroupIndex(gs, c);
    if i < |gs| {
      RegroupIntoGroup(gs, i, skill);
    } else {
      RegroupNewGroup(gs, InsertPosition(gs, c), skill);
    }
  }

  lemma {:induction false} RegroupIntoGroup(gs: seq<Group>, i: nat, skill: string)
    requires Regrouped(gs)
    requires i < |gs| && gs[i].category == GetSkillCategory(skill)
    ensures Regrouped(gs[i := Group(gs[i].category, InsertSorted(gs[i].skills, skill))])
    ensures multiset(Flatten(gs[i := Group(gs[i].category, InsertSorted(gs[i].skills, skill))]))
      == multiset(Flatten(gs)) + multiset{skill}
  {
    var old_ := gs[i].skills;
    var ns := InsertSorted(old_, skill);
    assert SortedSkills(old_);
    assert SortedSkills(ns);
    assert multiset(ns) == multiset(old_) + multiset{skill};
    ReplaceSkills(gs, i, ns, skill);
    assert ns != [] by {
      assert skill in multiset(ns);
    }
    RegroupReplaced(gs, i, skill, ns);
  }

  lemma {:induction false} RegroupReplaced(gs: seq<Group>, i: nat, skill: string, ns: seq<string>)
    requires Regrouped(gs)
    requires i < |gs| && gs[i].category == GetSkillCategory(skill)
    requires SortedSkills(ns) && ns != [] && multiset(ns) == multiset(gs[i].skills) + multiset{skill}
    ensures Regrouped(gs[i := Group(gs[i].category, ns)])
  {
    SortedInsertKeepsCategorized(gs, i, skill, ns);
    ReplaceKeepsOrder(gs, i, ns);
  }

  lemma {:induction false} ReplaceKeepsOrder(gs: seq<Group>, i: nat, ns: seq<string>)
    requires CategoriesAscending(gs) && NoEmptyGroup(gs) && GroupsSorted(gs)
    requires i < |gs| && ns != [] && SortedSkills(ns)
    ensures var r := gs[i := Group(gs[i].category, ns)];
      CategoriesAscending(r) && NoEmptyGroup(r) && GroupsSorted(r)
  {
  }

  lemma {:induction false} SortedInsertKeepsCategorized(gs: seq<Group>, i: nat, skill: string, ns: seq<string>)
    requires Categorized(gs)
    requires i < |gs| && gs[i].category == GetSkillCategory(skill)
    requires multiset(ns) == multiset(gs[i].skills) + multiset{skill}
    ensures Categorized(gs[i := Group(gs[i].category, ns)])
  {
    var r := gs[i := Group(gs[i].category, ns)];
    forall a, k | 0 <= a < |r| && 0 <= k < |r[a].skills|
      ensures GetSkillCategory(r[a].skills[k]) == r[a].category
    {
      if a == i {
        assert ns[k] in multiset(ns);
        if ns[k] != skill {
          assert ns[k] in multiset(gs[i].skills);
          var m :| 0 <= m < |gs[i].skills| && gs[i].skills[m] == ns[k];
        }
      }
    }
  }

  lemma {:induction false} RegroupNewGroup(gs: seq<Group>, j: nat, skill: string)
    requires Regrouped(gs)
    requires GroupIndex(gs, GetSkillCategory(skill)) == |gs|
    requires j == InsertPosition(gs, GetSkillCategory(skill))
    ensures Regrouped(gs[..j] + [Group(GetSkillCategory(skill), [skill])] + gs[j..])
    ensures multiset(Flatten(gs[..j] + [Group(GetSkillCategory(skill), [skill])] + gs[j..]))
      == multiset(Flatten(gs)) + multiset{skill}
  {
    var g := Group(GetSkillCategory(skill), [skill]);
    InsertGroup(gs, j, g);
    InsertKeepsOrder(gs, j, g);
    InsertKeepsShape(gs, j, g);
    InsertKeepsSorted(gs, j, g);
  }

  lemma {:induction false} InsertKeepsSorted(gs: seq<Group>, j: nat, g: Group)
    requires GroupsSorted(gs) && j <= |gs| && SortedSkills(g.skills)
    ensures GroupsSorted(gs[..j] + [g] + gs[j..])
  {
    var r := gs[..j] + [g] + gs[j..];
    forall a | 0 <= a < |r| ensures SortedSkills(r[a].skills) {
      InsertAt(gs, j, g, a);
    }
  }

  /** The regrouping of a list, one skill at a time. */
  function Regroup(skills: seq<string>): (r: seq<Group>)
    ensures Regrouped(r)
    ensures multiset(Flatten(r)) == multiset(skills)
  {
    if skills == [] then []
    else
      var n := |skills| - 1;
      var x := skills[n];
      var prev := Regroup(skills[..n]);
      var r := RegroupSkill(prev, x, GetSkillCategory(x));
      RegroupSkillFacts(prev, x);
      MultisetLast(skills);
      r
  }

  lemma {:induction false} MultisetLast(l: seq<string>)
    requires l != []
    ensures multiset(l) == multiset(l[..|l| - 1]) + multiset{l[|l| - 1]}
  {
    assert l == l[..|l| - 1] + [l[|l| - 1]];
  }

  /** `reorganizeSkillsDisplay` with the corrected list: the same skills,
      each once, under categories in ascending order and sorted within each
      category. */
  function ReorganizeSkillsDisplay(gs: seq<Group>): (r: seq<Group>)
    ensures Regrouped(r)
    ensures multiset(Flatten(r)) == multiset(SelectedSkills(gs))
    ensures WellFormed(gs) ==> NoDuplicates(Flatten(r))
  {
    var r := Regroup(SelectedSkills(gs));
    assert forall s :: s in Flatten(r) ==> multiset(Flatten(r))[s] == multiset(SelectedSkills(gs))[s];
    r
  }

  /** `reorganizeSkillsDisplay` as written: it regroups the doubled list. */
  function ReorganizeSkillsDisplayAsWritten(gs: seq<Group>): (r: seq<Group>)
    ensures Regrouped(r)
    ensures multiset(Flatten(r)) == multiset(SelectedSkillsListAsWritten(gs))
  {
    Regroup(SelectedSkillsListAsWritten(gs))
  }

  lemma {:induction false} DoubledCount(l: seq<string>, s: string)
    ensures multiset(Doubled(l))[s] == 2 * multiset(l)[s]
  {
    if l != [] {
      var n := |l| - 1;
      var p := l[..n];
      var x := l[n];
      DoubledCount(p, s);
      assert Doubled(l) == Doubled(p) + [x, x];
      assert multiset(Doubled(l)) == multiset(Doubled(p)) + multiset([x, x]);
      assert l == p + [x];
      assert multiset(l) == multiset(p) + multiset{x};
    }
  }

  /** The defect: every selected skill of well-formed groups comes out of the
      as-written regrouping twice (for example `Climb` alone yields two
      `Climb` tags). */
  lemma {:induction false} ReorganizeAsWrittenShowsTwice(gs: seq<Group>, s: string)
    requires WellFormed(gs) && s in SelectedSkills(gs)
    ensures multiset(Flatten(ReorganizeSkillsDisplayAsWritten(gs)))[s] == 2
    ensures multiset(Flatten(ReorganizeSkillsDisplay(gs)))[s] == 1
  {
    DoubledCount(SelectedSkills(gs), s);
  }
}

=== FILE: inventory_tab.dfy ===
/** Inventory rows and the item-bonus arithmetic: every row carries one bonus
    input per stat, the totals over all rows are added on top of base stat
    values captured the first time bonuses are applied. */
module InventoryTab {
  import opened Util
  import Stamina

  /** The closed set of stats an item can modify. */
  datatype Stat =
    | Might | Agility | Reason | Intuition | Presence
    | StaminaMax | RecoveriesMax | RecoveriesStamina

  /** The element id and `data-stat` key of a stat. */
  function Key(s: Stat): string {
    match s
    case Might => "might"
    case Agility => "agility"
    case Reason => "reason"
    case Intuition => "intuition"
    case Presence => "presence"
    case StaminaMax => "stamina-max"
    case RecoveriesMax => "recoveries-max"
    case RecoveriesStamina => "recoveries-stamina"
  }

  /** The stats in the order a new row lists their inputs. */
  const StatOrder: seq<Stat> :=
    [Might, Agility, Reason, Intuition, Presence, StaminaMax, RecoveriesMax, RecoveriesStamina]

  const AllStats: set<Stat> := set s | s in StatOrder

  lemma {:induction false} AllStatsComplete(s: Stat)
    ensures s in AllStats
  {
    match s
    case Might => assert StatOrder[0] == s;
    case Agility => assert StatOrder[1] == s;
    case Reason => assert StatOrder[2] == s;
    case Intuition => assert StatOrder[3] == s;
    case Presence => assert StatOrder[4] == s;
    case StaminaMax => assert StatOrder[5] == s;
    case RecoveriesMax => assert StatOrder[6] == s;
    case RecoveriesStamina => assert StatOrder[7] == s;
  }

  lemma {:induction false} EveryStatListed()
    ensures forall s: Stat :: s in AllStats
  {
    forall s: Stat ensures s in AllStats { AllStatsComplete(s); }
  }

  /** The stat a key names, if it is one of the eight (`bonuses.hasOwnProperty(stat)`). */
  function StatOfKey(k: string): (r: Option<Stat>)
    ensures r.Some? ==> Key(r.value) == k
    ensures r.None? ==> forall s: Stat :: Key(s) != k
  {
    if k == "might" then Some(Might)
    else if k == "agility" then Some(Agility)
    else if k == "reason" then Some(Reason)
    else if k == "intuition" then Some(Intuition)
    else if k == "presence" then Some(Presence)
    else if k == "stamina-max" then Some(StaminaMax)
    else if k == "recoveries-max" then Some(RecoveriesMax)
    else if k == "recoveries-stamina" then Some(RecoveriesStamina)
    else None
  }

  /** One `.stat-bonus` input of a row: its `data-stat` key and its value read
      with `parseInt(value) || 0`. */
  datatype BonusInput = BonusInput(stat: string, value: int)

  /** One inventory row. `quantity` is `parseInt` of the quantity input, with
      NaN read as 0. */
  datatype ItemRow = ItemRow(quantity: int, name: string, description: string, bonusInputs: seq<BonusInput>)

  /** Number of inputs of a row that carry key `k`. */
  function InputsFor(inputs: seq<BonusInput>, k: string): nat {
    if inputs == [] then 0
    else InputsFor(inputs[..|inputs| - 1], k) + (if inputs[|inputs| - 1].stat == k then 1 else 0)
  }

  /** Sum of the inputs of a row that carry key `k`. */
  function SumFor(inputs: seq<BonusInput>, k: string): int {
    if inputs == [] then 0
    else SumFor(inputs[..|inputs| - 1], k) + (if inputs[|inputs| - 1].stat == k then inputs[|inputs| - 1].value else 0)
  }

  /** Reference definition: the bonus of stat `s` summed over all rows. */
  function TotalBonus(rows: seq<ItemRow>, s: Stat): int {
    if rows == [] then 0
    else TotalBonus(rows[..|rows| - 1], s) + SumFor(rows[|rows| - 1].bonusInputs, Key(s))
  }

  function DefaultInputs(stats: seq<Stat>): seq<BonusInput> {
    seq(|stats|, i requires 0 <= i < |stats| => BonusInput(Key(stats[i]), 0))
  }

  /** The eight keys have eight different lengths, so no two stats share one. */
  lemma {:induction false} KeyInjective()
    ensures forall a: Stat, b: Stat :: Key(a) == Key(b) ==> a == b
  {
    forall a: Stat, b: Stat | Key(a) == Key(b) ensures a == b {
      assert |Key(a)| == |Key(b)|;
    }
  }

  lemma {:induction false} DefaultInputsCount(stats: seq<Stat>, s: Stat)
    requires forall i, j :: 0 <= i < j < |stats| ==> stats[i] != stats[j]
    ensures InputsFor(DefaultInputs(stats), Key(s)) == (if s in stats then 1 else 0)
    ensures SumFor(DefaultInputs(stats), Key(s)) == 0
  {
    if stats != [] {
      var n := |stats| - 1;
      assert DefaultInputs(stats)[..n] == DefaultInputs(stats[..n]);
      DefaultInputsCount(stats[..n], s);
      KeyInjective();
      assert stats == stats[..n] + [stats[n]];
    }
  }

  /** The row `addInventoryItem` creates: quantity 1, empty name and
      description, and exactly one bonus input per stat, each at 0. */
  function NewItemRow(): (r: ItemRow)
    ensures r.quantity == 1 && r.name == "" && r.description == ""
    ensures forall s: Stat :: InputsFor(r.bonusInputs, Key(s)) == 1 && SumFor(r.bonusInputs, Key(s)) == 0
  {
    var r := ItemRow(1, "", "", DefaultInputs(StatOrder));
    DefaultInputsEachOnce();
    r
  }

  lemma {:induction false} DefaultInputsEachOnce()
    ensures forall s: Stat :: InputsFor(DefaultInputs(StatOrder), Key(s)) == 1
    ensures forall s: Stat :: SumFor(DefaultInputs(StatOrder), Key(s)) == 0
  {
    forall s: Stat ensures InputsFor(DefaultInputs(StatOrder), Key(s)) == 1 && SumFor(DefaultInputs(StatOrder), Key(s)) == 0 {
      DefaultInputsCount(StatOrder, s);
      AllStatsComplete(s);
    }
  }

  lemma {:induction false} SumForStep(inputs: seq<BonusInput>, j: nat, k: string)
    requires j < |inputs|
    ensures SumFor(inputs[..j + 1], k) == SumFor(inputs[..j], k) + (if inputs[j].stat == k then inputs[j].value else 0)
  {
    assert inputs[..j + 1][..j] == inputs[..j];
  }

  lemma {:induction false} TotalBonusStep(rows: seq<ItemRow>, i: nat, s: Stat)
    requires i < |rows|
    ensures TotalBonus(rows[..i + 1], s) == TotalBonus(rows[..i], s) + SumFor(rows[i].bonusInputs, Key(s))
  {
    assert rows[..i + 1][..i] == rows[..i];
  }

  /** Adds one input to the totals when its key names a stat. */
  function AddInput(t: map<Stat, int>, input: BonusInput): (r: map<Stat, int>)
    requires t.Keys == AllStats
    ensures r.Keys == AllStats
    ensures forall s :: s in r ==> r[s] == t[s] + (if input.stat == Key(s) then input.value else 0)
  {
    var k := StatOfKey(input.stat);
    if k.None? then t
    else
      var r := t[k.value := t[k.value] + input.value];
      assert forall s :: s in r && s != k.value ==> Key(s) != input.stat by {
        forall s | s in r && s != k.value ensures Key(s) != input.stat {
          KeyDistinct(s, k.value);
        }
      }
      r
  }

  lemma {:induction false} KeyDistinct(a: Stat, b: Stat)
    requires a != b
    ensures Key(a) != Key(b)
  {
    assert |Key(a)| != |Key(b)|;
  }

  /** The inner loop of `recalculateItemBonuses`: add one row's inputs whose
      key names a stat to the running totals. */
  method AddRowBonuses(totals: map<Stat, int>, inputs: seq<BonusInput>) returns (r: map<Stat, int>)
    requires totals.Keys == AllStats
    ensures r.Keys == AllStats
    ensures forall s :: s in r ==> r[s] == totals[s] + SumFor(inputs, Key(s))
  {
    r := totals;
    var j := 0;
    while j < |inputs|
      invariant 0 <= j <= |inputs|
      invariant r.Keys == AllStats
      invariant forall s :: s in r ==> r[s] == totals[s] + SumFor(inputs[..j], Key(s))
    {
      r := AddInput(r, inputs[j]);
      forall s | s in r ensures r[s] == totals[s] + SumFor(inputs[..j + 1], Key(s)) {
        SumForStep(inputs, j, Key(s));
      }
      j := j + 1;
    }
    assert inputs[..j] == inputs;
  }

  /** `recalculateItemBonuses`: start every one of the eight totals at 0, then
      add each bonus input of each row whose key names one of them. */
  method RecalculateItemBonuses(rows: seq<ItemRow>) returns (totals: map<Stat, int>)
    ensures totals.Keys == AllStats
    ensures forall s: Stat :: s in totals && totals[s] == TotalBonus(rows, s)
  {
    EveryStatListed();
    totals := map s | s in AllStats :: 0;
    var i := 0;
    while i < |rows|
      invariant 0 <= i <= |rows|
      invariant totals.Keys == AllStats
      invariant forall s :: s in totals ==> totals[s] == TotalBonus(rows[..i], s)
    {
      var next := AddRowBonuses(totals, rows[i].bonusInputs);
      forall s | s in next ensures next[s] == TotalBonus(rows[..i + 1], s) {
        TotalBonusStep(rows, i, s);
      }
      totals := next;
      i := i + 1;
    }
    assert rows[..i] == rows;
  }

  /** The inputs the limit checks read besides the stats: current and
      temporary stamina, and current recoveries. None of them is a bonus stat. */
  datatype Pools = Pools(staminaCurrent: int, staminaTemp: int, recoveriesCurrent: int)

  /** Base stat values, the values shown after bonuses are applied, and the
      pools after the limit checks. */
  datatype Applied = Applied(base: map<Stat, int>, values: map<Stat, int>, pools: Pools)

  /** A stat the application writes: its element exists and it has a base. */
  predicate Written(base: map<Stat, int>, values: map<Stat, int>, s: Stat) {
    s in values && s in base
  }

  /** `applyItemBonuses`. `base` is the captured base table (`None` before the
      first application); `values` holds the current value of each stat
      element that exists. On the first application the base is captured from
      `values`; afterwards it is never overwritten. Writing `stamina-max`
      clamps current stamina to the new limits, and writing `recoveries-max`
      clamps current recoveries; temporary stamina is left alone. */
  function ApplyItemBonuses(base: Option<map<Stat, int>>, values: map<Stat, int>, bonuses: map<Stat, int>, pools: Pools): (r: Applied)
    requires forall s: Stat :: s in bonuses
    ensures base.Some? ==> r.base == base.value
    ensures base.None? ==> r.base == values
    ensures r.values.Keys == values.Keys
    ensures forall s :: s in values && s in r.base ==> r.values[s] == r.base[s] + bonuses[s]
    ensures forall s :: s in values && s !in r.base ==> r.values[s] == values[s]
    ensures r.pools.staminaTemp == pools.staminaTemp
    ensures Written(r.base, values, StaminaMax) ==>
      r.pools.staminaCurrent == Stamina.EnforceStaminaLimits(pools.staminaCurrent, r.base[StaminaMax] + bonuses[StaminaMax], pools.staminaTemp)
    ensures !Written(r.base, values, StaminaMax) ==> r.pools.staminaCurrent == pools.staminaCurrent
    ensures Written(r.base, values, RecoveriesMax) ==>
      r.pools.recoveriesCurrent == Stamina.EnforceRecoveryLimits(pools.recoveriesCurrent, r.base[RecoveriesMax] + bonuses[RecoveriesMax])
    ensures !Written(r.base, values, RecoveriesMax) ==> r.pools.recoveriesCurrent == pools.recoveriesCurrent
  {
    var b := if base.Some? then base.value else values;
    var shown := map s | s in values :: if s in b then b[s] + bonuses[s] else values[s];
    var stamina := if Written(b, values, StaminaMax)
      then Stamina.EnforceStaminaLimits(pools.staminaCurrent, shown[StaminaMax], pools.staminaTemp)
      else pools.staminaCurrent;
    var recoveries := if Written(b, values, RecoveriesMax)
      then Stamina.EnforceRecoveryLimits(pools.recoveriesCurrent, shown[RecoveriesMax])
      else pools.recoveriesCurrent;
    Applied(b, shown, Pools(stamina, pools.staminaTemp, recoveries))
  }

  /** An item that lowers maximum stamina below current stamina pulls current
      stamina down to the new ceiling. */
  lemma {:induction false} LowerMaxClampsStamina(b: map<Stat, int>, values: map<Stat, int>, bonuses: map<Stat, int>, pools: Pools)
    requires forall s: Stat :: s in bonuses
    requires StaminaMax in b && StaminaMax in values
    requires pools.staminaCurrent > b[StaminaMax] + bonuses[StaminaMax] + pools.staminaTemp
    ensures ApplyItemBonuses(Some(b), values, bonuses, pools).pools.staminaCurrent
      == b[StaminaMax] + bonuses[StaminaMax] + pools.staminaTemp
  {
  }

  /** Applying the same totals again does not add them twice: the base stays
      put, so the shown values are the same, and the pools stay put whenever
      the limits they were clamped to are consistent. */
  lemma {:induction false} ReapplyDoesNotCompound(base: Option<map<Stat, int>>, values: map<Stat, int>, bonuses: map<Stat, int>, pools: Pools)
    requires forall s: Stat :: s in bonuses
    ensures var first := ApplyItemBonuses(base, values, bonuses, pools);
      var second := ApplyItemBonuses(Some(first.base), first.values, bonuses, first.pools);
      && second.base == first.base && second.values == first.values
      && (Written(first.base, values, StaminaMax) ==>
            Stamina.MinAllowed(first.values[StaminaMax]) <= first.values[StaminaMax] + pools.staminaTemp ==>
            second.pools.staminaCurrent == first.pools.staminaCurrent)
      && (!Written(first.base, values, StaminaMax) ==> second.pools.staminaCurrent == first.pools.staminaCurrent)
      && (Written(first.base, values, RecoveriesMax) ==> first.values[RecoveriesMax] >= 0 ==>
            second.pools.recoveriesCurrent == first.pools.recoveriesCurrent)
      && (!Written(first.base, values, RecoveriesMax) ==> second.pools.recoveriesCurrent == first.pools.recoveriesCurrent)
  {
    var first := ApplyItemBonuses(base, values, bonuses, pools);
    if Written(first.base, values, StaminaMax) {
      var max := first.values[StaminaMax];
      if Stamina.MinAllowed(max) <= max + pools.staminaTemp {
        Stamina.EnforceStaminaLimitsIdempotent(pools.staminaCurrent, max, pools.staminaTemp);
      }
    }
    if Written(first.base, values, RecoveriesMax) && first.values[RecoveriesMax] >= 0 {
      Stamina.EnforceRecoveryLimitsIdempotent(pools.recoveriesCurrent, first.values[RecoveriesMax]);
    }
  }

  /** Once every bonus is gone (all items removed or zeroed) the shown values
      return to the captured base. */
  lemma {:induction false} ZeroBonusesRestoreBase(b: map<Stat, int>, values: map<Stat, int>, bonuses: map<Stat, int>, pools: Pools)
    requires forall s: Stat :: s in bonuses
    requires forall s :: s in bonuses ==> bonuses[s] == 0
    ensures forall s :: s in values && s in b ==> ApplyItemBonuses(Some(b), values, bonuses, pools).values[s] == b[s]
  {
  }

  /** `updateBaseStatValue`: only a base entry that already exists takes the
      new (parsed) value; before the first capture nothing changes. The
      recalculation it then triggers is `RecalculateItemBonuses` followed by
      `ApplyItemBonuses`. */
  function UpdateBaseStatValue(base: Option<map<Stat, int>>, statId: string, newValue: int): (r: Option<map<Stat, int>>)
    ensures base.None? ==> r.None?
    ensures base.Some? ==> r.Some? && r.value.Keys == base.value.Keys
    ensures base.Some? ==> forall s :: s in base.value ==>
      r.value[s] == (if Key(s) == statId then newValue else base.value[s])
  {
    match base
    case None => None
    case Some(b) =>
      var k := StatOfKey(statId);
      if k.Some? && k.value in b then Some(b[k.value := newValue]) else Some(b)
  }

  /** Text of the badge `updateBonusIndicators` shows beside a stat: none for
      a zero bonus, a signed number otherwise. */
  function BonusIndicator(bonus: int): (r: Option<string>)
    ensures r.None? <==> bonus == 0
    ensures r.Some? ==> ParseIntJs(r.value) == Some(bonus)
    ensures r.Some? ==> (r.value[0] == '+' <==> bonus > 0) && (r.value[0] == '-' <==> bonus < 0)
    ensures r.Some? ==> |r.value| > 1 && PlainDigits(r.value[1..]) && r.value[1] != '0'
  {
    if bonus == 0 then None
    else if bonus > 0 then
      ParseIntPlusSign(bonus);
      assert ("+" + IntToString(bonus))[1..] == IntToString(bonus);
      Some("+" + IntToString(bonus))
    else
      ParseIntToString(bonus);
      Some(IntToString(bonus))
  }

  /** The badge text is exact: for a non-zero bonus, any text with the
      bonus's sign, plain digits after it and the bonus's value is the badge. */
  lemma {:induction false} BonusIndicatorUnique(bonus: int, t: string)
    requires bonus != 0 && SignedDigitsOf(t, bonus)
    ensures BonusIndicator(bonus) == Some(t)
  {
    SignedDigitsUnique(t, BonusIndicator(bonus).value, bonus);
  }
}

=== FILE: json.dfy ===
/** The values a character document holds once its JSON text is parsed, and
    the two coercions the sheet applies when it writes such a value back into
    a form control: truthiness (for `checkbox.checked`) and string conversion
    (for `input.value`). */
module Json {
  import opened Util

  datatype Value =
    | Null
    | Bool(b: bool)
    | Num(n: int)
    | Str(s: string)
    | Arr(elems: seq<Value>)
    | Obj(fields: map<string, Value>)

  /** A character document: field identifiers and section keys to values. */
  type Document = map<string, Value>

  /** JavaScript's `ToBoolean`. */
  predicate Truthy(v: Value) {
    match v
    case Null => false
    case Bool(b) => b
    case Num(n) => n != 0
    case Str(s) => s != []
    case Arr(_) => true
    case Obj(_) => true
  }

  function Join(parts: seq<string>, sep: string): string {
    if parts == [] then []
    else if |parts| == 1 then parts[0]
    else Join(parts[..|parts| - 1], sep) + sep + parts[|parts| - 1]
  }

  /** The text an `<input>` shows after `input.value = v`: `null` empties it,
      an array is joined with commas (its `null` elements as empty text), an
      object reads `[object Object]`. */
  function ToText(v: Value): (r: string)
    ensures v.Str? ==> r == v.s
    ensures v.Num? ==> ParseIntJs(r) == Some(v.n)
  {
    match v
    case Null => ""
    case Bool(b) => if b then "true" else "false"
    case Num(n) => ParseIntToString(n); IntToString(n)
    case Str(s) => s
    case Arr(es) => Join(seq(|es|, i requires 0 <= i < |es| => ToText(es[i])), ",")
    case Obj(_) => "[object Object]"
  }

  /** `parseInt(String(v)) || 0`: the integer a number input holds after being
      assigned `v` and read back. */
  function IntOf(v: Value): (n: int)
    ensures v.Num? ==> n == v.n
  {
    ParseIntOrZero(ToText(v))
  }

  /** The string `v` holds, if it is one. */
  function StrOf(v: Value): Option<string> {
    if v.Str? then Some(v.s) else None
  }
}

=== FILE: main_tab.dfy ===
/** The main tab's power roll: mutually exclusive stat and edge/bane
    checkboxes, the roll descriptor built from the checked stat and the
    modifiers, and the handling of the d6 result that adds heroic resource. */
module MainTab {
  import opened Util
  import opened SheetCore
  import Resources

  // ---------------------------------------------------------------------------
  // Exclusive checkboxes

  /** No two boxes of the group are checked together. */
  predicate AtMostOne(boxes: seq<bool>) {
    forall i, j :: 0 <= i < |boxes| && 0 <= j < |boxes| && boxes[i] && boxes[j] ==> i == j
  }

  /** The `change` handler of a `.power-stat` or `.power-modifier` box: once
      box `i` has been checked, every other box of its group is unchecked;
      unchecking it leaves the others alone. */
  function ExclusiveChange(boxes: seq<bool>, i: int): (r: seq<bool>)
    requires 0 <= i < |boxes|
    ensures |r| == |boxes| && r[i] == boxes[i]
    ensures boxes[i] ==> forall j :: 0 <= j < |r| && j != i ==> !r[j]
    ensures !boxes[i] ==> r == boxes
  {
    if boxes[i] then seq(|boxes|, j requires 0 <= j < |boxes| => j == i) else boxes
  }

  /** A user click flips box `i` and fires the handler; the group never ends
      up with two boxes checked, and a checked box stays the only one. */
  lemma {:induction false} ClickKeepsAtMostOne(boxes: seq<bool>, i: int)
    requires 0 <= i < |boxes|
    requires AtMostOne(boxes)
    ensures AtMostOne(ExclusiveChange(boxes[i := !boxes[i]], i))
    ensures var r := ExclusiveChange(boxes[i := !boxes[i]], i);
      !boxes[i] ==> forall j :: 0 <= j < |r| ==> (r[j] <==> j == i)
  {
  }

  // ---------------------------------------------------------------------------
  // Power roll

  /** The modifier of the edge and bane boxes; edge wins if both are checked. */
  function EdgeBane(hasEdge: bool, hasBane: bool): (r: int)
    ensures hasEdge ==> r == 2
    ensures !hasEdge && hasBane ==> r == -2
    ensures !hasEdge && !hasBane ==> r == 0
    ensures r > 0 <==> hasEdge
    ensures r < 0 <==> !hasEdge && hasBane
  {
    if hasEdge then 2 else if hasBane then -2 else 0
  }

  /** The part of `s` before its first `c` (`s.split(c)[0]`). */
  function BeforeFirst(s: string, c: char): (r: string)
    ensures |r| <= |s| && r == s[..|r|]
    ensures c !in r
    ensures |r| < |s| ==> s[|r|] == c
  {
    if s == [] || s[0] == c then []
    else
      var rest := BeforeFirst(s[1..], c);
      assert [s[0]] + rest == s[..|rest| + 1];
      [s[0]] + rest
  }

  /** Edge and bane are mirror images: swapping the boxes negates the
      modifier unless both are checked. */
  lemma {:induction false} EdgeBaneMirror(hasEdge: bool, hasBane: bool)
    requires !(hasEdge && hasBane)
    ensures EdgeBane(hasBane, hasEdge) == -EdgeBane(hasEdge, hasBane)
  {
  }

  /** `toUpperCase` on one character; only the ASCII letters are mapped. */
  function UpperAscii(ch: char): (r: char)
    ensures 'a' <= ch <= 'z' ==> 'A' <= r <= 'Z' && r as int - 'A' as int == ch as int - 'a' as int
    ensures !('a' <= ch <= 'z') ==> r == ch
  {
    if 'a' <= ch <= 'z' then (ch as int - 32) as char else ch
  }

  /** `s.charAt(0).toUpperCase() + s.slice(1)`. */
  function Capitalize(s: string): (r: string)
    ensures |r| == |s| && (s != [] ==> r[1..] == s[1..])
    ensures s != [] && 'a' <= s[0] <= 'z' ==> 'A' <= r[0] <= 'Z' && r[0] as int - 'A' as int == s[0] as int - 'a' as int
    ensures s != [] && !('a' <= s[0] <= 'z') ==> r == s
  {
    if s == [] then [] else [UpperAscii(s[0])] + s[1..]
  }

  /** Capitalising an already capitalised name changes nothing. */
  lemma {:induction false} CapitalizeIdempotent(s: string)
    ensures Capitalize(Capitalize(s)) == Capitalize(s)
  {
  }

  /** The inputs a power roll reads: the `.power-stat` boxes in document order
      (element id and checked state), the values of the elements a stat id can
      name, the edge and bane boxes, and the "Other" input if it exists. */
  datatype PowerRollForm = PowerRollForm(
    statBoxes: seq<(string, bool)>,
    values: map<string, string>,
    hasEdge: bool,
    hasBane: bool,
    other: Option<string>
  )

  /** `document.querySelector('.power-stat:checked')`: the id of the first
      checked box. */
  function FirstChecked(boxes: seq<(string, bool)>): Option<string> {
    if boxes == [] then None
    else if boxes[0].1 then Some(boxes[0].0)
    else FirstChecked(boxes[1..])
  }

  /** The id found belongs to a checked box with no checked box before it,
      and nothing is found exactly when no box is checked. */
  lemma {:induction false} FirstCheckedIsFirst(boxes: seq<(string, bool)>)
    ensures FirstChecked(boxes).None? <==> forall i :: 0 <= i < |boxes| ==> !boxes[i].1
    ensures FirstChecked(boxes).Some? ==> exists i :: (0 <= i < |boxes| && boxes[i].1
      && boxes[i].0 == FirstChecked(boxes).value && forall j :: 0 <= j < i ==> !boxes[j].1)
  {
    if boxes != [] && !boxes[0].1 {
      var rest := boxes[1..];
      FirstCheckedIsFirst(rest);
      var r := FirstChecked(rest);
      if r.Some? {
        var i :| 0 <= i < |rest| && rest[i].1 && rest[i].0 == r.value
          && forall j :: 0 <= j < i ==> !rest[j].1;
        assert boxes[i + 1] == rest[i];
        forall j | 0 <= j < i + 1 ensures !boxes[j].1 {
          if j > 0 { assert boxes[j] == rest[j - 1]; }
        }
      } else {
        forall i | 0 <= i < |boxes| ensures !boxes[i].1 {
          if i > 0 { assert boxes[i] == rest[i - 1]; }
        }
      }
    }
  }

  /** Box `i` is checked and no box before it is. */
  predicate FirstCheckedAt(boxes: seq<(string, bool)>, i: int)
    requires 0 <= i < |boxes|
  {
    boxes[i].1 && forall j :: 0 <= j < i ==> !boxes[j].1
  }

  /** At most one box is the first checked one, and `FirstChecked` finds its id. */
  lemma {:induction false} FirstCheckedUnique(boxes: seq<(string, bool)>)
    ensures forall i :: 0 <= i < |boxes| && FirstCheckedAt(boxes, i) ==> FirstChecked(boxes) == Some(boxes[i].0)
  {
    FirstCheckedIsFirst(boxes);
    forall i | 0 <= i < |boxes| && FirstCheckedAt(boxes, i)
      ensures FirstChecked(boxes) == Some(boxes[i].0)
    {
      assert FirstChecked(boxes).Some?;
      var k :| 0 <= k < |boxes| && boxes[k].1 && boxes[k].0 == FirstChecked(boxes).value
        && forall j :: 0 <= j < k ==> !boxes[j].1;
      assert !(k < i) && !(i < k);
    }
  }

  /** The stat modifier and stat name, or `None` when the checked box names an
      element that does not exist (the source throws there). */
  function StatPart(f: PowerRollForm): (r: Option<(int, string)>)
    ensures (forall i :: 0 <= i < |f.statBoxes| ==> !f.statBoxes[i].1) ==> r == Some((0, ""))
    ensures forall i :: 0 <= i < |f.statBoxes| && FirstCheckedAt(f.statBoxes, i) ==>
      var statId := BeforeFirst(f.statBoxes[i].0, '-');
      && (r.None? <==> statId !in f.values)
      && (r.Some? ==> r.value == (ParseIntOrZero(f.values[statId]), Capitalize(statId)))
  {
    FirstCheckedIsFirst(f.statBoxes);
    FirstCheckedUnique(f.statBoxes);
    match FirstChecked(f.statBoxes)
    case None => Some((0, ""))
    case Some(id) =>
      var statId := BeforeFirst(id, '-');
      if statId in f.values then Some((ParseIntOrZero(f.values[statId]), Capitalize(statId))) else None
  }

  /** The "Other" modifier: `parseInt(value) || 0`, or 0 when the input is missing. */
  function OtherModifier(f: PowerRollForm): int {
    if f.other.Some? then ParseIntOrZero(f.other.value) else 0
  }

  /** The label of a power roll. The "Other" part is written `+${other}`,
      so a negative value shows as ` +-3 Other`. */
  function PowerRollLabel(statName: string, hasEdge: bool, hasBane: bool, other: int): (r: string)
    ensures |r| >= 10 && r[..10] == "Power Roll"
  {
    var details :=
      (if statName != "" then " (" + statName + ")" else "")
      + (if hasEdge then " with Edge" else "")
      + (if hasBane then " with Bane" else "")
      + (if other != 0 then " +" + IntToString(other) + " Other" else "");
    assert ("Power Roll" + details)[..10] == "Power Roll";
    "Power Roll" + details
  }

  /** The text of a modifier with its sign: `+n` for `n >= 0`, `String(n)`
      otherwise. */
  function SignedText(n: int): (r: string)
    ensures |r| > 0 && (r[0] == '+' || r[0] == '-')
    ensures r[0] == '-' <==> n < 0
    ensures ParseIntJs(r) == Some(n)
    ensures |r| > 1 && PlainDigits(r[1..])
  {
    if n >= 0 then
      ParseIntPlusSign(n);
      assert ("+" + IntToString(n))[1..] == IntToString(n);
      "+" + IntToString(n)
    else
      ParseIntToString(n);
      IntToString(n)
  }

  /** The signed text is exact: any text with a sign agreeing with `n`, plain
      digits after it and the value `n` is the text `SignedText` writes, so
      `+05` or `-0` never occur. */
  lemma {:induction false} SignedTextUnique(n: int, t: string)
    requires SignedDigitsOf(t, n)
    ensures t == SignedText(n)
  {
    SignedDigitsUnique(t, SignedText(n), n);
  }

  /** `performPowerRoll`: `2d10` plus the sum of the stat, edge/bane and
      "Other" modifiers. */
  function PerformPowerRoll(f: PowerRollForm): (r: Option<RollDescriptor>)
    ensures r.None? <==> StatPart(f).None?
    ensures r.Some? ==> |r.value.roll| > 4 && r.value.roll[..4] == "2d10"
    ensures r.Some? ==> ParseIntJs(r.value.roll[4..]) == Some(StatPart(f).value.0 + EdgeBane(f.hasEdge, f.hasBane) + OtherModifier(f))
    ensures r.Some? ==> |r.value.name| >= 10 && r.value.name[..10] == "Power Roll"
  {
    var sp := StatPart(f);
    if sp.None? then None
    else Some(PowerRollOf(sp.value.0, sp.value.1, f.hasEdge, f.hasBane, OtherModifier(f)))
  }

  /** The roll built from a known stat: its label, and `2d10` followed by the
      signed sum of the stat, edge/bane and "Other" modifiers. */
  function PowerRollOf(stat: int, statName: string, hasEdge: bool, hasBane: bool, other: int): (d: RollDescriptor)
    ensures |d.roll| > 4 && d.roll[..4] == "2d10"
    ensures ParseIntJs(d.roll[4..]) == Some(stat + EdgeBane(hasEdge, hasBane) + other)
    ensures |d.name| >= 10 && d.name[..10] == "Power Roll"
  {
    RollDescriptor(PowerRollLabel(statName, hasEdge, hasBane, other), RollText(stat + EdgeBane(hasEdge, hasBane) + other))
  }

  /** The dice text of a power roll: `2d10` and the signed modifier. */
  function RollText(modifier: int): (roll: string)
    ensures |roll| > 4 && roll[..4] == "2d10"
    ensures ParseIntJs(roll[4..]) == Some(modifier)
  {
    var sign := SignedText(modifier);
    var roll := "2d10" + sign;
    assert roll[4..] == sign && roll[..4] == "2d10";
    roll
  }

  // ---------------------------------------------------------------------------
  // Heroic roll results

  /** The heroic resource gained for a d6 result: 1 for 1-2, 2 for 3-4, 3 otherwise. */
  function Gain(diceValue: int): (r: int)
    ensures 1 <= r <= 3
    ensures diceValue <= 2 ==> r == 1
    ensures diceValue >= 5 ==> r == 3
  {
    if diceValue <= 2 then 1 else if diceValue <= 4 then 2 else 3
  }

  /** Over the six faces the gain is 1, 1, 2, 2, 3, 3: each amount on two faces. */
  lemma {:induction false} GainOverFaces()
    ensures seq(6, i => Gain(i + 1)) == [1, 1, 2, 2, 3, 3]
  {
  }

  /** A dice-tray event: its kind, its roll id and the result list of its first
      result group (`None` when the groups or their results are missing). */
  datatype RollEvent = RollEvent(kind: string, rollId: string, firstResults: Option<seq<int>>)

  /** The pending rolls afterwards and the value written to the heroic input, if any. */
  datatype Handled = Handled(tracked: map<string, int>, heroic: Option<int>)

  /** `handleRollResult`: an untracked roll is ignored. A tracked roll is
      always forgotten; if it is a `rollResults` event with at least one die,
      the heroic input is set to the value remembered when the roll was made
      plus the gain of the first die. */
  function HandleRollResult(tracked: map<string, int>, e: RollEvent): (r: Handled)
    ensures e.rollId !in tracked ==> r == Handled(tracked, None)
    ensures e.rollId in tracked ==> r.tracked == tracked - {e.rollId}
    ensures e.rollId in tracked ==>
      (r.heroic.Some? <==> e.kind == "rollResults" && e.firstResults.Some? && |e.firstResults.value| > 0)
    ensures r.heroic.Some? ==> r.heroic.value - tracked[e.rollId] == Gain(e.firstResults.value[0])
  {
    if e.rollId !in tracked then Handled(tracked, None)
    else
      var heroic :=
        if e.kind == "rollResults" && e.firstResults.Some? && |e.firstResults.value| > 0
        then Some(tracked[e.rollId] + Gain(e.firstResults.value[0]))
        else None;
      Handled(tracked - {e.rollId}, heroic)
  }

  /** A heroic gain from start to finish: the roll `addRandomHeroic` starts
      under a fresh id, answered by its result, writes the heroic value read at
      the start plus 1 to 3, and leaves the pending rolls as they were. */
  lemma {:induction false} HeroicGainRoundTrip(heroicValue: string, heroicName: string, tracked: map<string, int>, id: string, die: int)
    requires id !in tracked
    ensures var req := Resources.AddRandomHeroic(heroicValue, heroicName, tracked, Some(id));
      var done := HandleRollResult(req.tracked, RollEvent("rollResults", id, Some([die])));
      done.tracked == tracked
      && done.heroic == Some(ParseIntOrZero(heroicValue) + Gain(die))
  {
    var v := ParseIntOrZero(heroicValue);
    var req := Resources.AddRandomHeroic(heroicValue, heroicName, tracked, Some(id));
    RememberedFresh(req.tracked, tracked, id, v);
    AnswerFresh(tracked, id, v, die);
  }

  /** A map that adds `id` with value `v` to `tracked` and keeps every other
      entry is `tracked[id := v]`. */
  lemma {:induction false} RememberedFresh(m: map<string, int>, tracked: map<string, int>, id: string, v: int)
    requires m.Keys == tracked.Keys + {id} && m[id] == v
    requires forall k :: k in tracked && k != id ==> m[k] == tracked[k]
    ensures m == tracked[id := v]
  {
    assert m.Keys == tracked[id := v].Keys;
  }

  /** The answer to a roll remembered under a fresh id writes the remembered
      value plus the gain and forgets the roll. */
  lemma {:induction false} AnswerFresh(tracked: map<string, int>, id: string, v: int, die: int)
    requires id !in tracked
    ensures HandleRollResult(tracked[id := v], RollEvent("rollResults", id, Some([die]))) == Handled(tracked, Some(v + Gain(die)))
  {
    ForgetFresh(tracked, id, v);
  }

  /** Remembering a fresh roll and then forgetting it leaves the pending rolls
      as they were. */
  lemma {:induction false} ForgetFresh(tracked: map<string, int>, id: string, v: int)
    requires id !in tracked
    ensures tracked[id := v] - {id} == tracked
  {
    var m := tracked[id := v] - {id};
    assert m.Keys == tracked.Keys;
    assert forall k :: k in m ==> m[k] == tracked[k];
  }
}

=== FILE: notes_tab.dfy ===
/** The notes tab: named pages of free text, one of them current, and a
    counter that numbers new pages. The text of the current page lives in its
    textarea until it is flushed into the page list. */
module NotesTab {
  import opened Util
  import opened Json

  datatype Page = Page(id: string, name: string, content: string)

  /** `notesPages`, `currentNotesPageId` (`None` for null) and `nextNotesPageId`. */
  datatype NotesState = NotesState(pages: seq<Page>, current: Option<string>, nextId: int)

  const InitialNotes := NotesState([], None, 1)

  /** The id of the `n`-th page created through the add button. */
  function PageId(n: int): string { "notes-page-" + IntToString(n) }

  lemma {:induction false} PageIdInjective(a: int, b: int)
    requires PageId(a) == PageId(b)
    ensures a == b
  {
    var p := "notes-page-";
    assert IntToString(a) == PageId(a)[|p|..];
    assert IntToString(b) == PageId(b)[|p|..];
    IntToStringInjective(a, b);
  }

  predicate HasId(pages: seq<Page>, id: string) {
    exists i :: 0 <= i < |pages| && pages[i].id == id
  }

  predicate HasName(pages: seq<Page>, name: string) {
    exists i :: 0 <= i < |pages| && pages[i].name == name
  }

  predicate UniqueIds(pages: seq<Page>) {
    forall i, j :: 0 <= i < |pages| && 0 <= j < |pages| && pages[i].id == pages[j].id ==> i == j
  }

  predicate UniqueNames(pages: seq<Page>) {
    forall i, j :: 0 <= i < |pages| && 0 <= j < |pages| && pages[i].name == pages[j].name ==> i == j
  }

  /** A JavaScript-truthy current page id. */
  predicate HasCurrent(st: NotesState) {
    st.current.Some? && st.current.value != ""
  }

  /** The shape every operation keeps: page ids are non-empty and distinct,
      a page is current exactly when there are pages and it is one of them,
      and no page carries an id the counter will still hand out. */
  ghost predicate Valid(st: NotesState) {
    && UniqueIds(st.pages)
    && (forall i :: 0 <= i < |st.pages| ==> st.pages[i].id != "")
    && (st.current.None? <==> st.pages == [])
    && (st.current.Some? ==> HasId(st.pages, st.current.value))
    && st.nextId >= 1
    && (forall i, k :: 0 <= i < |st.pages| && k >= st.nextId ==> st.pages[i].id != PageId(k))
  }

  lemma {:induction false} InitialValid()
    ensures Valid(InitialNotes)
  {
  }

  /** `saveCurrentPageContent`: with a current page and its textarea present,
      the textarea's text (`editor`) is copied into the first page with that
      id; nothing else changes. */
  function SaveCurrentPageContent(st: NotesState, editor: Option<string>): (r: NotesState)
    ensures r.current == st.current && r.nextId == st.nextId && |r.pages| == |st.pages|
    ensures forall i :: 0 <= i < |st.pages| ==> r.pages[i].id == st.pages[i].id && r.pages[i].name == st.pages[i].name
    ensures forall i :: 0 <= i < |st.pages| && r.pages[i].content != st.pages[i].content ==>
      HasCurrent(st) && editor.Some? && st.pages[i].id == st.current.value && r.pages[i].content == editor.value
    ensures HasCurrent(st) && editor.Some? && UniqueIds(st.pages) ==>
      forall i :: 0 <= i < |st.pages| && st.pages[i].id == st.current.value ==> r.pages[i].content == editor.value
    ensures Valid(st) ==> Valid(r)
  {
    if !HasCurrent(st) || editor.None? then st
    else
      var i := FirstIndexOfId(st.pages, st.current.value);
      if i < |st.pages| then st.(pages := st.pages[i := st.pages[i].(content := editor.value)]) else st
  }

  /** Index of the first page with the id, `|pages|` if there is none
      (`Array.prototype.find`). */
  function FirstIndexOfId(pages: seq<Page>, id: string): (i: nat)
    ensures i <= |pages|
    ensures i < |pages| ==> pages[i].id == id
    ensures forall j :: 0 <= j < i ==> pages[j].id != id
  {
    if pages == [] then 0
    else if pages[0].id == id then 0
    else 1 + FirstIndexOfId(pages[1..], id)
  }

  /** `switchToNotesPage`: the page being left is flushed first (unless it is
      the target), then the target becomes current. */
  function SwitchToNotesPage(st: NotesState, pageId: string, editor: Option<string>): (r: NotesState)
    ensures r.current == Some(pageId)
    ensures r.nextId == st.nextId && |r.pages| == |st.pages|
    ensures forall i :: 0 <= i < |st.pages| ==> r.pages[i].id == st.pages[i].id && r.pages[i].name == st.pages[i].name
    ensures st.current == Some(pageId) ==> r.pages == st.pages
    ensures HasCurrent(st) && st.current.value != pageId ==> r.pages == SaveCurrentPageContent(st, editor).pages
    ensures !HasCurrent(st) ==> r.pages == st.pages
    ensures forall i :: 0 <= i < |st.pages| && r.pages[i].content != st.pages[i].content ==>
      HasCurrent(st) && st.pages[i].id == st.current.value != pageId && editor == Some(r.pages[i].content)
    ensures HasCurrent(st) && st.current.value != pageId && editor.Some? && UniqueIds(st.pages) ==>
      forall i :: 0 <= i < |st.pages| && st.pages[i].id == st.current.value ==> r.pages[i].content == editor.value
  {
    var flushed := if HasCurrent(st) && st.current.value != pageId then SaveCurrentPageContent(st, editor) else st;
    flushed.(current := Some(pageId))
  }

  /** Switching to an existing page keeps the state well formed. */
  lemma {:induction false} SwitchKeepsValid(st: NotesState, pageId: string, editor: Option<string>)
    requires Valid(st) && HasId(st.pages, pageId) && pageId != ""
    ensures Valid(SwitchToNotesPage(st, pageId, editor))
  {
    var r := SwitchToNotesPage(st, pageId, editor);
    var flushed := if HasCurrent(st) && st.current.value != pageId then SaveCurrentPageContent(st, editor) else st;
    assert Valid(flushed);
    var i :| 0 <= i < |st.pages| && st.pages[i].id == pageId;
    assert r.pages[i].id == pageId;
  }

  /** `addNotesPage`: a name already in use is refused (`None`; the source
      alerts and changes nothing). Otherwise a blank page numbered by the
      counter is appended and switched to, flushing the page that was current. */
  function AddNotesPage(st: NotesState, name: string, editor: Option<string>): (r: Option<NotesState>)
    ensures r.None? <==> HasName(st.pages, name)
    ensures r.Some? ==> (r.value.nextId == st.nextId + 1
      && |r.value.pages| == |st.pages| + 1
      && r.value.pages[|st.pages|] == Page(PageId(st.nextId), name, "")
      && (forall i :: 0 <= i < |st.pages| ==> r.value.pages[i].id == st.pages[i].id && r.value.pages[i].name == st.pages[i].name)
      && r.value.current == Some(PageId(st.nextId)))
    ensures r.Some? && Valid(st) ==> r.value.pages == SaveCurrentPageContent(st, editor).pages + [Page(PageId(st.nextId), name, "")]
    ensures r.Some? && UniqueNames(st.pages) ==> UniqueNames(r.value.pages)
    ensures r.Some? && Valid(st) ==> Valid(r.value)
  {
    if HasName(st.pages, name) then None
    else
      var id := PageId(st.nextId);
      var added := st.(pages := st.pages + [Page(id, name, "")], nextId := st.nextId + 1);
      var r := SwitchToNotesPage(added, id, editor);
      AddNotesPageFacts(st, name, editor, added, r);
      Some(r)
  }

  lemma {:induction false} AddNotesPageFacts(st: NotesState, name: string, editor: Option<string>, added: NotesState, r: NotesState)
    requires !HasName(st.pages, name)
    requires added == st.(pages := st.pages + [Page(PageId(st.nextId), name, "")], nextId := st.nextId + 1)
    requires r == SwitchToNotesPage(added, PageId(st.nextId), editor)
    ensures Valid(st) ==> r.pages == SaveCurrentPageContent(st, editor).pages + [Page(PageId(st.nextId), name, "")]
    ensures UniqueNames(st.pages) ==> UniqueNames(r.pages)
    ensures Valid(st) ==> Valid(r)
  {
    if UniqueNames(st.pages) {
      assert forall i :: 0 <= i < |st.pages| ==> r.pages[i].name == added.pages[i].name == st.pages[i].name;
      assert r.pages[|st.pages|].name == name;
    }
    if Valid(st) {
      AddedPages(st, name, editor, added, r);
      AddedValid(st, name, editor, r);
    }
  }

  lemma {:induction false} AddedPages(st: NotesState, name: string, editor: Option<string>, added: NotesState, r: NotesState)
    requires Valid(st)
    requires added == st.(pages := st.pages + [Page(PageId(st.nextId), name, "")], nextId := st.nextId + 1)
    requires r == SwitchToNotesPage(added, PageId(st.nextId), editor)
    ensures r.pages == SaveCurrentPageContent(st, editor).pages + [Page(PageId(st.nextId), name, "")]
  {
    var id := PageId(st.nextId);
    var p := Page(id, name, "");
    assert !HasId(st.pages, id);
    if HasCurrent(st) && editor.Some? {
      FirstIndexOfIdAppend(st.pages, p, st.current.value);
      var i := FirstIndexOfId(st.pages, st.current.value);
      if i < |st.pages| {
        assert r.pages == (st.pages + [p])[i := st.pages[i].(content := editor.value)];
        assert (st.pages + [p])[i := st.pages[i].(content := editor.value)]
          == st.pages[i := st.pages[i].(content := editor.value)] + [p];
      }
    }
  }

  lemma {:induction false} AddedValid(st: NotesState, name: string, editor: Option<string>, r: NotesState)
    requires Valid(st)
    requires r.pages == SaveCurrentPageContent(st, editor).pages + [Page(PageId(st.nextId), name, "")]
    requires r.current == Some(PageId(st.nextId)) && r.nextId == st.nextId + 1
    ensures Valid(r)
  {
    var id := PageId(st.nextId);
    var flushed := SaveCurrentPageContent(st, editor);
    assert Valid(flushed);
    forall k | k >= st.nextId + 1 ensures id != PageId(k) {
      if id == PageId(k) { PageIdInjective(st.nextId, k); }
    }
    assert r.pages[|st.pages|].id == id;
  }

  lemma {:induction false} FirstIndexOfIdAppend(pages: seq<Page>, p: Page, id: string)
    requires p.id != id || FirstIndexOfId(pages, id) < |pages|
    ensures var i := FirstIndexOfId(pages, id);
      FirstIndexOfId(pages + [p], id) == (if i < |pages| then i else |pages| + 1)
  {
    if pages != [] && pages[0].id != id {
      assert (pages + [p])[1..] == pages[1..] + [p];
      FirstIndexOfIdAppend(pages[1..], p, id);
    }
  }

  /** The pages without the one carrying `pageId` (`filter`). */
  function WithoutId(pages: seq<Page>, pageId: string): (r: seq<Page>)
    ensures |r| <= |pages|
    ensures forall i :: 0 <= i < |r| ==> r[i].id != pageId && r[i] in pages
    ensures forall p :: p in pages && p.id != pageId ==> p in r
    ensures |pages| == 1 ==> r == (if pages[0].id == pageId then [] else pages)
  {
    if pages == [] then []
    else
      var rest := WithoutId(pages[..|pages| - 1], pageId);
      var last := pages[|pages| - 1];
      assert pages == pages[..|pages| - 1] + [last];
      if last.id == pageId then rest else rest + [last]
  }

  /** `filter` keeps the order: filtering a concatenation concatenates the
      filtered parts. */
  lemma {:induction false} WithoutIdConcat(a: seq<Page>, b: seq<Page>, pageId: string)
    ensures WithoutId(a + b, pageId) == WithoutId(a, pageId) + WithoutId(b, pageId)
  {
    WithoutIdIsFlatMap(a, pageId);
    WithoutIdIsFlatMap(b, pageId);
    WithoutIdIsFlatMap(a + b, pageId);
    FlatMapConcat(a, b, PageSurvivor(pageId));
  }

  /** What one page leaves after removing `pageId`: nothing, or itself. */
  function PageSurvivor(pageId: string): Page -> seq<Page> {
    (p: Page) => if p.id == pageId then [] else [p]
  }

  lemma {:induction false} WithoutIdIsFlatMap(pages: seq<Page>, pageId: string)
    ensures WithoutId(pages, pageId) == FlatMap(pages, PageSurvivor(pageId))
    decreases |pages|
  {
    if pages != [] {
      WithoutIdIsFlatMap(pages[..|pages| - 1], pageId);
    }
  }

  /** Page `k` is the first page whose id is not `pageId`. */
  predicate FirstKeptAt(pages: seq<Page>, pageId: string, k: int)
    requires 0 <= k < |pages|
  {
    pages[k].id != pageId && forall j :: 0 <= j < k ==> pages[j].id == pageId
  }

  /** Pages that all carry `pageId` leave nothing. */
  lemma {:induction false} WithoutIdAllRemoved(pages: seq<Page>, pageId: string)
    requires forall j :: 0 <= j < |pages| ==> pages[j].id == pageId
    ensures WithoutId(pages, pageId) == []
  {
    if pages != [] {
      WithoutIdAllRemoved(pages[..|pages| - 1], pageId);
    }
  }

  /** The first page left after removing `pageId` is the first page, in the
      original order, whose id differs. */
  lemma {:induction false} FirstKeptLeads(pages: seq<Page>, pageId: string, k: int)
    requires 0 <= k < |pages| && FirstKeptAt(pages, pageId, k)
    ensures WithoutId(pages, pageId) != [] && WithoutId(pages, pageId)[0] == pages[k]
  {
    var before, at, after := pages[..k], [pages[k]], pages[k + 1..];
    assert pages == before + (at + after);
    WithoutIdAllRemoved(before, pageId);
    WithoutIdConcat(before, at + after, pageId);
    WithoutIdConcat(at, after, pageId);
  }

  /** `deleteNotesPage`, confirmed: an unknown id changes nothing; otherwise
      the page is dropped. If it was current, the first remaining page
      becomes current (its textarea is already gone, so nothing is flushed),
      or none when no page remains. */
  function DeleteNotesPage(st: NotesState, pageId: string): (r: NotesState)
    ensures !HasId(st.pages, pageId) ==> r == st
    ensures HasId(st.pages, pageId) ==> r.pages == WithoutId(st.pages, pageId)
    ensures !HasId(r.pages, pageId)
    ensures r.nextId == st.nextId
    ensures st.current != Some(pageId) ==> r.current == st.current
    ensures HasId(st.pages, pageId) && st.current == Some(pageId) && r.pages != [] ==> r.current == Some(r.pages[0].id)
    ensures HasId(st.pages, pageId) && st.current == Some(pageId) && r.pages == [] ==> r.current.None?
    ensures HasId(st.pages, pageId) && st.current == Some(pageId) ==> forall k :: 0 <= k < |st.pages| && FirstKeptAt(st.pages, pageId, k) ==>
      r.current == Some(st.pages[k].id)
    ensures Valid(st) ==> Valid(r)
  {
    if !HasId(st.pages, pageId) then st
    else
      var pages := WithoutId(st.pages, pageId);
      var current :=
        if st.current == Some(pageId) then (if pages != [] then Some(pages[0].id) else None)
        else st.current;
      var r := NotesState(pages, current, st.nextId);
      DeleteKeepsValid(st, pageId, r);
      forall k | 0 <= k < |st.pages| && FirstKeptAt(st.pages, pageId, k) ensures pages != [] && pages[0] == st.pages[k] {
        FirstKeptLeads(st.pages, pageId, k);
      }
      r
  }

  lemma {:induction false} WithoutIdUnique(pages: seq<Page>, pageId: string)
    requires UniqueIds(pages)
    ensures UniqueIds(WithoutId(pages, pageId))
  {
    if pages != [] {
      var init := pages[..|pages| - 1];
      var last := pages[|pages| - 1];
      WithoutIdUnique(init, pageId);
      var rest := WithoutId(init, pageId);
      if last.id != pageId {
        forall i | 0 <= i < |rest| ensures rest[i].id != last.id {
          var j :| 0 <= j < |init| && init[j] == rest[i];
          assert pages[j] == init[j];
        }
      }
    }
  }

  lemma {:induction false} DeleteKeepsValid(st: NotesState, pageId: string, r: NotesState)
    requires HasId(st.pages, pageId)
    requires r.pages == WithoutId(st.pages, pageId) && r.nextId == st.nextId
    requires r.current == (if st.current == Some(pageId) then (if r.pages != [] then Some(r.pages[0].id) else None) else st.current)
    ensures !HasId(r.pages, pageId)
    ensures Valid(st) ==> Valid(r)
  {
    if Valid(st) {
      WithoutIdUnique(st.pages, pageId);
      if st.current.Some? && st.current != Some(pageId) {
        var i :| 0 <= i < |st.pages| && st.pages[i].id == st.current.value;
        assert st.pages[i] in r.pages;
        var j :| 0 <= j < |r.pages| && r.pages[j] == st.pages[i];
      }
      if r.pages != [] {
        assert HasId(r.pages, r.pages[0].id);
      }
      forall i | 0 <= i < |r.pages| ensures r.pages[i].id != "" && forall k :: k >= r.nextId ==> r.pages[i].id != PageId(k) {
        KeptPageFacts(st, r.pages[i]);
      }
    }
  }

  /** A page of a valid state has a non-empty id that no later counter value
      produces. */
  lemma {:induction false} KeptPageFacts(st: NotesState, p: Page)
    requires Valid(st) && p in st.pages
    ensures p.id != "" && forall k :: k >= st.nextId ==> p.id != PageId(k)
  {
    var j :| 0 <= j < |st.pages| && st.pages[j] == p;
  }

  // ---------------------------------------------------------------------------
  // Saved form

  function PageValue(p: Page): Value {
    Obj(map["id" := Str(p.id), "name" := Str(p.name), "content" := Str(p.content)])
  }

  /** A stored page read back; a missing or non-text field reads as empty text. */
  function PageOf(v: Value): Page {
    if v.Obj? then
      Page(FieldText(v.fields, "id"), FieldText(v.fields, "name"), FieldText(v.fields, "content"))
    else Page("", "", "")
  }

  function FieldText(fields: map<string, Value>, key: string): string {
    if key in fields && fields[key].Str? then fields[key].s else ""
  }

  lemma {:induction false} PageRoundTrip(p: Page)
    ensures PageOf(PageValue(p)) == p
  {
  }

  /** The three keys the notes tab contributes to a character document. */
  function NotesDocument(st: NotesState): (d: Document)
    ensures d.Keys == {"notesPages", "currentNotesPageId", "nextNotesPageId"}
    ensures d["notesPages"].Arr? && |d["notesPages"].elems| == |st.pages|
    ensures forall i :: 0 <= i < |st.pages| ==> PageOf(d["notesPages"].elems[i]) == st.pages[i]
  {
    map[
      "notesPages" := Arr(seq(|st.pages|, i requires 0 <= i < |st.pages| => PageValue(st.pages[i]))),
      "currentNotesPageId" := (if st.current.Some? then Str(st.current.value) else Null),
      "nextNotesPageId" := Num(st.nextId)
    ]
  }

  /** `getNotesTabData`: flush the current page, then hand out the data. */
  function GetNotesTabData(st: NotesState, editor: Option<string>): (r: (NotesState, Document))
    ensures r.0 == SaveCurrentPageContent(st, editor)
    ensures r.1 == NotesDocument(r.0)
  {
    var flushed := SaveCurrentPageContent(st, editor);
    (flushed, NotesDocument(flushed))
  }

  /** `loadNotesTabData`. `priorNextId` is the counter before the call (kept
      when the data has no page array) and `legacyId` the id a legacy single
      notes text gets (`'notes-page-' + Date.now()` in the source). A page
      array replaces everything; the saved current id is switched to if it
      names a page, else the first page. Afterwards, a non-blank legacy
      `notes` text with no pages becomes one page called `Notes` and the
      counter is set to 2. */
  function LoadNotesTabData(data: Document, priorNextId: int, legacyId: string): (r: NotesState)
    ensures HasPageArray(data) ==>
      |r.pages| == |data["notesPages"].elems|
      && (forall i :: 0 <= i < |r.pages| ==> r.pages[i] == PageOf(data["notesPages"].elems[i]))
      && r.nextId == (if "nextNotesPageId" in data then NextIdOf(data["nextNotesPageId"]) else 1)
    ensures HasPageArray(data) ==> r.current.Some? && HasId(r.pages, r.current.value)
    ensures HasPageArray(data) && SavedCurrent(data) != "" && HasId(r.pages, SavedCurrent(data)) ==>
      r.current == Some(SavedCurrent(data))
    ensures HasPageArray(data) && !(SavedCurrent(data) != "" && HasId(r.pages, SavedCurrent(data))) ==>
      r.current == Some(r.pages[0].id)
    ensures !HasPageArray(data) && LegacyNotes(data) ==>
      r == NotesState([Page(legacyId, "Notes", data["notes"].s)], Some(legacyId), 2)
    ensures !HasPageArray(data) && !LegacyNotes(data) ==> r.pages == [] && r.current.None?
    ensures !HasPageArray(data) && !LegacyNotes(data) && !("notesPages" in data && data["notesPages"].Arr?) ==>
      r.nextId == priorNextId
  {
    var next := if "nextNotesPageId" in data then NextIdOf(data["nextNotesPageId"]) else 1;
    if HasPageArray(data) then
      var pages := PagesOf(data["notesPages"].elems);
      NotesState(pages, LoadedCurrent(pages, data), next)
    else if LegacyNotes(data) then
      NotesState([Page(legacyId, "Notes", data["notes"].s)], Some(legacyId), 2)
    else if "notesPages" in data && data["notesPages"].Arr? then NotesState([], None, next)
    else NotesState([], None, priorNextId)
  }

  /** The pages of a stored page array, in order. */
  function PagesOf(elems: seq<Value>): (r: seq<Page>)
    ensures |r| == |elems| && forall i :: 0 <= i < |elems| ==> r[i] == PageOf(elems[i])
  {
    seq(|elems|, i requires 0 <= i < |elems| => PageOf(elems[i]))
  }

  /** The page switched to after loading `pages`: the target is the saved id
      when it is truthy, else the first page's id; it is used when it is a
      non-empty id of a loaded page, and the first page is used otherwise. */
  function LoadedCurrent(pages: seq<Page>, data: Document): (r: Option<string>)
    ensures pages == [] ==> r.None?
    ensures pages != [] ==> r.Some? && HasId(pages, r.value)
    ensures SavedCurrent(data) != "" && HasId(pages, SavedCurrent(data)) ==> r == Some(SavedCurrent(data))
    ensures pages != [] && !(SavedCurrent(data) != "" && HasId(pages, SavedCurrent(data))) ==> r == Some(pages[0].id)
  {
    var saved := if "currentNotesPageId" in data then data["currentNotesPageId"] else Null;
    var target :=
      if Truthy(saved) then (if saved.Str? then Some(saved.s) else None)
      else if pages != [] then Some(pages[0].id)
      else None;
    assert pages != [] ==> HasId(pages, pages[0].id);
    if target.Some? && target.value != "" && HasId(pages, target.value) then target
    else if pages != [] then Some(pages[0].id)
    else None
  }

  /** The document holds a non-empty page array. */
  predicate HasPageArray(data: Document) {
    "notesPages" in data && data["notesPages"].Arr? && data["notesPages"].elems != []
  }

  /** The saved current page id, empty text when it is missing or not text
      (a non-text id never equals a page's text id). */
  function SavedCurrent(data: Document): string {
    if "currentNotesPageId" in data && data["currentNotesPageId"].Str? then data["currentNotesPageId"].s else ""
  }

  /** A legacy single `notes` text that is not blank. */
  predicate LegacyNotes(data: Document) {
    "notes" in data && data["notes"].Str? && Trim(data["notes"].s) != []
  }

  /** `data.nextNotesPageId || 1` for a number; any other value reads as 1. */
  function NextIdOf(v: Value): (n: int)
    ensures n != 0
  {
    if v.Num? && v.n != 0 then v.n else 1
  }

  /** Saving the notes and loading them back restores the flushed state. */
  lemma {:induction false} SaveLoadRoundTrip(st: NotesState, editor: Option<string>, priorNextId: int, legacyId: string)
    requires Valid(st)
    ensures var (flushed, doc) := GetNotesTabData(st, editor);
      LoadNotesTabData(doc, priorNextId, legacyId) == flushed
  {
    var (flushed, doc) := GetNotesTabData(st, editor);
    var r := LoadNotesTabData(doc, priorNextId, legacyId);
    assert Valid(flushed);
    assert "notes" !in doc;
    assert r.pages == flushed.pages;
    if flushed.current.Some? {
      assert Truthy(doc["currentNotesPageId"]) by {
        var i :| 0 <= i < |flushed.pages| && flushed.pages[i].id == flushed.current.value;
      }
    }
  }
}

=== FILE: resources.dfy ===
/** Heroic resource and surges: the reset at the start of a combat and the
    d6 roll that adds a random amount of heroic resource. */
module Resources {
  import opened Util
  import opened SheetCore

  /** The values `resetResources` writes: surges and heroic resource. */
  datatype Reset = Reset(surges: int, heroic: nat)

  /** `resetResources`: surges go back to 0 and the heroic resource is set to
      the number of checked victory boxes. */
  function ResetResources(victories: seq<bool>): (r: Reset)
    ensures r.surges == 0
    ensures r.heroic <= |victories|
    ensures r.heroic == |TrueAt(victories)|
  {
    CountTrueIsTrueAt(victories);
    Reset(0, CountTrue(victories))
  }

  /** With exactly the first `k` victory boxes checked, the reset heroic
      resource is `k`; with none checked it is 0. */
  lemma {:induction false} ResetCountsLeadingVictories(victories: seq<bool>, k: nat)
    requires k <= |victories|
    requires forall i :: 0 <= i < |victories| ==> (victories[i] <==> i < k)
    ensures ResetResources(victories) == Reset(0, k)
  {
    CountTruePrefix(victories, k);
  }

  /** Checked boxes count wherever they stand: two scattered checks give 2. */
  lemma {:induction false} ResetCountsScatteredVictories()
    ensures ResetResources([true, false, true]).heroic == 2
  {
    var v := [true, false, true];
    assert TrueAt(v) == {0, 2} by {
      forall i | i in TrueAt(v) ensures i == 0 || i == 2 { }
      assert 0 in TrueAt(v) && 2 in TrueAt(v);
    }
  }

  const DefaultResourceName := "Heroic Resource"

  /** The label of the gain roll: the trimmed resource name, or the default
      name when that is empty, followed by ` Gain`. */
  function GainLabel(heroicName: string): (r: string)
    ensures |r| > |" Gain"| && r[|r| - 5..] == " Gain"
    ensures Trim(heroicName) != [] ==> r == Trim(heroicName) + " Gain"
    ensures IsBlank(heroicName) ==> r == DefaultResourceName + " Gain"
  {
    TrimEmptyIffBlank(heroicName);
    var name := if Trim(heroicName) != [] then Trim(heroicName) else DefaultResourceName;
    name + " Gain"
  }

  /** The outcome of `addRandomHeroic`: the descriptor put in the dice tray
      and the table of pending rolls with the heroic value remembered. */
  datatype GainRequest = GainRequest(descriptor: RollDescriptor, tracked: map<string, int>)

  /** `addRandomHeroic`. `rollId` is what the dice tray's promise resolves to
      (`None` when it rejects, in which case nothing is tracked). The value
      remembered is the heroic input read with `parseInt(value) || 0`. */
  function AddRandomHeroic(heroicValue: string, heroicName: string, tracked: map<string, int>, rollId: Option<string>): (r: GainRequest)
    ensures r.descriptor.roll == "1d6"
    ensures r.descriptor.name == GainLabel(heroicName)
    ensures rollId.None? ==> r.tracked == tracked
    ensures rollId.Some? ==> r.tracked.Keys == tracked.Keys + {rollId.value}
    ensures rollId.Some? ==> r.tracked[rollId.value] == ParseIntOrZero(heroicValue)
    ensures forall id :: id in tracked && Some(id) != rollId ==> r.tracked[id] == tracked[id]
  {
    var current := ParseIntOrZero(heroicValue);
    var descriptor := RollDescriptor(GainLabel(heroicName), "1d6");
    match rollId
    case None => GainRequest(descriptor, tracked)
    case Some(id) => GainRequest(descriptor, tracked[id := current])
  }
}

=== FILE: save_cleanup.dfy ===
/** `cleanupDuplicateCharacters`: one pass over the stored entries in key
    order that remembers, per character name, the entry to keep, and lists
    every other entry for deletion. */
module SaveCleanup {
  import opened Util
  import opened Json
  import opened SaveStore

  /** The `characterName` of an entry, `None` when it has none. Names are
      compared as values. */
  function NameKey(e: Entry): Option<Value> {
    if "characterName" in e.doc then Some(e.doc["characterName"]) else None
  }

  /** `new Date(savedAt)` of an entry; a missing `savedAt` is an invalid
      date. */
  function TimeOf(e: Entry): Option<int> {
    if "savedAt" in e.doc then DateOf(e.doc["savedAt"]) else None
  }

  /** `a > b` on dates: false as soon as either is invalid. */
  predicate Later(a: Option<int>, b: Option<int>) {
    a.Some? && b.Some? && a.value > b.value
  }

  /** The entry remembered for a name: its key and its save time. */
  datatype Keep = Keep(id: string, time: Option<int>)

  /** The state of the pass: the name map and the keys listed for deletion. */
  datatype Scan = Scan(kept: map<Option<Value>, Keep>, toDelete: seq<string>)

  /** One step of the scan: a new name is remembered; for a known name, the later of
      the two entries is remembered and the other listed; on a tie or an
      invalid date the entry seen first stays. */
  function Step(st: Scan, e: Entry): Scan {
    var n := NameKey(e);
    var t := TimeOf(e);
    if n in st.kept then
      if Later(t, st.kept[n].time) then Scan(st.kept[n := Keep(e.id, t)], st.toDelete + [st.kept[n].id])
      else Scan(st.kept, st.toDelete + [e.id])
    else Scan(st.kept[n := Keep(e.id, t)], st.toDelete)
  }

  function ScanAll(es: seq<Entry>): Scan {
    if es == [] then Scan(map[], []) else Step(ScanAll(es[..|es| - 1]), es[|es| - 1])
  }

  /** The entries whose key is not listed, in their order. */
  function Without(es: seq<Entry>, ids: seq<string>): (r: seq<Entry>)
    ensures forall e :: e in r <==> e in es && e.id !in ids
    ensures |r| <= |es|
    ensures |es| == 1 ==> r == (if es[0].id in ids then [] else es)
  {
    if es == [] then []
    else
      var n := |es| - 1;
      assert es == es[..n] + [es[n]];
      Without(es[..n], ids) + (if es[n].id in ids then [] else [es[n]])
  }

  /** Deleting keys keeps the order of the rest: deleting from a
      concatenation concatenates what is left of each part. */
  lemma {:induction false} WithoutConcat(a: seq<Entry>, b: seq<Entry>, ids: seq<string>)
    ensures Without(a + b, ids) == Without(a, ids) + Without(b, ids)
  {
    WithoutIsFlatMap(a, ids);
    WithoutIsFlatMap(b, ids);
    WithoutIsFlatMap(a + b, ids);
    FlatMapConcat(a, b, EntrySurvivor(ids));
  }

  /** What one entry leaves after deleting the listed keys: nothing, or itself. */
  function EntrySurvivor(ids: seq<string>): Entry -> seq<Entry> {
    (e: Entry) => if e.id in ids then [] else [e]
  }

  lemma {:induction false} WithoutIsFlatMap(es: seq<Entry>, ids: seq<string>)
    ensures Without(es, ids) == FlatMap(es, EntrySurvivor(ids))
    decreases |es|
  {
    if es != [] {
      WithoutIsFlatMap(es[..|es| - 1], ids);
    }
  }

  /** The outcome: the entries left and whether the blob is written back. */
  datatype Cleaned = Cleaned(entries: seq<Entry>, rewritten: bool)

  /** `cleanupDuplicateCharacters` on a stored section. */
  function CleanupDuplicateCharacters(es: seq<Entry>): (r: Cleaned)
    ensures forall e :: e in r.entries ==> e in es
    ensures r.rewritten <==> ScanAll(es).toDelete != []
  {
    var st := ScanAll(es);
    Cleaned(Without(es, st.toDelete), st.toDelete != [])
  }

  /** No two entries carry the same name. */
  predicate DistinctNames(es: seq<Entry>) {
    forall i, j :: 0 <= i < j < |es| ==> NameKey(es[i]) != NameKey(es[j])
  }

  // ---------------------------------------------------------------------------
  // The invariant of the pass

  /** The remembered names are exactly the names seen. */
  ghost predicate NamesSeen(es: seq<Entry>, st: Scan) {
    forall k :: k in st.kept <==> exists i :: 0 <= i < |es| && NameKey(es[i]) == k
  }

  /** Each remembered entry is an entry seen under that name. */
  ghost predicate KeptSeen(es: seq<Entry>, st: Scan) {
    forall k :: k in st.kept ==> exists i :: 0 <= i < |es| && IsKept(es[i], k, st.kept[k])
  }

  /** The entry is the one `keep` records under the name `k`. */
  predicate IsKept(e: Entry, k: Option<Value>, keep: Keep) {
    e.id == keep.id && NameKey(e) == k && TimeOf(e) == keep.time
  }

  /** Each listed key is the key of an entry seen. */
  ghost predicate ListedSeen(es: seq<Entry>, st: Scan) {
    forall d :: d in st.toDelete ==> exists i :: 0 <= i < |es| && es[i].id == d
  }

  /** An entry is listed exactly when it is not the one remembered for its name. */
  predicate ListedIffNotKept(es: seq<Entry>, st: Scan)
    requires NamesSeen(es, st)
  {
    forall i :: 0 <= i < |es| ==> (es[i].id in st.toDelete <==> st.kept[NameKey(es[i])].id != es[i].id)
  }

  ghost predicate Inv(es: seq<Entry>, st: Scan) {
    NamesSeen(es, st) && KeptSeen(es, st) && ListedSeen(es, st) && ListedIffNotKept(es, st)
  }

  lemma {:induction false} ScanInv(es: seq<Entry>)
    requires UniqueIds(es)
    ensures Inv(es, ScanAll(es))
  {
    if es != [] {
      var n := |es| - 1;
      var p := es[..n];
      assert es == p + [es[n]];
      UniqueSplit(p, es[n]);
      ScanInv(p);
      var st := ScanAll(p);
      StepNames(p, es[n], st);
      StepKeptSeen(p, es[n], st);
      StepListedSeen(p, es[n], st);
      StepListedIff(p, es[n], st);
    }
  }

  /** The keys of a prefix are distinct, and none is the key of the last entry. */
  lemma {:induction false} UniqueSplit(p: seq<Entry>, e: Entry)
    requires UniqueIds(p + [e])
    ensures UniqueIds(p)
    ensures forall i :: 0 <= i < |p| ==> p[i].id != e.id
  {
    var es := p + [e];
    forall i | 0 <= i < |p| ensures p[i].id != e.id {
      assert es[i] == p[i] && es[|p|] == e;
    }
    forall i, j | 0 <= i < j < |p| ensures p[i].id != p[j].id {
      assert es[i] == p[i] && es[j] == p[j];
    }
  }

  lemma {:induction false} StepNames(p: seq<Entry>, e: Entry, st: Scan)
    requires NamesSeen(p, st)
    ensures NamesSeen(p + [e], Step(st, e))
  {
    var es := p + [e];
    var r := Step(st, e);
    forall k ensures k in r.kept <==> exists i :: 0 <= i < |es| && NameKey(es[i]) == k {
      if k in st.kept {
        var i :| 0 <= i < |p| && NameKey(p[i]) == k;
        assert es[i] == p[i];
      }
      if exists i :: 0 <= i < |es| && NameKey(es[i]) == k {
        var i :| 0 <= i < |es| && NameKey(es[i]) == k;
        if i < |p| { assert p[i] == es[i]; }
      }
      if k == NameKey(e) {
        assert NameKey(es[|p|]) == k;
      }
    }
  }

  lemma {:induction false} StepKeptSeen(p: seq<Entry>, e: Entry, st: Scan)
    requires KeptSeen(p, st)
    ensures KeptSeen(p + [e], Step(st, e))
  {
    var es := p + [e];
    var r := Step(st, e);
    forall k | k in r.kept ensures exists i :: 0 <= i < |es| && IsKept(es[i], k, r.kept[k]) {
      if k in st.kept && r.kept[k] == st.kept[k] {
        var i :| 0 <= i < |p| && IsKept(p[i], k, st.kept[k]);
        assert es[i] == p[i];
      } else {
        assert IsKept(es[|p|], k, r.kept[k]);
      }
    }
  }

  lemma {:induction false} StepListedSeen(p: seq<Entry>, e: Entry, st: Scan)
    requires KeptSeen(p, st) && ListedSeen(p, st)
    ensures ListedSeen(p + [e], Step(st, e))
  {
    var es := p + [e];
    var r := Step(st, e);
    var k := NameKey(e);
    forall d | d in r.toDelete ensures exists i :: 0 <= i < |es| && es[i].id == d {
      if d in st.toDelete {
        var i :| 0 <= i < |p| && p[i].id == d;
        assert es[i] == p[i];
      } else if k in st.kept && d == st.kept[k].id {
        var w :| 0 <= w < |p| && IsKept(p[w], k, st.kept[k]);
        assert es[w] == p[w];
      } else {
        assert es[|p|].id == d;
      }
    }
  }

  lemma {:induction false} StepListedIff(p: seq<Entry>, e: Entry, st: Scan)
    requires Inv(p, st) && UniqueIds(p)
    requires forall i :: 0 <= i < |p| ==> p[i].id != e.id
    ensures NamesSeen(p + [e], Step(st, e))
    ensures ListedIffNotKept(p + [e], Step(st, e))
  {
    StepNames(p, e, st);
    var es := p + [e];
    var r := Step(st, e);
    forall i | 0 <= i < |es| ensures es[i].id in r.toDelete <==> r.kept[NameKey(es[i])].id != es[i].id {
      if i < |p| {
        assert es[i] == p[i];
        ListedIffAt(p, e, st, i);
      } else {
        ListedIffLast(p, e, st);
      }
    }
  }

  /** The entry just scanned is listed exactly when it lost to the one kept. */
  lemma {:induction false} ListedIffLast(p: seq<Entry>, e: Entry, st: Scan)
    requires ListedSeen(p, st)
    requires forall i :: 0 <= i < |p| ==> p[i].id != e.id
    requires KeptSeen(p, st)
    ensures NameKey(e) in Step(st, e).kept
    ensures e.id in Step(st, e).toDelete <==> Step(st, e).kept[NameKey(e)].id != e.id
  {
    var k := NameKey(e);
    assert e.id !in st.toDelete;
    if k in st.kept {
      var w :| 0 <= w < |p| && IsKept(p[w], k, st.kept[k]);
    }
  }

  /** An earlier entry is listed exactly when it is not the one kept. */
  lemma {:induction false} ListedIffAt(p: seq<Entry>, e: Entry, st: Scan, i: nat)
    requires Inv(p, st) && UniqueIds(p)
    requires forall j :: 0 <= j < |p| ==> p[j].id != e.id
    requires i < |p|
    ensures NameKey(p[i]) in Step(st, e).kept
    ensures p[i].id in Step(st, e).toDelete <==> Step(st, e).kept[NameKey(p[i])].id != p[i].id
  {
    var k := NameKey(e);
    var ki := NameKey(p[i]);
    var r := Step(st, e);
    assert ki in st.kept;
    assert p[i].id in st.toDelete <==> st.kept[ki].id != p[i].id;
    if k !in st.kept {
      assert r.toDelete == st.toDelete && r.kept[ki] == st.kept[ki];
    } else if Later(TimeOf(e), st.kept[k].time) {
      assert r.toDelete == st.toDelete + [st.kept[k].id];
      if ki == k {
        assert r.kept[ki].id == e.id;
      } else {
        var w :| 0 <= w < |p| && IsKept(p[w], k, st.kept[k]);
        assert i != w ==> p[i].id != p[w].id;
        assert r.kept[ki] == st.kept[ki];
      }
    } else {
      assert r == Scan(st.kept, st.toDelete + [e.id]);
    }
  }

  // ---------------------------------------------------------------------------
  // Which entry of a name is kept

  /** No entry is later than the one remembered for its name. */
  ghost predicate NoneLater(es: seq<Entry>, st: Scan)
    requires NamesSeen(es, st)
  {
    forall i :: 0 <= i < |es| ==> !Later(TimeOf(es[i]), st.kept[NameKey(es[i])].time)
  }

  /** An entry seen before the remembered one of its name is strictly older,
      or has no valid date: a tie goes to the entry seen first. */
  ghost predicate EarlierOlder(es: seq<Entry>, st: Scan)
    requires NamesSeen(es, st)
  {
    forall i, j :: 0 <= i < j < |es| && es[j].id == st.kept[NameKey(es[j])].id && NameKey(es[i]) == NameKey(es[j]) ==>
      (TimeOf(es[i]).None? || Later(TimeOf(es[j]), TimeOf(es[i])))
  }

  lemma {:induction false} ScanOrder(es: seq<Entry>)
    requires UniqueIds(es)
    ensures Inv(es, ScanAll(es))
    ensures NoneLater(es, ScanAll(es)) && EarlierOlder(es, ScanAll(es))
  {
    ScanInv(es);
    if es != [] {
      var n := |es| - 1;
      var p := es[..n];
      assert es == p + [es[n]];
      UniqueSplit(p, es[n]);
      ScanOrder(p);
      StepNoneLater(p, es[n], ScanAll(p));
      StepEarlierOlder(p, es[n], ScanAll(p));
    }
  }

  lemma {:induction false} StepNoneLater(p: seq<Entry>, e: Entry, st: Scan)
    requires NamesSeen(p, st) && NoneLater(p, st)
    ensures NamesSeen(p + [e], Step(st, e))
    ensures NoneLater(p + [e], Step(st, e))
  {
    StepNames(p, e, st);
    var es := p + [e];
    var r := Step(st, e);
    var k := NameKey(e);
    forall i | 0 <= i < |es| ensures !Later(TimeOf(es[i]), r.kept[NameKey(es[i])].time) {
      if i < |p| {
        assert es[i] == p[i];
        assert !Later(TimeOf(p[i]), st.kept[NameKey(p[i])].time);
      }
    }
  }

  lemma {:induction false} StepEarlierOlder(p: seq<Entry>, e: Entry, st: Scan)
    requires Inv(p, st) && UniqueIds(p) && NoneLater(p, st) && EarlierOlder(p, st)
    requires forall i :: 0 <= i < |p| ==> p[i].id != e.id
    ensures NamesSeen(p + [e], Step(st, e))
    ensures EarlierOlder(p + [e], Step(st, e))
  {
    StepNames(p, e, st);
    var es := p + [e];
    var r := Step(st, e);
    forall i, j | 0 <= i < j < |es| && es[j].id == r.kept[NameKey(es[j])].id && NameKey(es[i]) == NameKey(es[j])
      ensures TimeOf(es[i]).None? || Later(TimeOf(es[j]), TimeOf(es[i]))
    {
      EarlierOlderAt(p, e, st, i, j);
    }
  }

  lemma {:induction false} EarlierOlderAt(p: seq<Entry>, e: Entry, st: Scan, i: nat, j: nat)
    requires Inv(p, st) && NoneLater(p, st) && EarlierOlder(p, st)
    requires forall m :: 0 <= m < |p| ==> p[m].id != e.id
    requires NamesSeen(p + [e], Step(st, e))
    requires i < j < |p| + 1
    requires (p + [e])[j].id == Step(st, e).kept[NameKey((p + [e])[j])].id
    requires NameKey((p + [e])[i]) == NameKey((p + [e])[j])
    ensures TimeOf((p + [e])[i]).None? || Later(TimeOf((p + [e])[j]), TimeOf((p + [e])[i]))
  {
    var es := p + [e];
    assert es[i] == p[i];
    if j < |p| {
      assert es[j] == p[j];
      EarlierOlderKept(p, e, st, i, j);
    } else {
      assert es[j] == e;
      EarlierOlderNew(p, e, st, i);
    }
  }

  /** A pair of earlier entries: the step can only take the name's entry
      away from them. */
  lemma {:induction false} EarlierOlderKept(p: seq<Entry>, e: Entry, st: Scan, i: nat, j: nat)
    requires NamesSeen(p, st) && EarlierOlder(p, st)
    requires forall m :: 0 <= m < |p| ==> p[m].id != e.id
    requires i < j < |p| && NameKey(p[i]) == NameKey(p[j])
    requires NameKey(p[j]) in Step(st, e).kept && p[j].id == Step(st, e).kept[NameKey(p[j])].id
    ensures TimeOf(p[i]).None? || Later(TimeOf(p[j]), TimeOf(p[i]))
  {
    assert p[j].id == st.kept[NameKey(p[j])].id;
  }

  /** The entry just scanned, when it is the one kept, is later than every
      earlier entry of its name that has a valid date. */
  lemma {:induction false} EarlierOlderNew(p: seq<Entry>, e: Entry, st: Scan, i: nat)
    requires NamesSeen(p, st) && KeptSeen(p, st) && NoneLater(p, st)
    requires forall m :: 0 <= m < |p| ==> p[m].id != e.id
    requires i < |p| && NameKey(p[i]) == NameKey(e)
    requires e.id == Step(st, e).kept[NameKey(e)].id
    ensures TimeOf(p[i]).None? || Later(TimeOf(e), TimeOf(p[i]))
  {
    var k := NameKey(e);
    var w :| 0 <= w < |p| && IsKept(p[w], k, st.kept[k]);
    assert !Later(TimeOf(p[i]), st.kept[k].time);
  }

  /** No entry before `es[i]` carries its name. */
  predicate FirstOfName(es: seq<Entry>, i: int)
    requires 0 <= i < |es|
  {
    forall k :: 0 <= k < i ==> NameKey(es[k]) != NameKey(es[i])
  }

  /** The first entry of a name with no valid date is still the one
      remembered: no date is later than an invalid one. */
  ghost predicate UndatedFirstKept(es: seq<Entry>, st: Scan)
    requires NamesSeen(es, st)
  {
    forall i :: 0 <= i < |es| && TimeOf(es[i]).None? && FirstOfName(es, i) ==>
      st.kept[NameKey(es[i])] == Keep(es[i].id, None)
  }

  lemma {:induction false} ScanUndatedFirst(es: seq<Entry>)
    ensures NamesSeen(es, ScanAll(es)) && UndatedFirstKept(es, ScanAll(es))
  {
    NamesSeenAlways(es);
    if es != [] {
      var n := |es| - 1;
      var p := es[..n];
      assert es == p + [es[n]];
      ScanUndatedFirst(p);
      StepUndatedFirst(p, es[n], ScanAll(p));
    }
  }

  lemma {:induction false} StepUndatedFirst(p: seq<Entry>, e: Entry, st: Scan)
    requires NamesSeen(p, st) && UndatedFirstKept(p, st)
    ensures NamesSeen(p + [e], Step(st, e))
    ensures UndatedFirstKept(p + [e], Step(st, e))
  {
    StepNames(p, e, st);
    var es := p + [e];
    var r := Step(st, e);
    forall i | 0 <= i < |es| && TimeOf(es[i]).None? && FirstOfName(es, i)
      ensures r.kept[NameKey(es[i])] == Keep(es[i].id, None)
    {
      if i < |p| {
        assert es[i] == p[i];
        assert FirstOfName(p, i) by {
          forall k | 0 <= k < i ensures NameKey(p[k]) != NameKey(p[i]) {
            assert es[k] == p[k];
          }
        }
        assert st.kept[NameKey(p[i])] == Keep(p[i].id, None);
      } else {
        assert es[i] == e;
        forall j | 0 <= j < |p| ensures NameKey(p[j]) != NameKey(e) {
          assert es[j] == p[j];
        }
      }
    }
  }

  /** The first entry of a name that has no valid date survives the clean-up. */
  lemma {:induction false} UndatedFirstSurvives(es: seq<Entry>, i: int)
    requires UniqueIds(es)
    requires 0 <= i < |es| && TimeOf(es[i]).None? && FirstOfName(es, i)
    ensures es[i] in CleanupDuplicateCharacters(es).entries
  {
    ScanInv(es);
    ScanUndatedFirst(es);
    var st := ScanAll(es);
    assert st.kept[NameKey(es[i])].id == es[i].id;
    assert es[i].id !in st.toDelete;
  }

  /** Two entries of one name, the first with no valid date: the first stays
      whatever the second's date, and the second is deleted. */
  lemma {:induction false} UndatedFirstBeatsDated(a: Entry, b: Entry)
    requires a.id != b.id && NameKey(a) == NameKey(b) && TimeOf(a).None?
    ensures CleanupDuplicateCharacters([a, b]) == Cleaned([a], true)
  {
    assert [a][..0] == [] && [a][0] == a;
    assert ScanAll([]) == Scan(map[], []);
    var s1 := ScanAll([a]);
    assert s1 == Step(Scan(map[], []), a);
    assert s1.kept[NameKey(a)] == Keep(a.id, None);
    assert [a, b][..1] == [a] && [a, b][1] == b;
    var s2 := ScanAll([a, b]);
    assert s2 == Step(s1, b);
    assert s2.toDelete == [b.id];
    var w := Without([a, b], [b.id]);
    assert w == Without([a], [b.id]) + [];
    assert Without([a], [b.id]) == [a];
  }

  // ---------------------------------------------------------------------------
  // What the clean-up achieves

  /** Every name of the store is still there, on exactly one entry: the one
      remembered for it. */
  lemma {:induction false} CleanupOnePerName(es: seq<Entry>)
    requires UniqueIds(es)
    ensures var r := CleanupDuplicateCharacters(es).entries;
      && (forall e :: e in es ==> exists x :: x in r && NameKey(x) == NameKey(e))
      && (forall x, y :: x in r && y in r && NameKey(x) == NameKey(y) ==> x == y)
  {
    ScanInv(es);
    var st := ScanAll(es);
    var r := CleanupDuplicateCharacters(es).entries;
    forall e | e in es ensures exists x :: x in r && NameKey(x) == NameKey(e) {
      var i :| 0 <= i < |es| && es[i] == e;
      var k := NameKey(e);
      var w :| 0 <= w < |es| && IsKept(es[w], k, st.kept[k]);
      assert es[w] in r;
    }
    forall x, y | x in r && y in r && NameKey(x) == NameKey(y) ensures x == y {
      var i :| 0 <= i < |es| && es[i] == x;
      var j :| 0 <= j < |es| && es[j] == y;
      assert es[i].id == es[j].id;
    }
  }

  /** The entry that survives for a name: no entry of its name is later, and
      every entry before it is strictly older or has no valid date, so of
      several equally late ones the first in key order stays. A first entry
      with no valid date is never replaced, since no date compares as later
      than an invalid one. */
  lemma {:induction false} CleanupKeepsLatest(es: seq<Entry>)
    requires UniqueIds(es)
    ensures forall i, j ::
      (0 <= i < |es| && 0 <= j < |es| && es[j] in CleanupDuplicateCharacters(es).entries
       && NameKey(es[i]) == NameKey(es[j])) ==>
      (!Later(TimeOf(es[i]), TimeOf(es[j]))
       && (i < j ==> TimeOf(es[i]).None? || Later(TimeOf(es[j]), TimeOf(es[i]))))
    ensures forall i :: 0 <= i < |es| && TimeOf(es[i]).None? && FirstOfName(es, i) ==>
      es[i] in CleanupDuplicateCharacters(es).entries
  {
    forall i | 0 <= i < |es| && TimeOf(es[i]).None? && FirstOfName(es, i)
      ensures es[i] in CleanupDuplicateCharacters(es).entries
    {
      UndatedFirstSurvives(es, i);
    }
    ScanOrder(es);
    var st := ScanAll(es);
    forall i, j | 0 <= i < |es| && 0 <= j < |es| && es[j] in CleanupDuplicateCharacters(es).entries
      && NameKey(es[i]) == NameKey(es[j])
      ensures !Later(TimeOf(es[i]), TimeOf(es[j]))
      ensures i < j ==> TimeOf(es[i]).None? || Later(TimeOf(es[j]), TimeOf(es[i]))
    {
      var k := NameKey(es[j]);
      assert es[j].id !in st.toDelete;
      var w :| 0 <= w < |es| && IsKept(es[w], k, st.kept[k]);
      assert w == j;
    }
  }

  /** Nothing is deleted, and the blob is not written back, exactly when no two
      entries share a name. */
  lemma {:induction false} CleanupRewritesIffDuplicates(es: seq<Entry>)
    ensures CleanupDuplicateCharacters(es).rewritten <==> !DistinctNames(es)
  {
    if DistinctNames(es) {
      DistinctNamesNothingListed(es);
    } else {
      var i, j :| 0 <= i < j < |es| && NameKey(es[i]) == NameKey(es[j]);
      DuplicateListed(es, i, j);
    }
  }

  lemma {:induction false} DistinctNamesNothingListed(es: seq<Entry>)
    requires DistinctNames(es)
    ensures ScanAll(es).toDelete == [] && NamesSeen(es, ScanAll(es))
  {
    if es != [] {
      var n := |es| - 1;
      var p := es[..n];
      assert DistinctNames(p) by {
        forall i, j | 0 <= i < j < n ensures NameKey(p[i]) != NameKey(p[j]) {
          assert p[i] == es[i] && p[j] == es[j];
        }
      }
      DistinctNamesNothingListed(p);
      forall i | 0 <= i < n ensures NameKey(p[i]) != NameKey(es[n]) {
        assert p[i] == es[i];
      }
      assert es == p + [es[n]];
      StepNames(p, es[n], ScanAll(p));
    }
  }

  lemma {:induction false} DuplicateListed(es: seq<Entry>, i: nat, j: nat)
    requires i < j < |es| && NameKey(es[i]) == NameKey(es[j])
    ensures ScanAll(es).toDelete != []
  {
    var n := |es| - 1;
    var p := es[..n];
    if j < n {
      assert p[i] == es[i] && p[j] == es[j];
      DuplicateListed(p, i, j);
    } else {
      NamesSeenAlways(p);
      assert p[i] == es[i];
      assert NameKey(es[n]) in ScanAll(p).kept;
    }
  }

  lemma {:induction false} NamesSeenAlways(es: seq<Entry>)
    ensures NamesSeen(es, ScanAll(es))
  {
    if es != [] {
      var p := es[..|es| - 1];
      NamesSeenAlways(p);
      assert es == p + [es[|es| - 1]];
      StepNames(p, es[|es| - 1], ScanAll(p));
    }
  }

  /** Cleaning up a cleaned store changes nothing and writes nothing. */
  lemma {:induction false} CleanupIdempotent(es: seq<Entry>)
    requires UniqueIds(es)
    ensures var r := CleanupDuplicateCharacters(es).entries;
      CleanupDuplicateCharacters(r) == Cleaned(r, false)
  {
    var r := CleanupDuplicateCharacters(es).entries;
    CleanupOnePerName(es);
    WithoutKeepsUniqueIds(es, ScanAll(es).toDelete);
    assert DistinctNames(r) by {
      forall i, j | 0 <= i < j < |r| ensures NameKey(r[i]) != NameKey(r[j]) {
        assert r[i] in r && r[j] in r;
        assert r[i].id != r[j].id;
      }
    }
    DistinctNamesNothingListed(r);
    WithoutNothing(r);
  }

  lemma {:induction false} WithoutNothing(es: seq<Entry>)
    ensures Without(es, []) == es
  {
    if es != [] {
      WithoutNothing(es[..|es| - 1]);
      assert es == es[..|es| - 1] + [es[|es| - 1]];
    }
  }

  lemma {:induction false} WithoutKeepsUniqueIds(es: seq<Entry>, ids: seq<string>)
    requires UniqueIds(es)
    ensures UniqueIds(Without(es, ids))
  {
    if es != [] {
      var n := |es| - 1;
      var p := es[..n];
      assert UniqueIds(p) by {
        forall i, j | 0 <= i < j < n ensures p[i].id != p[j].id {
          assert p[i] == es[i] && p[j] == es[j];
        }
      }
      WithoutKeepsUniqueIds(p, ids);
      var prev := Without(p, ids);
      if es[n].id !in ids {
        var r := prev + [es[n]];
        forall i, j | 0 <= i < j < |r| ensures r[i].id != r[j].id {
          if j == |prev| {
            assert r[i] in prev;
            var k :| 0 <= k < n && p[k] == r[i];
            assert es[k] == p[k];
          }
        }
      }
    }
  }

  /** The clean-up on the whole blob: a missing or unreadable blob is left as
      it is, and a stored one is written back only when something was
      deleted. */
  function CleanupBlob(blob: Blob): (r: Blob)
    ensures !blob.Stored? ==> r == blob
    ensures blob.Stored? ==> r.Stored? && forall e :: e in r.entries ==> e in blob.entries
  {
    if blob.Stored? then
      var c := CleanupDuplicateCharacters(blob.entries);
      if c.rewritten then Stored(c.entries) else blob
    else blob
  }

  /** A blob with distinct names is left alone, and the clean-up keeps the
      keys of a valid blob distinct. */
  lemma {:induction false} CleanupBlobFacts(blob: Blob)
    requires ValidBlob(blob)
    ensures ValidBlob(CleanupBlob(blob))
    ensures blob.Stored? && DistinctNames(blob.entries) ==> CleanupBlob(blob) == blob
  {
    if blob.Stored? {
      WithoutKeepsUniqueIds(blob.entries, ScanAll(blob.entries).toDelete);
      CleanupRewritesIffDuplicates(blob.entries);
    }
  }
}

=== FILE: save_collect.dfy ===
/** Assembling the character document a save writes: the flat form fields,
    the inventory rows, the details and notes tab documents merged on top,
    the victory count and the metadata. */
module SaveCollect {
  import opened Util
  import opened Json
  import opened InventoryTab

  // ---------------------------------------------------------------------------
  // Flat form fields

  /** One `input`, `textarea` or `select` of the sheet, in document order:
      its id (empty when it has none), whether it is a checkbox, its checked
      state and its value. */
  datatype Control = Control(id: string, isCheckbox: bool, checked: bool, value: string)

  const ClearStorageId := "clear-storage"

  /** Whether the control is written to the document. */
  predicate Recorded(c: Control) {
    c.id != "" && c.id != ClearStorageId
  }

  /** What is written for a control: a checkbox's checked state, any other
      control's raw value. */
  function FieldValue(c: Control): Value {
    if c.isCheckbox then Bool(c.checked) else Str(c.value)
  }

  /** No later control of the list has the id of control `i`. */
  predicate LastWithId(controls: seq<Control>, i: int)
    requires 0 <= i < |controls|
  {
    forall j :: i < j < |controls| ==> controls[j].id != controls[i].id
  }

  /** The ids of `d` are the recorded ids of the controls. */
  ghost predicate FieldIds(controls: seq<Control>, d: Document) {
    forall id :: id in d <==> exists i :: 0 <= i < |controls| && Recorded(controls[i]) && controls[i].id == id
  }

  /** Each id of `d` holds the value of the last control with that id. */
  ghost predicate FieldValues(controls: seq<Control>, d: Document)
    requires FieldIds(controls, d)
  {
    forall i :: 0 <= i < |controls| && Recorded(controls[i]) && LastWithId(controls, i) ==>
      d[controls[i].id] == FieldValue(controls[i])
  }

  /** The field loop of `collectAllCharacterData`: one entry per recorded id,
      holding the value of the last control with that id. */
  function CollectFields(controls: seq<Control>): (d: Document)
    ensures FieldIds(controls, d)
    ensures FieldValues(controls, d)
  {
    if controls == [] then map[]
    else
      var n := |controls| - 1;
      var prev := CollectFields(controls[..n]);
      var d := if Recorded(controls[n]) then prev[controls[n].id := FieldValue(controls[n])] else prev;
      FieldIdsStep(controls, prev, d);
      FieldValuesStep(controls, prev, d);
      d
  }

  lemma {:induction false} FieldIdsStep(controls: seq<Control>, prev: Document, d: Document)
    requires controls != []
    requires FieldIds(controls[..|controls| - 1], prev)
    requires d == if Recorded(controls[|controls| - 1]) then prev[controls[|controls| - 1].id := FieldValue(controls[|controls| - 1])] else prev
    ensures FieldIds(controls, d)
  {
    var n := |controls| - 1;
    var p := controls[..n];
    forall id ensures id in d <==> exists i :: 0 <= i < |controls| && Recorded(controls[i]) && controls[i].id == id {
      if id in prev {
        var i :| 0 <= i < n && Recorded(p[i]) && p[i].id == id;
        assert controls[i] == p[i];
      }
      if exists i :: 0 <= i < |controls| && Recorded(controls[i]) && controls[i].id == id {
        var i :| 0 <= i < |controls| && Recorded(controls[i]) && controls[i].id == id;
        if i < n { assert p[i] == controls[i]; }
      }
    }
  }

  lemma {:induction false} FieldValuesStep(controls: seq<Control>, prev: Document, d: Document)
    requires controls != []
    requires FieldIds(controls[..|controls| - 1], prev) && FieldValues(controls[..|controls| - 1], prev)
    requires d == if Recorded(controls[|controls| - 1]) then prev[controls[|controls| - 1].id := FieldValue(controls[|controls| - 1])] else prev
    requires FieldIds(controls, d)
    ensures FieldValues(controls, d)
  {
    forall i | 0 <= i < |controls| && Recorded(controls[i]) && LastWithId(controls, i)
      ensures d[controls[i].id] == FieldValue(controls[i])
    {
      FieldValueAt(controls, prev, d, i);
    }
  }

  lemma {:induction false} FieldValueAt(controls: seq<Control>, prev: Document, d: Document, i: nat)
    requires controls != []
    requires FieldIds(controls[..|controls| - 1], prev) && FieldValues(controls[..|controls| - 1], prev)
    requires d == if Recorded(controls[|controls| - 1]) then prev[controls[|controls| - 1].id := FieldValue(controls[|controls| - 1])] else prev
    requires i < |controls| && Recorded(controls[i]) && LastWithId(controls, i)
    ensures controls[i].id in d && d[controls[i].id] == FieldValue(controls[i])
  {
    var n := |controls| - 1;
    var p := controls[..n];
    var c := controls[i];
    if i < n {
      assert p[i] == c;
      assert LastWithId(p, i) by {
        forall j | i < j < n ensures p[j].id != p[i].id {
          assert p[j] == controls[j];
        }
      }
      assert c.id in prev && prev[c.id] == FieldValue(c);
      assert controls[n].id != c.id;
    }
  }

  // ---------------------------------------------------------------------------
  // Inventory rows

  /** An inventory item as stored: quantity, name, description and the
      nonzero stat bonuses. */
  datatype SavedItem = SavedItem(quantity: int, name: string, description: string, bonuses: map<string, int>)

  /** The bonus map of a row: every input with a nonzero value, the last one
      winning when two inputs share a stat key. */
  function CollectBonuses(inputs: seq<BonusInput>): (b: map<string, int>)
    ensures forall k :: k in b ==> b[k] != 0
    ensures forall k :: k in b <==> exists i :: 0 <= i < |inputs| && inputs[i].stat == k && inputs[i].value != 0
    ensures forall i :: 0 <= i < |inputs| && LastNonzero(inputs, i) ==> b[inputs[i].stat] == inputs[i].value
  {
    if inputs == [] then map[]
    else
      var n := |inputs| - 1;
      var prev := CollectBonuses(inputs[..n]);
      var x := inputs[n];
      var b := if x.value != 0 then prev[x.stat := x.value] else prev;
      BonusKeysStep(inputs, prev, b);
      BonusValuesStep(inputs, prev, b);
      b
  }

  /** Input `i` has a nonzero value and no later input of its stat has one. */
  predicate LastNonzero(inputs: seq<BonusInput>, i: int)
    requires 0 <= i < |inputs|
  {
    inputs[i].value != 0 &&
    forall j :: i < j < |inputs| && inputs[j].stat == inputs[i].stat ==> inputs[j].value == 0
  }

  lemma {:induction false} BonusValuesStep(inputs: seq<BonusInput>, prev: map<string, int>, b: map<string, int>)
    requires inputs != []
    requires var n := |inputs| - 1;
      && (forall k :: k in prev <==> exists i :: 0 <= i < n && inputs[..n][i].stat == k && inputs[..n][i].value != 0)
      && (forall i :: 0 <= i < n && LastNonzero(inputs[..n], i) ==> prev[inputs[..n][i].stat] == inputs[..n][i].value)
      && b == if inputs[n].value != 0 then prev[inputs[n].stat := inputs[n].value] else prev
    ensures forall i :: 0 <= i < |inputs| && LastNonzero(inputs, i) ==> inputs[i].stat in b && b[inputs[i].stat] == inputs[i].value
  {
    var n := |inputs| - 1;
    var p := inputs[..n];
    forall i | 0 <= i < |inputs| && LastNonzero(inputs, i)
      ensures inputs[i].stat in b && b[inputs[i].stat] == inputs[i].value
    {
      if i < n {
        assert p[i] == inputs[i];
        assert LastNonzero(p, i) by {
          forall j | i < j < n && p[j].stat == p[i].stat ensures p[j].value == 0 {
            assert p[j] == inputs[j];
          }
        }
        assert inputs[i].stat in prev;
        assert inputs[n].stat == inputs[i].stat ==> inputs[n].value == 0;
      }
    }
  }

  lemma {:induction false} BonusKeysStep(inputs: seq<BonusInput>, prev: map<string, int>, b: map<string, int>)
    requires inputs != []
    requires var n := |inputs| - 1;
      && (forall k :: k in prev <==> exists i :: 0 <= i < n && inputs[..n][i].stat == k && inputs[..n][i].value != 0)
      && b == if inputs[n].value != 0 then prev[inputs[n].stat := inputs[n].value] else prev
    ensures forall k :: k in b <==> exists i :: 0 <= i < |inputs| && inputs[i].stat == k && inputs[i].value != 0
  {
    var n := |inputs| - 1;
    var p := inputs[..n];
    forall k ensures k in b <==> exists i :: 0 <= i < |inputs| && inputs[i].stat == k && inputs[i].value != 0 {
      if k in prev {
        var i :| 0 <= i < n && p[i].stat == k && p[i].value != 0;
        assert inputs[i] == p[i];
      }
      if exists i :: 0 <= i < |inputs| && inputs[i].stat == k && inputs[i].value != 0 {
        var i :| 0 <= i < |inputs| && inputs[i].stat == k && inputs[i].value != 0;
        if i < n { assert p[i] == inputs[i]; }
      }
    }
  }

  /** One row as stored: a quantity read as 0 or NaN is stored as 1. */
  function CollectItem(row: ItemRow): (x: SavedItem)
    ensures x.quantity != 0
    ensures row.quantity != 0 ==> x.quantity == row.quantity
    ensures x.name == row.name && x.description == row.description
    ensures x.bonuses == CollectBonuses(row.bonusInputs)
  {
    SavedItem(if row.quantity != 0 then row.quantity else 1, row.name, row.description, CollectBonuses(row.bonusInputs))
  }

  /** A row is stored only when it has a name or a description. */
  predicate KeptRow(row: ItemRow) {
    row.name != "" || row.description != ""
  }

  /** Every kept row of `rows` is stored in `r`. */
  predicate AllKeptStored(rows: seq<ItemRow>, r: seq<SavedItem>) {
    forall i :: 0 <= i < |rows| && KeptRow(rows[i]) ==> CollectItem(rows[i]) in r
  }

  /** Every item of `r` is the stored form of a kept row of `rows`. */
  ghost predicate StoredFromKept(rows: seq<ItemRow>, r: seq<SavedItem>) {
    forall x :: x in r ==> exists i :: 0 <= i < |rows| && KeptRow(rows[i]) && x == CollectItem(rows[i])
  }

  /** The inventory loop of `collectAllCharacterData`, in row order. */
  function CollectInventory(rows: seq<ItemRow>): (r: seq<SavedItem>)
    ensures |r| <= |rows|
    ensures forall k :: 0 <= k < |r| ==> (r[k].name != "" || r[k].description != "") && r[k].quantity != 0
    ensures AllKeptStored(rows, r) && StoredFromKept(rows, r)
    ensures |rows| == 1 ==> r == StoredOf(rows[0])
  {
    if rows == [] then []
    else
      var n := |rows| - 1;
      var prev := CollectInventory(rows[..n]);
      var r := prev + StoredOf(rows[n]);
      KeptStoredStep(rows, prev, r);
      StoredFromKeptStep(rows, prev, r);
      r
  }

  /** What one row contributes on its own: nothing, or its stored item. */
  function StoredOf(row: ItemRow): seq<SavedItem> {
    if KeptRow(row) then [CollectItem(row)] else []
  }

  /** The items of two blocks of rows are the items of the first block
      followed by those of the second: the rows' order is kept. */
  lemma {:induction false} CollectInventoryConcat(a: seq<ItemRow>, b: seq<ItemRow>)
    ensures CollectInventory(a + b) == CollectInventory(a) + CollectInventory(b)
  {
    CollectInventoryIsFlatMap(a);
    CollectInventoryIsFlatMap(b);
    CollectInventoryIsFlatMap(a + b);
    FlatMapConcat(a, b, StoredOf);
  }

  lemma {:induction false} CollectInventoryIsFlatMap(rows: seq<ItemRow>)
    ensures CollectInventory(rows) == FlatMap(rows, StoredOf)
  {
    if rows != [] {
      CollectInventoryIsFlatMap(rows[..|rows| - 1]);
    }
  }

  lemma {:induction false} KeptStoredStep(rows: seq<ItemRow>, prev: seq<SavedItem>, r: seq<SavedItem>)
    requires rows != [] && AllKeptStored(rows[..|rows| - 1], prev)
    requires r == if KeptRow(rows[|rows| - 1]) then prev + [CollectItem(rows[|rows| - 1])] else prev
    ensures AllKeptStored(rows, r)
  {
    var n := |rows| - 1;
    forall i | 0 <= i < |rows| && KeptRow(rows[i]) ensures CollectItem(rows[i]) in r {
      if i < n {
        assert rows[..n][i] == rows[i];
        assert CollectItem(rows[..n][i]) in prev;
      }
    }
  }

  lemma {:induction false} StoredFromKeptStep(rows: seq<ItemRow>, prev: seq<SavedItem>, r: seq<SavedItem>)
    requires rows != [] && StoredFromKept(rows[..|rows| - 1], prev)
    requires r == if KeptRow(rows[|rows| - 1]) then prev + [CollectItem(rows[|rows| - 1])] else prev
    ensures StoredFromKept(rows, r)
  {
    var n := |rows| - 1;
    forall x | x in r ensures exists i :: 0 <= i < |rows| && KeptRow(rows[i]) && x == CollectItem(rows[i]) {
      if x in prev {
        var i :| 0 <= i < n && KeptRow(rows[..n][i]) && x == CollectItem(rows[..n][i]);
        assert rows[i] == rows[..n][i];
      } else {
        assert KeptRow(rows[n]) && x == CollectItem(rows[n]);
      }
    }
  }

  /** Rows with neither name nor description leave nothing in the document. */
  lemma {:induction false} BlankRowsDropped(rows: seq<ItemRow>)
    requires forall i :: 0 <= i < |rows| ==> rows[i].name == "" && rows[i].description == ""
    ensures CollectInventory(rows) == []
  {
    if rows != [] {
      var n := |rows| - 1;
      BlankRowsDropped(rows[..n]);
    }
  }

  function BonusesValue(b: map<string, int>): Value {
    Obj(map k | k in b :: Num(b[k]))
  }

  function ItemValue(x: SavedItem): Value {
    Obj(map[
      "bonuses" := BonusesValue(x.bonuses),
      "quantity" := Num(x.quantity),
      "name" := Str(x.name),
      "description" := Str(x.description)])
  }

  function InventoryValue(items: seq<SavedItem>): (v: Value)
    ensures v.Arr? && |v.elems| == |items|
    ensures forall i :: 0 <= i < |items| ==> v.elems[i] == ItemValue(items[i])
  {
    Arr(seq(|items|, i requires 0 <= i < |items| => ItemValue(items[i])))
  }

  // ---------------------------------------------------------------------------
  // The whole document

  /** The keys written last, which nothing else can override. */
  const MetadataKeys: set<string> := {"victoryCount", "lastSaved", "version"}

  const SaveFormatVersion := "1.0"

  /** `collectAllCharacterData`. `details` and `notes` are what the details
      and notes tabs return; `victories` are the `.victory-checkbox` states;
      `now` is the save time. Later sources override earlier ones: fields,
      then the inventory, then the details document, then the notes
      document, then the victory count and metadata. */
  function CollectAllCharacterData(controls: seq<Control>, rows: seq<ItemRow>, details: Document, notes: Document, victories: seq<bool>, now: int): (d: Document)
    ensures d.Keys == CollectFields(controls).Keys + {"inventoryItems"} + details.Keys + notes.Keys + MetadataKeys
    ensures d["victoryCount"] == Num(CountTrue(victories))
    ensures d["lastSaved"] == Num(now) && d["version"] == Str(SaveFormatVersion)
    ensures forall k :: k in notes && k !in MetadataKeys ==> d[k] == notes[k]
    ensures forall k :: k in details && k !in notes && k !in MetadataKeys ==> d[k] == details[k]
    ensures "inventoryItems" !in details && "inventoryItems" !in notes ==>
      d["inventoryItems"] == InventoryValue(CollectInventory(rows))
    ensures forall k :: k in CollectFields(controls) && k !in details && k !in notes && k !in MetadataKeys && k != "inventoryItems" ==>
      d[k] == CollectFields(controls)[k]
  {
    var fields := CollectFields(controls);
    var withItems := fields["inventoryItems" := InventoryValue(CollectInventory(rows))];
    WithMetadata(withItems + details + notes, victories, now)
  }

  /** The merged document with the victory count, save time and format
      version written over it. */
  function WithMetadata(merged: Document, victories: seq<bool>, now: int): (d: Document)
    ensures d.Keys == merged.Keys + MetadataKeys
    ensures d["victoryCount"] == Num(CountTrue(victories))
    ensures d["lastSaved"] == Num(now) && d["version"] == Str(SaveFormatVersion)
    ensures forall k :: k in merged && k !in MetadataKeys ==> d[k] == merged[k]
  {
    merged["victoryCount" := Num(CountTrue(victories))]["lastSaved" := Num(now)]["version" := Str(SaveFormatVersion)]
  }
}

=== FILE: save_list.dfy ===
/** `getAllSavedCharacters`: one summary per stored character, newest save
    first. */
module SaveList {
  import opened Util
  import opened Json
  import opened SaveStore

  const UnknownName := "Unknown Character"

  /** One row of the character list. `time` is the date `lastSaved` reads as
      when the list is sorted; the other fields are the ones the list shows. */
  datatype Summary = Summary(
    id: string,
    name: string,
    displayName: string,
    lastSaved: Value,
    time: Option<int>,
    level: Value,
    className: Value,
    ancestry: Value,
    subclass: Value,
    career: Value,
    data: Document
  )

  /** `doc[key] || fallback`. */
  function OrDefault(doc: Document, key: string, fallback: Value): (v: Value)
    ensures key in doc && Truthy(doc[key]) ==> v == doc[key]
    ensures !(key in doc && Truthy(doc[key])) ==> v == fallback
  {
    if key in doc && Truthy(doc[key]) then doc[key] else fallback
  }

  /** The summary of one entry, or `None` when its name is a truthy value that
      is not text, which makes `.replace` throw. A missing or falsy `savedAt`
      becomes the current time, given as `now` and its ISO text `nowIso`. */
  function SummaryOf(e: Entry, now: int, nowIso: string): (r: Option<Summary>)
    ensures r.Some? <==> OrDefault(e.doc, "characterName", Str(UnknownName)).Str?
    ensures r.Some? ==> r.value.id == e.id && r.value.data == e.doc
    ensures r.Some? ==> r.value.name == OrDefault(e.doc, "characterName", Str(UnknownName)).s
    ensures r.Some? ==> |r.value.displayName| == |r.value.name|
    ensures r.Some? ==> forall i :: 0 <= i < |r.value.displayName| ==>
      r.value.displayName[i] != '_' && (r.value.name[i] == '_' ==> r.value.displayName[i] == ' ')
    ensures r.Some? ==> r.value.displayName == ReplaceChar(r.value.name, '_', ' ')
    ensures r.Some? && "savedAt" in e.doc && Truthy(e.doc["savedAt"]) ==>
      r.value.lastSaved == e.doc["savedAt"] && r.value.time == DateOf(e.doc["savedAt"])
    ensures r.Some? && !("savedAt" in e.doc && Truthy(e.doc["savedAt"])) ==>
      r.value.lastSaved == Str(nowIso) && r.value.time == Some(now)
  {
    var name := OrDefault(e.doc, "characterName", Str(UnknownName));
    if !name.Str? then None
    else
      var stamped := "savedAt" in e.doc && Truthy(e.doc["savedAt"]);
      Some(Summary(
        e.id,
        name.s,
        ReplaceChar(name.s, '_', ' '),
        if stamped then e.doc["savedAt"] else Str(nowIso),
        if stamped then DateOf(e.doc["savedAt"]) else Some(now),
        OrDefault(e.doc, "level", Num(0)),
        OrDefault(e.doc, "class", Str("")),
        OrDefault(e.doc, "ancestry", Str("")),
        OrDefault(e.doc, "subclass", Str("")),
        OrDefault(e.doc, "career", Str("")),
        e.doc))
  }

  /** The summaries in key order. A summary that throws ends the pass: the
      rows built so far are the list, and it is not sorted (`complete` is
      false). */
  function Summaries(es: seq<Entry>, now: int, nowIso: string): (r: (seq<Summary>, bool))
    ensures |r.0| <= |es|
    ensures forall i :: 0 <= i < |r.0| ==> SummaryOf(es[i], now, nowIso) == Some(r.0[i])
    ensures r.1 <==> forall i :: 0 <= i < |es| ==> SummaryOf(es[i], now, nowIso).Some?
    ensures r.1 ==> |r.0| == |es|
    ensures !r.1 ==> |r.0| < |es| && SummaryOf(es[|r.0|], now, nowIso).None?
  {
    if es == [] then ([], true)
    else
      match SummaryOf(es[0], now, nowIso)
      case None => ([], false)
      case Some(s) =>
        var rest := Summaries(es[1..], now, nowIso);
        assert forall i :: 1 <= i < |es| ==> es[i] == es[1..][i - 1];
        ([s] + rest.0, rest.1)
  }

  // ---------------------------------------------------------------------------
  // Newest first

  /** The sort key; only used when every date is valid. */
  function Key(s: Summary): int {
    if s.time.Some? then s.time.value else 0
  }

  predicate AllDated(l: seq<Summary>) {
    forall i :: 0 <= i < |l| ==> l[i].time.Some?
  }

  predicate NewestFirst(l: seq<Summary>) {
    forall i, j :: 0 <= i < j < |l| ==> Key(l[j]) <= Key(l[i])
  }

  /** The rows saved at time `t`, in their order. */
  function SavedAt(l: seq<Summary>, t: int): seq<Summary> {
    if l == [] then [] else At(l[0], t) + SavedAt(l[1..], t)
  }

  function At(x: Summary, t: int): seq<Summary> {
    if Key(x) == t then [x] else []
  }

  /** Places `x` after every row at least as new as it. */
  function Insert(l: seq<Summary>, x: Summary): (r: seq<Summary>)
    ensures |r| == |l| + 1
    ensures r[0] == x || (l != [] && r[0] == l[0])
  {
    if l == [] then [x]
    else if Key(x) <= Key(l[0]) then [l[0]] + Insert(l[1..], x)
    else [x] + l
  }

  /** The insertion adds `x` and loses nothing. */
  lemma {:induction false} InsertPermutes(l: seq<Summary>, x: Summary)
    ensures multiset(Insert(l, x)) == multiset(l) + multiset{x}
  {
    if l != [] && Key(x) <= Key(l[0]) {
      InsertPermutes(l[1..], x);
      assert l == [l[0]] + l[1..];
    }
  }

  lemma {:induction false} InsertKeepsOrder(l: seq<Summary>, x: Summary)
    requires NewestFirst(l)
    ensures NewestFirst(Insert(l, x))
  {
    if l != [] && Key(x) <= Key(l[0]) {
      var t := l[1..];
      assert NewestFirst(t) by {
        forall i, j | 0 <= i < j < |t| ensures Key(t[j]) <= Key(t[i]) {
          assert t[i] == l[i + 1] && t[j] == l[j + 1];
        }
      }
      InsertKeepsOrder(t, x);
      var rest := Insert(t, x);
      var r := [l[0]] + rest;
      forall i, j | 0 <= i < j < |r| ensures Key(r[j]) <= Key(r[i]) {
        if i == 0 {
          assert Key(rest[0]) <= Key(l[0]) by {
            if t != [] { assert t[0] == l[1]; }
          }
          assert r[j] == rest[j - 1];
          assert Key(rest[j - 1]) <= Key(rest[0]);
        } else {
          assert r[i] == rest[i - 1] && r[j] == rest[j - 1];
        }
      }
    }
  }

  /** The stable sort of `savedCharacters.sort` with the newest-first
      comparator: each row in turn is inserted into the sorted prefix. */
  function SortNewestFirst(l: seq<Summary>): (r: seq<Summary>)
    ensures |r| == |l|
  {
    if l == [] then [] else Insert(SortNewestFirst(l[..|l| - 1]), l[|l| - 1])
  }

  /** The sort loses and adds no row. */
  lemma {:induction false} SortPermutes(l: seq<Summary>)
    ensures multiset(SortNewestFirst(l)) == multiset(l)
  {
    if l != [] {
      var n := |l| - 1;
      SortPermutes(l[..n]);
      InsertPermutes(SortNewestFirst(l[..n]), l[n]);
      assert l == l[..n] + [l[n]];
    }
  }

  /** The sort puts the newest save first. */
  lemma {:induction false} SortOrders(l: seq<Summary>)
    ensures NewestFirst(SortNewestFirst(l))
  {
    if l != [] {
      var n := |l| - 1;
      SortOrders(l[..n]);
      InsertKeepsOrder(SortNewestFirst(l[..n]), l[n]);
    }
  }

  /** `getAllSavedCharacters`. An unreadable or empty store lists nothing.
      When every summary is built and every date is valid the list is sorted;
      otherwise it stays in key order. */
  function GetAllSavedCharacters(blob: Blob, now: int, nowIso: string): (r: seq<Summary>)
    ensures !blob.Stored? ==> r == []
    ensures blob.Stored? ==> multiset(r) == multiset(Summaries(blob.entries, now, nowIso).0)
    ensures blob.Stored? && Summaries(blob.entries, now, nowIso).1 && AllDated(Summaries(blob.entries, now, nowIso).0) ==>
      NewestFirst(r)
  {
    if !blob.Stored? then []
    else
      var (l, complete) := Summaries(blob.entries, now, nowIso);
      if complete && AllDated(l) then
        SortPermutes(l);
        SortOrders(l);
        SortNewestFirst(l)
      else l
  }

  // ---------------------------------------------------------------------------
  // Properties of the sort

  lemma {:induction false} SavedAtSnoc(p: seq<Summary>, x: Summary, t: int)
    ensures SavedAt(p + [x], t) == SavedAt(p, t) + At(x, t)
  {
    if p == [] {
      assert [x][1..] == [];
      assert p + [x] == [x];
    } else {
      assert (p + [x])[1..] == p[1..] + [x];
      SavedAtSnoc(p[1..], x, t);
      var a := At(p[0], t);
      var b := SavedAt(p[1..], t);
      assert a + (b + At(x, t)) == (a + b) + At(x, t);
    }
  }

  lemma {:induction false} NoneSavedAt(l: seq<Summary>, t: int)
    requires forall i :: 0 <= i < |l| ==> Key(l[i]) < t
    ensures SavedAt(l, t) == []
  {
    if l != [] {
      NoneSavedAt(l[1..], t);
    }
  }

  lemma {:induction false} SavedAtCons(x: Summary, l: seq<Summary>, t: int)
    ensures SavedAt([x] + l, t) == At(x, t) + SavedAt(l, t)
  {
    assert ([x] + l)[0] == x;
    assert ([x] + l)[1..] == l;
  }

  lemma {:induction false} InsertSavedAt(l: seq<Summary>, x: Summary, t: int)
    requires NewestFirst(l)
    decreases |l|, 1
    ensures SavedAt(Insert(l, x), t) == SavedAt(l, t) + At(x, t)
  {
    if l == [] {
      SavedAtCons(x, [], t);
    } else if Key(x) <= Key(l[0]) {
      InsertAfterFirst(l, x, t);
    } else {
      InsertBeforeFirst(l, x, t);
    }
  }

  lemma {:induction false} InsertAfterFirst(l: seq<Summary>, x: Summary, t: int)
    requires NewestFirst(l) && l != [] && Key(x) <= Key(l[0])
    decreases |l|, 0
    ensures SavedAt(Insert(l, x), t) == SavedAt(l, t) + At(x, t)
  {
    TailNewestFirst(l);
    var rest := Insert(l[1..], x);
    var a := At(l[0], t);
    calc {
      SavedAt(Insert(l, x), t);
      SavedAt([l[0]] + rest, t);
      { SavedAtCons(l[0], rest, t); }
      a + SavedAt(rest, t);
      { InsertSavedAt(l[1..], x, t); }
      a + (SavedAt(l[1..], t) + At(x, t));
      (a + SavedAt(l[1..], t)) + At(x, t);
      SavedAt(l, t) + At(x, t);
    }
  }

  lemma {:induction false} InsertBeforeFirst(l: seq<Summary>, x: Summary, t: int)
    requires NewestFirst(l) && l != [] && Key(l[0]) < Key(x)
    ensures SavedAt(Insert(l, x), t) == SavedAt(l, t) + At(x, t)
  {
    SavedAtCons(x, l, t);
    if Key(x) == t {
      assert forall i :: 0 <= i < |l| ==> Key(l[i]) <= Key(l[0]);
      NoneSavedAt(l, t);
    }
  }

  lemma {:induction false} TailNewestFirst(l: seq<Summary>)
    requires l != [] && NewestFirst(l)
    ensures NewestFirst(l[1..])
  {
    forall i, j | 0 <= i < j < |l[1..]| ensures Key(l[1..][j]) <= Key(l[1..][i]) {
      assert l[1..][i] == l[i + 1] && l[1..][j] == l[j + 1];
    }
  }

  /** The sort is stable: the rows saved at the same time keep their order. */
  lemma {:induction false} SortIsStable(l: seq<Summary>, t: int)
    ensures SavedAt(SortNewestFirst(l), t) == SavedAt(l, t)
  {
    if l != [] {
      var n := |l| - 1;
      var p := l[..n];
      var x := l[n];
      calc {
        SavedAt(SortNewestFirst(l), t);
        SavedAt(Insert(SortNewestFirst(p), x), t);
        { SortOrders(p); InsertSavedAt(SortNewestFirst(p), x, t); }
        SavedAt(SortNewestFirst(p), t) + At(x, t);
        { SortIsStable(p, t); }
        SavedAt(p, t) + At(x, t);
        { SavedAtSnoc(p, x, t); }
        SavedAt(p + [x], t);
        { assert l == p + [x]; }
        SavedAt(l, t);
      }
    }
  }

  lemma {:induction false} InsertOldest(l: seq<Summary>, x: Summary)
    requires forall i :: 0 <= i < |l| ==> Key(x) <= Key(l[i])
    ensures Insert(l, x) == l + [x]
  {
    if l != [] {
      InsertOldest(l[1..], x);
      assert l == [l[0]] + l[1..];
    }
  }

  /** A list already newest first is left as it is. */
  lemma {:induction false} SortKeepsSorted(l: seq<Summary>)
    requires NewestFirst(l)
    ensures SortNewestFirst(l) == l
  {
    if l != [] {
      var n := |l| - 1;
      var p := l[..n];
      NewestFirstSplit(l, p);
      SortKeepsSorted(p);
      InsertOldest(p, l[n]);
      assert l == p + [l[n]];
    }
  }

  /** A newest-first list is its newest-first front followed by a row no
      newer than any of them. */
  lemma {:induction false} NewestFirstSplit(l: seq<Summary>, p: seq<Summary>)
    requires NewestFirst(l) && l != [] && p == l[..|l| - 1]
    ensures NewestFirst(p)
    ensures forall i :: 0 <= i < |p| ==> Key(l[|l| - 1]) <= Key(p[i])
  {
    var n := |l| - 1;
    forall i, j | 0 <= i < j < |p| ensures Key(p[j]) <= Key(p[i]) {
      assert p[i] == l[i] && p[j] == l[j];
    }
    forall i | 0 <= i < |p| ensures Key(l[n]) <= Key(p[i]) {
      assert p[i] == l[i];
    }
  }

  // ---------------------------------------------------------------------------
  // A save shows up in the list

  /** After a save, the list has a row for the saved character, under the id
      the save used and with the document it stored, provided every stored
      name is text or missing. */
  lemma {:induction false} SavedCharacterListed(es: seq<Entry>, data: Document, name: string, savedAt: int, freshId: string, now: int, nowIso: string)
    requires UniqueIds(es) && name != []
    requires forall i :: 0 <= i < |es| ==> SummaryOf(es[i], now, nowIso).Some?
    ensures var s1 := SaveCharacterData(Stored(es), data, name, savedAt, freshId).value;
      var id := SavedId(es, name, freshId);
      exists s :: s in GetAllSavedCharacters(Stored(s1), now, nowIso) && s.id == id && s.name == name
        && s.data == StoredDoc(data, name, savedAt, id)
  {
    var s1 := SaveCharacterData(Stored(es), data, name, savedAt, freshId).value;
    var id := SavedId(es, name, freshId);
    SaveKeepsSummaries(es, data, name, savedAt, freshId, now, nowIso);
    var k :| 0 <= k < |s1| && s1[k].id == id;
    var doc := StoredDoc(data, name, savedAt, id);
    assert s1[k] == Entry(id, doc);
    InListing(s1, now, nowIso, k);
    StoredSummary(id, doc, name, now, nowIso);
  }

  lemma {:induction false} StoredSummary(id: string, doc: Document, name: string, now: int, nowIso: string)
    requires name != [] && "characterName" in doc && doc["characterName"] == Str(name)
    ensures var s := SummaryOf(Entry(id, doc), now, nowIso);
      s.Some? && s.value.id == id && s.value.name == name && s.value.data == doc
  {
  }

  lemma {:induction false} SaveKeepsSummaries(es: seq<Entry>, data: Document, name: string, savedAt: int, freshId: string, now: int, nowIso: string)
    requires UniqueIds(es) && name != []
    requires forall i :: 0 <= i < |es| ==> SummaryOf(es[i], now, nowIso).Some?
    ensures var s1 := SaveCharacterData(Stored(es), data, name, savedAt, freshId).value;
      forall i :: 0 <= i < |s1| ==> SummaryOf(s1[i], now, nowIso).Some?
  {
    var s1 := SaveCharacterData(Stored(es), data, name, savedAt, freshId).value;
    var id := SavedId(es, name, freshId);
    forall i | 0 <= i < |s1| ensures SummaryOf(s1[i], now, nowIso).Some? {
      if s1[i].id != id {
        assert s1[i] in s1;
        var j :| 0 <= j < |es| && es[j] == s1[i];
      } else {
        NamedListed(s1[i], name, now, nowIso);
      }
    }
  }

  lemma {:induction false} NamedListed(e: Entry, name: string, now: int, nowIso: string)
    requires name != [] && "characterName" in e.doc && e.doc["characterName"] == Str(name)
    ensures SummaryOf(e, now, nowIso).Some?
  {
  }

  /** Every entry of a store whose names are all text or missing has its
      summary in the list. */
  lemma {:induction false} InListing(es: seq<Entry>, now: int, nowIso: string, k: nat)
    requires forall i :: 0 <= i < |es| ==> SummaryOf(es[i], now, nowIso).Some?
    requires k < |es|
    ensures SummaryOf(es[k], now, nowIso).value in GetAllSavedCharacters(Stored(es), now, nowIso)
  {
    var l := Summaries(es, now, nowIso).0;
    assert l[k] == SummaryOf(es[k], now, nowIso).value;
    assert l[k] in multiset(l);
  }
}

=== FILE: save_load.dfy ===
/** Loading a character document back into the sheet: the flat form fields,
    the inventory rows and the victory boxes. */
module SaveLoad {
  import opened Util
  import opened Json
  import opened InventoryTab
  import opened SaveCollect

  // ---------------------------------------------------------------------------
  // Flat form fields

  /** An element found by id: a checkbox and its checked state, or any other
      control and its value. */
  datatype Field = Checkbox(checked: bool) | TextBox(value: string)

  /** Keys the load never writes into an element. */
  const SkippedOnLoad: set<string> :=
    {"inventoryItems", "lastSaved", "version", "savedCharacters", "savedAt", "characterId"}

  /** `element.checked = v` or `element.value = v`. */
  function Assign(f: Field, v: Value): (r: Field)
    ensures r.Checkbox? == f.Checkbox?
  {
    if f.Checkbox? then Checkbox(Truthy(v)) else TextBox(ToText(v))
  }

  /** The field loop of `loadCharacterFromData`. `fields` are the elements by
      id; a key with no element, or a skipped key, changes nothing. */
  function LoadFields(fields: map<string, Field>, data: Document): (r: map<string, Field>)
    ensures r.Keys == fields.Keys
    ensures forall id :: id in fields && id in data && id !in SkippedOnLoad ==> r[id] == Assign(fields[id], data[id])
    ensures forall id :: id in fields && (id !in data || id in SkippedOnLoad) ==> r[id] == fields[id]
  {
    map id | id in fields :: if id in data && id !in SkippedOnLoad then Assign(fields[id], data[id]) else fields[id]
  }

  /** What a recorded control holds, as an element. */
  function FieldOf(c: Control): Field {
    if c.isCheckbox then Checkbox(c.checked) else TextBox(c.value)
  }

  /** The recorded controls have distinct ids. */
  predicate DistinctIds(controls: seq<Control>) {
    forall i, j :: 0 <= i < j < |controls| && Recorded(controls[i]) && Recorded(controls[j]) ==> controls[i].id != controls[j].id
  }

  /** The elements of a form with distinct ids, by id. */
  function FormOf(controls: seq<Control>): (f: map<string, Field>)
    requires DistinctIds(controls)
    ensures forall id :: id in f <==> exists i :: 0 <= i < |controls| && Recorded(controls[i]) && controls[i].id == id
    ensures forall i :: 0 <= i < |controls| && Recorded(controls[i]) ==> f[controls[i].id] == FieldOf(controls[i])
  {
    map c | c in controls && Recorded(c) :: c.id := FieldOf(c)
  }

  /** `prior` has an element for exactly the form's ids, of the same kind. */
  predicate SameShape(prior: map<string, Field>, form: map<string, Field>) {
    prior.Keys == form.Keys && forall id :: id in form ==> prior[id].Checkbox? == form[id].Checkbox?
  }

  /** Writing the fields a form saved back into a form of the same shape
      gives the saved form, when no id is one the load skips. */
  lemma {:induction false} FieldsRoundTrip(controls: seq<Control>, prior: map<string, Field>)
    requires DistinctIds(controls)
    requires forall i :: 0 <= i < |controls| && Recorded(controls[i]) ==> controls[i].id !in SkippedOnLoad
    requires SameShape(prior, FormOf(controls))
    ensures LoadFields(prior, CollectFields(controls)) == FormOf(controls)
  {
    var d := CollectFields(controls);
    forall i | 0 <= i < |controls| && Recorded(controls[i])
      ensures controls[i].id in d && d[controls[i].id] == FieldValue(controls[i])
    {
      assert LastWithId(controls, i);
    }
    FieldsLoaded(controls, prior, d);
  }

  /** The same for any document that holds, under each recorded id, what
      that control saved. */
  lemma {:induction false} FieldsLoaded(controls: seq<Control>, prior: map<string, Field>, data: Document)
    requires DistinctIds(controls)
    requires forall i :: 0 <= i < |controls| && Recorded(controls[i]) ==> controls[i].id !in SkippedOnLoad
    requires forall i :: 0 <= i < |controls| && Recorded(controls[i]) ==>
      controls[i].id in data && data[controls[i].id] == FieldValue(controls[i])
    requires SameShape(prior, FormOf(controls))
    ensures LoadFields(prior, data) == FormOf(controls)
  {
    var form := FormOf(controls);
    var r := LoadFields(prior, data);
    assert r.Keys == form.Keys;
    forall id | id in form ensures r[id] == form[id] {
      var i := RecordedAt(controls, id);
      FieldLoadedAt(controls, prior, data, i);
    }
    assert r == form;
  }

  /** The position of a recorded control with the given id. */
  lemma {:induction false} RecordedAt(controls: seq<Control>, id: string) returns (i: nat)
    requires DistinctIds(controls)
    requires id in FormOf(controls)
    ensures i < |controls| && Recorded(controls[i]) && controls[i].id == id
    ensures FormOf(controls)[id] == FieldOf(controls[i])
  {
    i :| 0 <= i < |controls| && Recorded(controls[i]) && controls[i].id == id;
  }

  /** A saved checkbox state or value, written into an element of the same
      kind, gives the element the control had. */
  lemma {:induction false} FieldLoadedAt(controls: seq<Control>, prior: map<string, Field>, data: Document, i: nat)
    requires i < |controls| && Recorded(controls[i]) && controls[i].id !in SkippedOnLoad
    requires controls[i].id in data && data[controls[i].id] == FieldValue(controls[i])
    requires controls[i].id in prior && prior[controls[i].id].Checkbox? == controls[i].isCheckbox
    ensures LoadFields(prior, data)[controls[i].id] == FieldOf(controls[i])
  {
  }

  // ---------------------------------------------------------------------------
  // Inventory as written

  /** The inputs and textareas of a fresh row, in document order: the
      quantity, the name, the description and the eight bonus inputs. */
  datatype Slot = QuantitySlot | NameSlot | DescriptionSlot | BonusSlot(stat: Stat)

  const NamePlaceholder := "Item Name"
  const DescriptionPlaceholder := "Description / Notes"

  function Placeholder(s: Slot): string {
    match s
    case NameSlot => NamePlaceholder
    case DescriptionSlot => DescriptionPlaceholder
    case _ => ""
  }

  function RowSlots(): seq<Slot> {
    [QuantitySlot, NameSlot, DescriptionSlot] + seq(|StatOrder|, i requires 0 <= i < |StatOrder| => BonusSlot(StatOrder[i]))
  }

  /** `item[key]`, `None` when the item has no such property. */
  function Prop(item: Value, key: string): Option<Value> {
    if item.Obj? && key in item.fields then Some(item.fields[key]) else None
  }

  /** `item[key] || ''` written into a textarea. */
  function TextOr(item: Value, key: string): string {
    var p := Prop(item, key);
    if p.Some? && Truthy(p.value) then ToText(p.value) else ""
  }

  /** The inventory loop of `loadCharacterFromData` on one fresh row: each
      input whose placeholder is exactly `Item` gets the name and each whose
      placeholder is exactly `Description` the description. A `null` item
      throws as soon as a property is read (`None`). */
  function FillAsWritten(row: ItemRow, slots: seq<Slot>, item: Value): Option<ItemRow> {
    if slots == [] then Some(row)
    else
      var p := Placeholder(slots[0]);
      if (p == "Item" || p == "Description") && item.Null? then None
      else
        var next :=
          if p == "Item" then row.(name := TextOr(item, "name"))
          else if p == "Description" then row.(description := TextOr(item, "description"))
          else row;
        FillAsWritten(next, slots[1..], item)
  }

  function RestoreItemAsWritten(item: Value): Option<ItemRow> {
    FillAsWritten(NewItemRow(), RowSlots(), item)
  }

  /** No slot of a fresh row has either placeholder the loop looks for, so
      every item comes back as a blank fresh row. */
  lemma {:induction false} RestoreAsWrittenIsBlank(item: Value)
    ensures RestoreItemAsWritten(item) == Some(NewItemRow())
  {
    FillNothing(NewItemRow(), RowSlots(), item);
  }

  lemma {:induction false} FillNothing(row: ItemRow, slots: seq<Slot>, item: Value)
    requires forall i :: 0 <= i < |slots| ==> Placeholder(slots[i]) != "Item" && Placeholder(slots[i]) != "Description"
    ensures FillAsWritten(row, slots, item) == Some(row)
  {
    if slots != [] {
      assert Placeholder(slots[0]) != "Item" && Placeholder(slots[0]) != "Description";
      FillNothing(row, slots[1..], item);
    }
  }

  /** The row left in the list for one item: the restored row, or the blank
      fresh row when the restore throws. */
  function RowOrBlank(r: Option<ItemRow>): ItemRow {
    if r.Some? then r.value else NewItemRow()
  }

  /** The inventory loop: one fresh row is added per item and then filled by
      `restore`, in order. An item whose restore throws ends the loop, leaving
      its blank row and the rows before it (`complete` is false). */
  function RestoreAll(items: seq<Value>, restore: Value -> Option<ItemRow>): (r: (seq<ItemRow>, bool))
    ensures |r.0| <= |items|
    ensures forall i :: 0 <= i < |r.0| ==> r.0[i] == RowOrBlank(restore(items[i]))
    ensures forall i :: 0 <= i < |r.0| - 1 ==> restore(items[i]).Some?
    ensures r.1 <==> forall i :: 0 <= i < |items| ==> restore(items[i]).Some?
    ensures r.1 ==> |r.0| == |items|
    ensures !r.1 ==> 0 < |r.0| && restore(items[|r.0| - 1]).None?
  {
    if items == [] then ([], true)
    else
      match restore(items[0])
      case None => ([NewItemRow()], false)
      case Some(row) =>
        var rest := RestoreAll(items[1..], restore);
        assert forall i :: 1 <= i < |items| ==> items[i] == items[1..][i - 1];
        ([row] + rest.0, rest.1)
  }

  /** The inventory as `loadCharacterFromData` restores it. */
  function RestoreInventoryAsWritten(items: seq<Value>): (rows: seq<ItemRow>)
    ensures |rows| == |items|
    ensures forall i :: 0 <= i < |items| ==> rows[i] == NewItemRow()
  {
    forall x ensures RestoreItemAsWritten(x) == Some(NewItemRow()) {
      RestoreAsWrittenIsBlank(x);
    }
    RestoreAll(items, RestoreItemAsWritten).0
  }

  /** Loading a saved inventory as written and saving again stores no items:
      an item named `Rope` is lost. */
  lemma {:induction false} LoadAsWrittenLosesItems()
    ensures var saved := [SavedItem(1, "Rope", "", map[])];
      && CollectInventory(RestoreInventoryAsWritten(InventoryValue(saved).elems)) == []
      && CollectInventory(RestoreInventoryAsWritten(InventoryValue(saved).elems)) != saved
  {
    var saved := [SavedItem(1, "Rope", "", map[])];
    BlankRowsDropped(RestoreInventoryAsWritten(InventoryValue(saved).elems));
  }

  // ---------------------------------------------------------------------------
  // Inventory restored through the rows' data fields

  /** The bonus inputs of a fresh row after `bonuses` is written into them:
      each stat present in the object gets its value read back as an
      integer, the others stay at 0. */
  function RestoredInputs(bonuses: map<string, Value>): (inputs: seq<BonusInput>)
    ensures |inputs| == |StatOrder|
    ensures forall i :: 0 <= i < |StatOrder| ==> inputs[i].stat == Key(StatOrder[i])
    ensures forall i :: 0 <= i < |StatOrder| && Key(StatOrder[i]) in bonuses ==> inputs[i].value == IntOf(bonuses[Key(StatOrder[i])])
    ensures forall i :: 0 <= i < |StatOrder| && Key(StatOrder[i]) !in bonuses ==> inputs[i].value == 0
  {
    seq(|StatOrder|, i requires 0 <= i < |StatOrder| =>
      var k := Key(StatOrder[i]);
      BonusInput(k, if k in bonuses then IntOf(bonuses[k]) else 0))
  }

  /** One item restored into a fresh row by its `data-field` textareas, its
      quantity input and its `data-stat` inputs. A `null` item throws. */
  function RestoreItem(item: Value): (r: Option<ItemRow>)
    ensures r.None? <==> item.Null?
    ensures r.Some? ==> r.value.name == TextOr(item, "name") && r.value.description == TextOr(item, "description")
    ensures r.Some? && Prop(item, "quantity").None? ==> r.value.quantity == 1
    ensures r.Some? && Prop(item, "quantity").Some? ==> r.value.quantity == IntOf(Prop(item, "quantity").value)
    ensures r.Some? && Prop(item, "bonuses").Some? && Prop(item, "bonuses").value.Obj? ==>
      r.value.bonusInputs == RestoredInputs(Prop(item, "bonuses").value.fields)
    ensures r.Some? && !(Prop(item, "bonuses").Some? && Prop(item, "bonuses").value.Obj?) ==>
      r.value.bonusInputs == NewItemRow().bonusInputs
  {
    if item.Null? then None
    else
      var blank := NewItemRow();
      var q := Prop(item, "quantity");
      var b := Prop(item, "bonuses");
      Some(ItemRow(
        if q.Some? then IntOf(q.value) else blank.quantity,
        TextOr(item, "name"),
        TextOr(item, "description"),
        if b.Some? && b.value.Obj? then RestoredInputs(b.value.fields) else blank.bonusInputs))
  }

  /** The rows restored from an `inventoryItems` array, and whether every
      item was restored: a `null` item throws after its blank row is added,
      which stops the load. */
  function RestoreInventory(items: seq<Value>): (r: (seq<ItemRow>, bool))
    ensures |r.0| <= |items|
    ensures forall i :: 0 <= i < |r.0| && !items[i].Null? ==> RestoreItem(items[i]) == Some(r.0[i])
    ensures r.1 <==> forall i :: 0 <= i < |items| ==> !items[i].Null?
    ensures r.1 ==> |r.0| == |items|
    ensures !r.1 ==> (0 < |r.0| && items[|r.0| - 1].Null? && r.0[|r.0| - 1] == NewItemRow()
      && forall i :: 0 <= i < |r.0| - 1 ==> !items[i].Null?)
  {
    RestoreAll(items, RestoreItem)
  }

  /** The bonus inputs of a row as the sheet builds it: one per stat, in
      order. */
  predicate SheetRow(row: ItemRow) {
    |row.bonusInputs| == |StatOrder| && forall i :: 0 <= i < |StatOrder| ==> row.bonusInputs[i].stat == Key(StatOrder[i])
  }

  /** The stat keys of a sheet row are distinct. */
  lemma {:induction false} SheetKeysDistinct()
    ensures forall i, j :: 0 <= i < j < |StatOrder| ==> Key(StatOrder[i]) != Key(StatOrder[j])
  {
    forall i, j | 0 <= i < j < |StatOrder| ensures Key(StatOrder[i]) != Key(StatOrder[j]) {
      assert |Key(StatOrder[i])| != |Key(StatOrder[j])|;
    }
  }

  /** With distinct keys, the bonus map holds each input with a nonzero
      value under its key. */
  lemma {:induction false} BonusValues(inputs: seq<BonusInput>)
    requires forall i, j :: 0 <= i < j < |inputs| ==> inputs[i].stat != inputs[j].stat
    ensures forall i :: 0 <= i < |inputs| && inputs[i].value != 0 ==> CollectBonuses(inputs)[inputs[i].stat] == inputs[i].value
  {
    if inputs != [] {
      var n := |inputs| - 1;
      var p := inputs[..n];
      BonusValues(p);
      forall i | 0 <= i < n && inputs[i].value != 0 ensures CollectBonuses(inputs)[inputs[i].stat] == inputs[i].value {
        assert p[i] == inputs[i];
      }
    }
  }

  /** The bonus inputs of a sheet row, stored and written into a fresh row,
      come back unchanged. */
  lemma {:induction false} BonusesRoundTrip(inputs: seq<BonusInput>)
    requires |inputs| == |StatOrder| && forall i :: 0 <= i < |StatOrder| ==> inputs[i].stat == Key(StatOrder[i])
    ensures RestoredInputs(BonusesValue(CollectBonuses(inputs)).fields) == inputs
  {
    var r := RestoredInputs(BonusesValue(CollectBonuses(inputs)).fields);
    SheetKeysDistinct();
    assert forall i, j :: 0 <= i < j < |inputs| ==> inputs[i].stat != inputs[j].stat;
    BonusValues(inputs);
    forall i | 0 <= i < |inputs| ensures r[i] == inputs[i] {
      BonusRoundTripAt(inputs, i);
    }
  }

  lemma {:induction false} BonusRoundTripAt(inputs: seq<BonusInput>, i: nat)
    requires |inputs| == |StatOrder| && i < |inputs| && inputs[i].stat == Key(StatOrder[i])
    requires forall i, j :: 0 <= i < j < |inputs| ==> inputs[i].stat != inputs[j].stat
    requires forall i :: 0 <= i < |inputs| && inputs[i].value != 0 ==> CollectBonuses(inputs)[inputs[i].stat] == inputs[i].value
    ensures RestoredInputs(BonusesValue(CollectBonuses(inputs)).fields)[i] == inputs[i]
  {
    var b := CollectBonuses(inputs);
    var m := BonusesValue(b).fields;
    var k := inputs[i].stat;
    if k in b {
      var j :| 0 <= j < |inputs| && inputs[j].stat == k && inputs[j].value != 0;
      assert j == i;
      assert m[k] == Num(b[k]);
    } else {
      assert k !in m;
    }
  }

  lemma {:induction false} ItemValueProps(x: SavedItem)
    ensures Prop(ItemValue(x), "quantity") == Some(Num(x.quantity))
    ensures TextOr(ItemValue(x), "name") == x.name
    ensures TextOr(ItemValue(x), "description") == x.description
    ensures Prop(ItemValue(x), "bonuses") == Some(BonusesValue(x.bonuses))
  {
  }

  /** Restoring a stored item and storing it again gives the same item, for
      an item stored from a sheet row. */
  lemma {:induction false} ItemRoundTrip(row: ItemRow)
    requires SheetRow(row)
    ensures var x := CollectItem(row);
      && RestoreItem(ItemValue(x)).Some?
      && CollectItem(RestoreItem(ItemValue(x)).value) == x
  {
    var x := CollectItem(row);
    ItemValueProps(x);
    BonusesRoundTrip(row.bonusInputs);
    var r := RestoreItem(ItemValue(x)).value;
    assert r.bonusInputs == row.bonusInputs;
    assert r.quantity == x.quantity;
  }

  /** Rows that all have a name or a description are stored one item per
      row, in order. */
  lemma {:induction false} KeptRowsStored(rows: seq<ItemRow>)
    requires forall i :: 0 <= i < |rows| ==> KeptRow(rows[i])
    ensures |CollectInventory(rows)| == |rows|
    ensures forall i :: 0 <= i < |rows| ==> CollectInventory(rows)[i] == CollectItem(rows[i])
  {
    CollectInventoryIsFlatMap(rows);
    assert forall i :: 0 <= i < |rows| ==> StoredOf(rows[i]) == [CollectItem(rows[i])];
    FlatMapOfSingletons(rows, StoredOf);
  }

  /** Restoring a stored inventory and storing it again gives the same
      items, for an inventory stored from sheet rows. */
  lemma {:induction false} InventoryRoundTrip(rows: seq<ItemRow>)
    requires forall i :: 0 <= i < |rows| ==> SheetRow(rows[i])
    ensures var restored := RestoreInventory(InventoryValue(CollectInventory(rows)).elems);
      restored.1 && CollectInventory(restored.0) == CollectInventory(rows)
  {
    var items := CollectInventory(rows);
    var values := InventoryValue(items).elems;
    var restored := RestoreInventory(values);
    assert forall k :: 0 <= k < |values| ==> values[k].Obj?;
    forall k | 0 <= k < |items|
      ensures KeptRow(restored.0[k]) && CollectItem(restored.0[k]) == items[k]
    {
      assert items[k] in items;
      var i :| 0 <= i < |rows| && KeptRow(rows[i]) && items[k] == CollectItem(rows[i]);
      KeptItemRoundTrip(rows[i]);
    }
    KeptRowsStored(restored.0);
  }

  /** A kept sheet row's item restores to a kept row that stores the same
      item. */
  lemma {:induction false} KeptItemRoundTrip(row: ItemRow)
    requires SheetRow(row) && KeptRow(row)
    ensures var x := CollectItem(row);
      && RestoreItem(ItemValue(x)).Some?
      && KeptRow(RestoreItem(ItemValue(x)).value)
      && CollectItem(RestoreItem(ItemValue(x)).value) == x
  {
    ItemRoundTrip(row);
    ItemValueProps(CollectItem(row));
  }

  // ---------------------------------------------------------------------------
  // Victories

  /** `victoryCount` read as a number by `Math.min`; `None` is NaN. Text reads
      as its integer value (blank text as 0), an array as its joined text. */
  function VictoryLimit(v: Value): (r: Option<int>)
    ensures v.Num? ==> r == Some(v.n)
    ensures v.Null? ==> r == Some(0)
    ensures v.Obj? ==> r.None?
  {
    match v
    case Null => Some(0)
    case Bool(b) => Some(if b then 1 else 0)
    case Num(n) => Some(n)
    case Str(t) => ToNumber(t)
    case Arr(_) => ToNumber(ToText(v))
    case Obj(_) => None
  }

  /** The checked boxes form a run from the left. */
  predicate CheckedFromLeft(boxes: seq<bool>) {
    forall i, j :: 0 <= i < j < |boxes| && boxes[j] ==> boxes[i]
  }

  /** How many of `n` boxes a limit checks: none for NaN or a limit below 1,
      all of them for a limit of at least `n`. */
  function CheckedCount(limit: Option<int>, n: nat): nat {
    if limit.None? then 0 else Max(0, Min(limit.value, n))
  }

  /** The victory part of `loadCharacterFromData`: when the document has a
      `victoryCount`, every box is cleared and then the boxes left of
      `Math.min(victoryCount, boxes)` are checked; otherwise the boxes keep
      their state. */
  function RestoreVictories(boxes: seq<bool>, data: Document): (r: seq<bool>)
    ensures |r| == |boxes|
    ensures "victoryCount" !in data ==> r == boxes
    ensures "victoryCount" in data ==>
      CheckedFromLeft(r) && CountTrue(r) == CheckedCount(VictoryLimit(data["victoryCount"]), |boxes|)
  {
    if "victoryCount" !in data then boxes
    else
      var limit := VictoryLimit(data["victoryCount"]);
      var r := seq(|boxes|, i requires 0 <= i < |boxes| => limit.Some? && i < limit.value);
      CountTruePrefix(r, CheckedCount(limit, |boxes|));
      r
  }

  /** Boxes checked from the left are exactly the first `CountTrue` ones. */
  lemma {:induction false} CheckedFromLeftByCount(boxes: seq<bool>)
    requires CheckedFromLeft(boxes)
    ensures forall i :: 0 <= i < |boxes| ==> (boxes[i] <==> i < CountTrue(boxes))
  {
    if boxes != [] {
      var n := |boxes| - 1;
      var p := boxes[..n];
      assert CheckedFromLeft(p) by {
        forall i, j | 0 <= i < j < n && p[j] ensures p[i] {
          assert boxes[j] && boxes[i] == p[i];
        }
      }
      CheckedFromLeftByCount(p);
      assert forall i :: 0 <= i < n ==> p[i] == boxes[i];
      if boxes[n] {
        assert forall i :: 0 <= i < n ==> p[i];
        assert CountTrue(p) >= n by {
          if n > 0 { assert p[n - 1]; }
        }
      }
    }
  }

  /** The victories a save counted, loaded into as many boxes, come back as
      they were when they were checked from the left. */
  lemma {:induction false} VictoriesRoundTrip(boxes: seq<bool>, prior: seq<bool>, data: Document)
    requires CheckedFromLeft(boxes) && |prior| == |boxes|
    requires "victoryCount" in data && data["victoryCount"] == Num(CountTrue(boxes))
    ensures RestoreVictories(prior, data) == boxes
  {
    var r := RestoreVictories(prior, data);
    CheckedFromLeftByCount(boxes);
    CheckedFromLeftByCount(r);
    assert forall i :: 0 <= i < |r| ==> r[i] == boxes[i];
  }

  // ---------------------------------------------------------------------------
  // The whole load

  /** What a load writes: the elements by id, the inventory rows and the
      victory boxes. */
  datatype Sheet = Sheet(fields: map<string, Field>, rows: seq<ItemRow>, victories: seq<bool>)

  /** The items of the document's `inventoryItems`, when it is an array. */
  function InventoryItems(data: Document): Option<seq<Value>> {
    if "inventoryItems" in data && data["inventoryItems"].Arr? then Some(data["inventoryItems"].elems) else None
  }

  /** `loadCharacterFromData` as written: the fields, then the inventory
      (the list is replaced only when the document has an array), then the
      victories. Nothing in it can throw. */
  function LoadCharacterFromDataAsWritten(sheet: Sheet, data: Document): (r: Sheet)
    ensures r.fields == LoadFields(sheet.fields, data)
    ensures InventoryItems(data).None? ==> r.rows == sheet.rows
    ensures InventoryItems(data).Some? ==>
      |r.rows| == |InventoryItems(data).value| && CollectInventory(r.rows) == []
    ensures r.victories == RestoreVictories(sheet.victories, data)
  {
    var items := InventoryItems(data);
    var fields := LoadFields(sheet.fields, data);
    var victories := RestoreVictories(sheet.victories, data);
    if items.None? then Sheet(fields, sheet.rows, victories)
    else
      var rows := RestoreInventoryAsWritten(items.value);
      BlankRowsDropped(rows);
      Sheet(fields, rows, victories)
  }

  /** The sheet after a load, and whether the load got to its end: a throw
      is caught and reported, and what was written before it stays. */
  datatype Loaded = Loaded(sheet: Sheet, ok: bool)

  /** `loadCharacterFromData` with each item restored through the row's own
      inputs: a `null` item throws, which leaves the victories as they were. */
  function LoadCharacterFromData(sheet: Sheet, data: Document): (r: Loaded)
    ensures r.sheet.fields == LoadFields(sheet.fields, data)
    ensures r.ok <==> (InventoryItems(data).Some? ==> forall i :: 0 <= i < |InventoryItems(data).value| ==> !InventoryItems(data).value[i].Null?)
    ensures InventoryItems(data).None? ==> r.sheet.rows == sheet.rows
    ensures InventoryItems(data).Some? ==> r.sheet.rows == RestoreInventory(InventoryItems(data).value).0
    ensures r.ok ==> r.sheet.victories == RestoreVictories(sheet.victories, data)
    ensures !r.ok ==> r.sheet.victories == sheet.victories
  {
    var fields := LoadFields(sheet.fields, data);
    var items := InventoryItems(data);
    if items.None? then Loaded(Sheet(fields, sheet.rows, RestoreVictories(sheet.victories, data)), true)
    else
      var restored := RestoreInventory(items.value);
      if restored.1 then Loaded(Sheet(fields, restored.0, RestoreVictories(sheet.victories, data)), true)
      else Loaded(Sheet(fields, restored.0, sheet.victories), false)
  }

  /** Saving a sheet and loading the document into a sheet of the same shape
      gives back its fields, the stored inventory and its victories, when
      no field id is also a key of the details or notes documents, a
      metadata key or a key the load skips. */
  lemma {:induction false} LoadAfterSave(controls: seq<Control>, rows: seq<ItemRow>, details: Document, notes: Document,
                                         victories: seq<bool>, now: int, prior: Sheet)
    requires DistinctIds(controls)
    requires forall i :: 0 <= i < |controls| && Recorded(controls[i]) ==>
      (controls[i].id !in SkippedOnLoad && controls[i].id !in MetadataKeys
       && controls[i].id !in details && controls[i].id !in notes)
    requires "inventoryItems" !in details && "inventoryItems" !in notes
    requires SameShape(prior.fields, FormOf(controls))
    requires forall i :: 0 <= i < |rows| ==> SheetRow(rows[i])
    requires CheckedFromLeft(victories) && |prior.victories| == |victories|
    ensures var r := LoadCharacterFromData(prior, CollectAllCharacterData(controls, rows, details, notes, victories, now));
      && r.ok
      && r.sheet.fields == FormOf(controls)
      && CollectInventory(r.sheet.rows) == CollectInventory(rows)
      && r.sheet.victories == victories
  {
    var data := CollectAllCharacterData(controls, rows, details, notes, victories, now);
    var saved := CollectFields(controls);
    forall i | 0 <= i < |controls| && Recorded(controls[i])
      ensures controls[i].id in data && data[controls[i].id] == FieldValue(controls[i])
    {
      assert LastWithId(controls, i);
      assert controls[i].id in saved;
    }
    FieldsLoaded(controls, prior.fields, data);
    InventoryRoundTrip(rows);
    VictoriesRoundTrip(victories, prior.victories, data);
  }

  /** As written, the same save and load stores no items afterwards, however
      many the sheet had. */
  lemma {:induction false} LoadAfterSaveAsWritten(controls: seq<Control>, rows: seq<ItemRow>, details: Document, notes: Document,
                                                  victories: seq<bool>, now: int, prior: Sheet)
    requires "inventoryItems" !in details && "inventoryItems" !in notes
    ensures var r := LoadCharacterFromDataAsWritten(prior, CollectAllCharacterData(controls, rows, details, notes, victories, now));
      |r.rows| == |CollectInventory(rows)| && CollectInventory(r.rows) == []
  {
  }
}

=== FILE: save_store.dfy ===
/** The character store kept in the host's global blob: the `characters`
    section as entries in key order, the save that files a document under its
    character name, and the dates the store's `savedAt` values stand for. */
module SaveStore {
  import opened Util
  import opened Json

  /** One stored character: its key in the `characters` section and its
      document. */
  datatype Entry = Entry(id: string, doc: Document)

  /** The blob as read from the host: nothing stored yet, text that is not
      JSON, or the `characters` section (empty when the parsed object has
      none). */
  datatype Blob = Missing | Corrupt | Stored(entries: seq<Entry>)

  /** Keys of a JavaScript object are distinct. */
  predicate UniqueIds(es: seq<Entry>) {
    forall i, j :: 0 <= i < j < |es| ==> es[i].id != es[j].id
  }

  predicate HasId(es: seq<Entry>, id: string) {
    exists i :: 0 <= i < |es| && es[i].id == id
  }

  /** A stored `characters` section has distinct keys. */
  predicate ValidBlob(blob: Blob) {
    blob.Stored? ==> UniqueIds(blob.entries)
  }

  /** The entries the save starts from: a missing blob reads as `{}`. */
  function EntriesOf(blob: Blob): seq<Entry>
    requires !blob.Corrupt?
  {
    if blob.Missing? then [] else blob.entries
  }

  /** The largest time value a JavaScript date can hold, in milliseconds. */
  const MaxTime := 8_640_000_000_000_000

  /** `new Date(v)` as a time value, `None` for an invalid date. A number is a
      time value when it is in range; `null` is 0 and a boolean 0 or 1. Date
      text is not parsed and reads as invalid. */
  function DateOf(v: Value): (t: Option<int>)
    ensures v.Num? && -MaxTime <= v.n <= MaxTime ==> t == Some(v.n)
    ensures v.Str? || v.Arr? || v.Obj? ==> t.None?
  {
    match v
    case Num(n) => if -MaxTime <= n <= MaxTime then Some(n) else None
    case Null => Some(0)
    case Bool(b) => Some(if b then 1 else 0)
    case _ => None
  }

  // ---------------------------------------------------------------------------
  // Save

  /** The entry's `characterName` is the text `name`. */
  predicate NamedAs(e: Entry, name: string) {
    "characterName" in e.doc && e.doc["characterName"] == Str(name)
  }

  /** The last entry filed under `name`: the key loop overwrites its match,
      so a later match wins. */
  function LastNamed(es: seq<Entry>, name: string): (r: Option<nat>)
    ensures r.Some? ==> (r.value < |es| && NamedAs(es[r.value], name)
      && forall j :: r.value < j < |es| ==> !NamedAs(es[j], name))
    ensures r.None? ==> forall j :: 0 <= j < |es| ==> !NamedAs(es[j], name)
  {
    if es == [] then None
    else if NamedAs(es[|es| - 1], name) then Some(|es| - 1)
    else LastNamed(es[..|es| - 1], name)
  }

  /** The id the save uses: the matching entry's key, unless there is none or
      it is the empty text (which `||` treats as missing), in which case the
      fresh id. */
  function SavedId(es: seq<Entry>, name: string, freshId: string): string {
    var found := LastNamed(es, name);
    if found.Some? && es[found.value].id != "" then es[found.value].id else freshId
  }

  /** The document stored for a save: the collected document with the name,
      the save time and the id written over it. */
  function StoredDoc(data: Document, name: string, savedAt: int, id: string): (d: Document)
    ensures d.Keys == data.Keys + {"characterName", "savedAt", "characterId"}
    ensures d["characterName"] == Str(name) && d["savedAt"] == Num(savedAt) && d["characterId"] == Str(id)
    ensures forall k :: k in data && k !in {"characterName", "savedAt", "characterId"} ==> d[k] == data[k]
  {
    data["characterName" := Str(name)]["savedAt" := Num(savedAt)]["characterId" := Str(id)]
  }

  /** The position of key `id`. */
  function IndexOf(es: seq<Entry>, id: string): (i: nat)
    requires HasId(es, id)
    ensures i < |es| && es[i].id == id
  {
    HasIdTail(es, id);
    if es[0].id == id then 0 else 1 + IndexOf(es[1..], id)
  }

  /** `characters[id] = doc`: an existing key keeps its place, a new key goes
      last. */
  function Put(es: seq<Entry>, id: string, doc: Document): (r: seq<Entry>)
    requires UniqueIds(es)
    ensures HasId(es, id) ==> |r| == |es|
    ensures !HasId(es, id) ==> r == es + [Entry(id, doc)]
    ensures forall i :: 0 <= i < |es| && es[i].id != id ==> i < |r| && r[i] == es[i]
    ensures forall i :: 0 <= i < |r| && r[i].id == id ==> r[i] == Entry(id, doc)
    ensures forall i :: 0 <= i < |r| ==> r[i].id == id || (i < |es| && r[i] == es[i])
    ensures HasId(r, id)
  {
    if HasId(es, id) then
      var k := IndexOf(es, id);
      var r := es[k := Entry(id, doc)];
      assert r[k].id == id;
      r
    else
      var r := es + [Entry(id, doc)];
      assert r[|es|].id == id;
      r
  }

  lemma {:induction false} HasIdTail(es: seq<Entry>, id: string)
    requires es != []
    ensures HasId(es, id) <==> es[0].id == id || HasId(es[1..], id)
  {
    if HasId(es[1..], id) {
      var i :| 0 <= i < |es| - 1 && es[1..][i].id == id;
      assert es[i + 1].id == id;
    }
    if HasId(es, id) && es[0].id != id {
      var i :| 0 <= i < |es| && es[i].id == id;
      assert es[1..][i - 1].id == id;
    }
  }

  /** `saveTaleSpireCharacterData`: a blob that is not JSON makes the save
      fail and leaves the store as it was; otherwise the document is filed
      under the id of the last entry with the same name, or under `freshId`. */
  function SaveCharacterData(blob: Blob, data: Document, name: string, savedAt: int, freshId: string): (r: Result<seq<Entry>, string>)
    requires ValidBlob(blob)
    ensures r.Err? <==> blob.Corrupt?
    ensures r.Ok? ==> var es := EntriesOf(blob); var id := SavedId(es, name, freshId);
      && (forall i :: 0 <= i < |r.value| && r.value[i].id == id ==> r.value[i].doc == StoredDoc(data, name, savedAt, id))
      && HasId(r.value, id)
      && (forall e :: e in es && e.id != id ==> e in r.value)
      && (forall e :: e in r.value && e.id != id ==> e in es)
      && |r.value| >= |es|
      && (forall i :: 0 <= i < |es| && es[i].id != id ==> r.value[i] == es[i])
  {
    if blob.Corrupt? then Err("the stored blob is not valid JSON")
    else
      var es := EntriesOf(blob);
      var id := SavedId(es, name, freshId);
      var r := Put(es, id, StoredDoc(data, name, savedAt, id));
      assert forall e :: e in es && e.id != id ==> e in r by {
        forall e | e in es && e.id != id ensures e in r {
          var i :| 0 <= i < |es| && es[i] == e;
          assert r[i] == e;
        }
      }
      Ok(r)
  }

  /** Saving under a name already filed (with a non-empty key) overwrites that
      entry in place: the key is kept and the store does not grow. */
  lemma {:induction false} SaveExistingKeepsId(es: seq<Entry>, data: Document, name: string, savedAt: int, freshId: string, i: nat)
    requires UniqueIds(es)
    requires i < |es| && NamedAs(es[i], name) && es[i].id != ""
    requires forall j :: i < j < |es| ==> !NamedAs(es[j], name)
    ensures SavedId(es, name, freshId) == es[i].id
    ensures |SaveCharacterData(Stored(es), data, name, savedAt, freshId).value| == |es|
  {
    var found := LastNamed(es, name);
    assert found == Some(i);
    assert HasId(es, es[i].id);
  }

  /** Saving a new name under an unused fresh id adds exactly one entry, at
      the end. */
  lemma {:induction false} SaveNewAppends(es: seq<Entry>, data: Document, name: string, savedAt: int, freshId: string)
    requires UniqueIds(es)
    requires forall j :: 0 <= j < |es| ==> !NamedAs(es[j], name)
    requires !HasId(es, freshId)
    ensures SaveCharacterData(Stored(es), data, name, savedAt, freshId).value
      == es + [Entry(freshId, StoredDoc(data, name, savedAt, freshId))]
  {
  }

  /** The save keeps the keys distinct. */
  lemma {:induction false} SaveKeepsUniqueIds(es: seq<Entry>, data: Document, name: string, savedAt: int, freshId: string)
    requires UniqueIds(es)
    ensures UniqueIds(SaveCharacterData(Stored(es), data, name, savedAt, freshId).value)
  {
    var id := SavedId(es, name, freshId);
    PutKeepsUniqueIds(es, id, StoredDoc(data, name, savedAt, id));
  }

  lemma {:induction false} PutKeepsUniqueIds(es: seq<Entry>, id: string, doc: Document)
    requires UniqueIds(es)
    ensures UniqueIds(Put(es, id, doc))
  {
    var r := Put(es, id, doc);
    if !HasId(es, id) {
      forall i, j | 0 <= i < j < |r| ensures r[i].id != r[j].id {
        if j == |es| { assert r[i] == es[i]; }
      }
    }
  }

  /** Saving the same character twice: the second save finds the entry the
      first one wrote and overwrites it, so the store ends with as many entries
      as after the first save. */
  lemma {:induction false} SaveTwiceIsUpsert(es: seq<Entry>, d1: Document, d2: Document, name: string, t1: int, t2: int, fresh1: string, fresh2: string)
    requires UniqueIds(es) && fresh1 != "" && !HasId(es, fresh1)
    ensures UniqueIds(SaveCharacterData(Stored(es), d1, name, t1, fresh1).value)
    ensures var s1 := SaveCharacterData(Stored(es), d1, name, t1, fresh1).value;
      var s2 := SaveCharacterData(Stored(s1), d2, name, t2, fresh2).value;
      |s2| == |s1| && SavedId(s1, name, fresh2) == SavedId(es, name, fresh1)
  {
    var id := SavedId(es, name, fresh1);
    var doc := StoredDoc(d1, name, t1, id);
    var s1 := Put(es, id, doc);
    assert SaveCharacterData(Stored(es), d1, name, t1, fresh1) == Ok(s1);
    SaveKeepsUniqueIds(es, d1, name, t1, fresh1);
    var k := LastWritten(es, name, id, doc);
    SaveExistingKeepsId(s1, d2, name, t2, fresh2, k);
  }

  /** After `Put` of a document named `name` under a non-empty `id` that is
      either new or the key of the last entry named `name`, that entry is the
      last one named `name`. */
  lemma {:induction false} LastWritten(es: seq<Entry>, name: string, id: string, doc: Document) returns (k: nat)
    requires UniqueIds(es) && id != "" && NamedAs(Entry(id, doc), name)
    requires HasId(es, id) ==> LastNamed(es, name).Some? && es[LastNamed(es, name).value].id == id
    ensures k < |Put(es, id, doc)| && Put(es, id, doc)[k] == Entry(id, doc)
    ensures forall j :: k < j < |Put(es, id, doc)| ==> !NamedAs(Put(es, id, doc)[j], name)
  {
    var s1 := Put(es, id, doc);
    if HasId(es, id) {
      k := LastNamed(es, name).value;
      forall j | k < j < |s1| ensures !NamedAs(s1[j], name) {
        assert s1[j] == es[j];
      }
    } else {
      assert s1 == es + [Entry(id, doc)];
      k := |es|;
    }
  }
}

=== FILE: sheet_core.dfy ===
/** Pieces of the sheet's core shared by every tab: the roll descriptor
    handed to the dice tray, the descriptor built when a rollable label is
    clicked, and the table from tab identifiers to tab files. */
module SheetCore {
  import opened Util

  /** What the dice tray receives: a label and dice notation. */
  datatype RollDescriptor = RollDescriptor(name: string, roll: string)

  /** A clickable roll label: its `data-dice-type`, `data-modifier` and
      `data-label` attributes (the last two may be absent) and its text. */
  datatype RollTrigger = RollTrigger(diceType: string, modifier: Option<string>, dataLabel: Option<string>, text: string)

  /** The modifier text of a roll. It is empty for a `no-mod` trigger or one
      without an input. Otherwise `value >= 0` compares `Number(value)` with
      zero: a value that reads as a non-negative number gets a `+` in front,
      any other value (negative, or NaN) is used as it is. */
  function ModifierString(t: RollTrigger, input: Option<string>): string {
    if t.modifier != Some("no-mod") && input.Some? then
      var n := ToNumber(input.value);
      if n.Some? && n.value >= 0 then "+" + input.value else input.value
    else ""
  }

  /** `createDiceRoll`: the label is `data-label` when present, the element
      text otherwise; the roll is the dice type followed by the modifier
      text, except that a lone `+` (from an empty input) is dropped. */
  function CreateDiceRoll(t: RollTrigger, input: Option<string>): (r: RollDescriptor)
    ensures r.name == (if t.dataLabel.Some? then t.dataLabel.value else t.text)
    ensures |t.diceType| <= |r.roll| && r.roll[..|t.diceType|] == t.diceType
    ensures t.modifier == Some("no-mod") || input.None? || input == Some("") ==> r.roll == t.diceType
    ensures t.modifier != Some("no-mod") && input.Some? && input != Some("") ==>
      var n := ToNumber(input.value);
      if n.Some? && n.value >= 0 then r.roll == t.diceType + "+" + input.value
      else if input.value == "+" then r.roll == t.diceType
      else r.roll == t.diceType + input.value
  {
    var name := if t.dataLabel.Some? then t.dataLabel.value else t.text;
    var m := ModifierString(t, input);
    var roll := t.diceType + (if m == "+" then "" else m);
    assert roll[..|t.diceType|] == t.diceType;
    if t.modifier == Some("no-mod") || input.None? then RollDescriptor(name, roll)
    else
      var v := input.value;
      var n := ToNumber(v);
      assert IsBlank("");
      if n.Some? && n.value >= 0 then
        assert m == "+" + v;
        assert v != "" ==> m != "+" && roll == t.diceType + "+" + v by {
          if v != "" { assert |m| > 1; }
        }
        RollDescriptor(name, roll)
      else
        assert m == v;
        RollDescriptor(name, roll)
  }

  /** An input holding the decimal text of `n` gives the roll `diceType`
      followed by `n` with an explicit sign, and that suffix reads back as
      `n`. */
  lemma {:induction false} CreateDiceRollOfInteger(t: RollTrigger, n: int)
    requires t.modifier != Some("no-mod")
    ensures var r := CreateDiceRoll(t, Some(IntToString(n)));
      (n >= 0 ==> r.roll == t.diceType + "+" + IntToString(n))
      && (n < 0 ==> r.roll == t.diceType + IntToString(n))
      && ParseIntJs(r.roll[|t.diceType|..]) == Some(n)
  {
    var s := IntToString(n);
    if n >= 0 {
      SignedRoll(t, n);
      ParseIntPlusSign(n);
      assert (t.diceType + "+" + s)[|t.diceType|..] == "+" + s;
    } else {
      SignedRoll(t, n);
      ParseIntToString(n);
      assert (t.diceType + s)[|t.diceType|..] == s;
    }
  }

  lemma {:induction false} SignedRoll(t: RollTrigger, n: int)
    requires t.modifier != Some("no-mod")
    ensures n >= 0 ==> CreateDiceRoll(t, Some(IntToString(n))).roll == t.diceType + "+" + IntToString(n)
    ensures n < 0 ==> CreateDiceRoll(t, Some(IntToString(n))).roll == t.diceType + IntToString(n)
  {
    ToNumberOfIntToString(n);
  }

  /** The tabs whose content is loaded from a file. */
  const TabIds: seq<string> := ["main", "details", "inventory", "notes", "rules"]

  /** `getTabFileName`: the file of a known tab, `undefined` (`None`) for any
      other identifier. */
  function GetTabFileName(tabId: string): (r: Option<string>)
    ensures r.Some? <==> tabId in TabIds
    ensures r.Some? ==> r.value == "tabs/" + tabId + "_tab.html"
  {
    if tabId == "main" then Some("tabs/main_tab.html")
    else if tabId == "details" then Some("tabs/details_tab.html")
    else if tabId == "inventory" then Some("tabs/inventory_tab.html")
    else if tabId == "notes" then Some("tabs/notes_tab.html")
    else if tabId == "rules" then Some("tabs/rules_tab.html")
    else None
  }
}

=== FILE: stamina.dfy ===
/** Stamina and recoveries: spending a recovery, taking damage (temporary
    stamina absorbs it first), healing, the four health states and the limits
    the sheet clamps its inputs to. Every quantity is the integer the sheet
    reads from an input with `parseInt(value) || 0`. */
module Stamina {

  /** The numeric inputs of the stamina block. */
  datatype Vitals = Vitals(
    current: int,        // stamina-current
    max: int,            // stamina-max
    temp: int,           // stamina-temp
    recoveries: int,     // recoveries-current
    recoveryValue: int,  // recoveries-stamina
    amount: int          // damage-amount, shared by Take Damage and Heal
  )

  /** `useRecovery`: with a recovery left, restore up to the recovery value
      without passing `max + temp`; a recovery is only spent when something
      is restored. */
  function UseRecovery(v: Vitals): (r: Vitals)
    ensures r.max == v.max && r.temp == v.temp && r.recoveryValue == v.recoveryValue && r.amount == v.amount
    ensures r == v || (r.recoveries == v.recoveries - 1 && v.recoveries > 0)
    ensures r != v ==> v.current < r.current <= v.max + v.temp
    ensures r != v ==> r.current - v.current <= v.recoveryValue
    ensures r != v ==> r.current - v.current == v.recoveryValue || r.current == v.max + v.temp
    ensures v.recoveries <= 0 ==> r == v
    ensures v.recoveries > 0 && v.recoveryValue > 0 && v.current < v.max + v.temp ==> r != v
  {
    if v.recoveries <= 0 then v
    else
      var healing := if v.recoveryValue <= v.max + v.temp - v.current then v.recoveryValue else v.max + v.temp - v.current;
      if healing > 0 then v.(recoveries := v.recoveries - 1, current := v.current + healing) else v
  }

  /** Temporary stamina soaks damage first: `Math.max(0, temp - damage)` is
      what is left of it and the rest of the damage carries over. A zero or
      negative temporary value absorbs nothing and is left as it is. */
  function AbsorbDamage(temp: int, damage: int): (r: (int, int))
    requires damage > 0
    ensures temp > 0 ==> r.0 >= 0
    ensures temp <= 0 ==> r.0 == temp && r.1 == damage
    ensures r.1 >= 0 && r.0 <= temp
    ensures r.1 == 0 || r.0 <= 0
    ensures (temp - r.0) + r.1 == damage
  {
    if temp > 0 then
      var newTemp := if temp - damage > 0 then temp - damage else 0;
      (newTemp, damage - (temp - newTemp))
    else (temp, damage)
  }

  /** The lowest stamina the sheet allows, `Math.floor(-max / 2)`. */
  function MinAllowed(max: int): int { (-max) / 2 }

  /** `enforceStaminaLimits`: clamp to at most `max + temp`, then (only if the
      first test failed) to at least half of `max` below zero. */
  function EnforceStaminaLimits(current: int, max: int, temp: int): (r: int)
    ensures r <= current || r == MinAllowed(max)
    ensures r >= current || r == max + temp
    ensures MinAllowed(max) <= max + temp ==> MinAllowed(max) <= r <= max + temp
    ensures MinAllowed(max) <= current <= max + temp ==> r == current
    ensures current > max + temp ==> r == max + temp
    ensures current <= max + temp && current < MinAllowed(max) ==> r == MinAllowed(max)
  {
    if current > max + temp then max + temp
    else if current < MinAllowed(max) then MinAllowed(max)
    else current
  }

  /** Clamping twice changes nothing more, as long as the floor is not above
      the ceiling. */
  lemma {:induction false} EnforceStaminaLimitsIdempotent(current: int, max: int, temp: int)
    requires MinAllowed(max) <= max + temp
    ensures var once := EnforceStaminaLimits(current, max, temp);
      EnforceStaminaLimits(once, max, temp) == once
  {
  }

  /** `takeDamage`: a positive amount is absorbed by temporary stamina, the
      rest is taken from stamina, the amount input is reset and the limits
      are enforced against the reduced temporary stamina. */
  function TakeDamage(v: Vitals): (r: Vitals)
    ensures v.amount <= 0 ==> r == v
    ensures v.amount > 0 ==> r.amount == 0 && r.max == v.max && r.recoveries == v.recoveries && r.recoveryValue == v.recoveryValue
    ensures v.amount > 0 ==> r.temp <= v.temp && (v.temp > 0 ==> r.temp >= 0)
    ensures v.amount > 0 ==> r.temp == AbsorbDamage(v.temp, v.amount).0
    ensures v.amount > 0 ==> r.current == EnforceStaminaLimits(v.current - AbsorbDamage(v.temp, v.amount).1, v.max, r.temp)
    ensures v.amount > 0 ==> r.current == EnforceStaminaLimits(v.current - (v.amount - (v.temp - r.temp)), v.max, r.temp)
  {
    if v.amount <= 0 then v
    else
      var (newTemp, remaining) := AbsorbDamage(v.temp, v.amount);
      var afterHit := if remaining > 0 then v.current - remaining else v.current;
      v.(temp := newTemp, current := EnforceStaminaLimits(afterHit, v.max, newTemp), amount := 0)
  }

  /** Temporary stamina absorbs damage first: while it covers the whole
      amount, stamina itself takes nothing and only the temporary pool
      shrinks by the amount. */
  lemma {:induction false} TemporaryAbsorbsFirst(v: Vitals)
    requires 0 < v.amount <= v.temp
    requires MinAllowed(v.max) <= v.current <= v.max + v.temp - v.amount
    ensures TakeDamage(v).temp == v.temp - v.amount
    ensures TakeDamage(v).current == v.current
  {
  }

  /** Damage beyond the temporary pool empties it and the excess comes off
      stamina. */
  lemma {:induction false} ExcessDamageEmptiesTemporary(v: Vitals)
    requires 0 < v.temp < v.amount
    requires MinAllowed(v.max) <= v.current - (v.amount - v.temp) <= v.max
    ensures TakeDamage(v).temp == 0
    ensures TakeDamage(v).current == v.current - (v.amount - v.temp)
  {
  }

  /** Damage never raises stamina that already sits at or above the floor. */
  lemma {:induction false} DamageNeverHeals(v: Vitals)
    requires v.current >= MinAllowed(v.max)
    ensures TakeDamage(v).current <= v.current
  {
  }

  /** Without temporary stamina, damage that stays within the limits comes
      off stamina exactly. */
  lemma {:induction false} DamageIsConserved(v: Vitals)
    requires v.amount > 0
    requires MinAllowed(v.max) <= v.current - v.amount <= v.max + v.temp
    requires v.temp <= 0
    ensures TakeDamage(v).current == v.current - v.amount
    ensures TakeDamage(v).temp == v.temp
  {
  }

  /** `heal`: a positive amount raises stamina, capped at `max` (temporary
      stamina is not counted here), and resets the amount input. */
  function Heal(v: Vitals): (r: Vitals)
    ensures v.amount <= 0 ==> r == v
    ensures v.amount > 0 ==> r == v.(current := r.current, amount := 0)
    ensures v.amount > 0 ==> r.current <= v.max && r.current <= v.current + v.amount
    ensures v.amount > 0 && v.current + v.amount <= v.max ==> r.current == v.current + v.amount
    ensures v.amount > 0 && v.current <= v.max ==> r.current >= v.current
    ensures v.amount > 0 ==> r.current == v.max || r.current == v.current + v.amount
  {
    if v.amount > 0 then
      v.(current := if v.max <= v.current + v.amount then v.max else v.current + v.amount, amount := 0)
    else v
  }

  /** Healing with temporary stamina on top of `max` pulls stamina back down
      to `max`. */
  lemma {:induction false} HealDropsTemporaryExcess(v: Vitals)
    requires v.amount > 0 && v.current > v.max
    ensures Heal(v).current == v.max < v.current
  {
  }

  /** Healing undoes damage that was taken without temporary stamina and
      without touching the limits: the stamina comes back to what it was. */
  lemma {:induction false} HealUndoesDamage(v: Vitals, amount: int)
    requires amount > 0 && v.temp <= 0
    requires MinAllowed(v.max) <= v.current - amount && v.current <= v.max + v.temp
    ensures Heal(TakeDamage(v.(amount := amount)).(amount := amount)).current == v.current
  {
    DamageIsConserved(v.(amount := amount));
  }

  datatype Status = Dead | Dying | Winded | Healthy

  /** Position of a state from worst to best. */
  function Rank(s: Status): nat {
    match s
    case Dead => 0
    case Dying => 1
    case Winded => 2
    case Healthy => 3
  }

  /** `updateStaminaStatus`. Dead is `current <= -max/2` in real division
      (written `2 * current <= -max`); the lower test of the Dying branch,
      `current > Math.floor(-max/2)`, always holds once Dead is ruled out. */
  function StaminaStatus(current: int, max: int): (r: Status)
    ensures r == Dead <==> 2 * current <= -max
    ensures r == Dying <==> -max < 2 * current && current <= 0
    ensures r == Winded <==> 0 < current && current <= max / 2
    ensures r == Healthy <==> current > 0 && current > max / 2 && -max < 2 * current
  {
    if 2 * current <= -max then Dead
    else if current <= 0 && current > (-max) / 2 then Dying
    else if current <= max / 2 then Winded
    else Healthy
  }

  /** More stamina never means a worse state. */
  lemma {:induction false} StatusMonotone(c1: int, c2: int, max: int)
    requires c1 <= c2
    ensures Rank(StaminaStatus(c1, max)) <= Rank(StaminaStatus(c2, max))
  {
  }

  /** `enforceRecoveryLimits`: above the maximum becomes the maximum, below
      zero becomes zero (the first test wins if the maximum is negative). */
  function EnforceRecoveryLimits(current: int, max: int): (r: int)
    ensures current > max ==> r == max
    ensures current <= max ==> r == (if current < 0 then 0 else current)
    ensures max >= 0 ==> 0 <= r <= max
  {
    if current > max then max
    else if current < 0 then 0
    else current
  }

  /** With a non-negative maximum, clamping twice changes nothing more. */
  lemma {:induction false} EnforceRecoveryLimitsIdempotent(current: int, max: int)
    requires max >= 0
    ensures EnforceRecoveryLimits(EnforceRecoveryLimits(current, max), max) == EnforceRecoveryLimits(current, max)
  {
  }

  /** `enforceMinZero`: a negative value is replaced by zero. */
  function EnforceMinZero(value: int): (r: int)
    ensures r >= 0
    ensures value >= 0 ==> r == value
    ensures value < 0 ==> r == 0
  {
    if value < 0 then 0 else value
  }
}

=== FILE: util.dfy ===
/** Small shared vocabulary: optional values, results, white space and
    trimming as JavaScript defines them, decimal text of integers, and the
    string order JavaScript uses when it compares or sorts strings (modelled
    on characters; JavaScript compares UTF-16 code units, which agrees for
    text without characters beyond U+FFFF). */
module Util {

  datatype Option<+T> = None | Some(value: T)

  datatype Result<+T, +E> = Ok(value: T) | Err(error: E)

  /** True for the characters JavaScript's `\s` class and `String.prototype.trim`
      treat as white space or line terminators. */
  predicate IsSpace(c: char) {
    var n := c as int;
    || n == 0x20 || (0x09 <= n <= 0x0D) || n == 0xA0 || n == 0x1680
    || (0x2000 <= n <= 0x200A) || n == 0x2028 || n == 0x2029
    || n == 0x202F || n == 0x205F || n == 0x3000 || n == 0xFEFF
  }

  predicate IsBlank(s: string) {
    forall i :: 0 <= i < |s| ==> IsSpace(s[i])
  }

  /** `s` with its leading white space removed. */
  function TrimStart(s: string): (r: string)
    ensures |r| <= |s| && r == s[|s| - |r|..]
    ensures forall i :: 0 <= i < |s| - |r| ==> IsSpace(s[i])
    ensures r == [] || !IsSpace(r[0])
  {
    if |s| > 0 && IsSpace(s[0]) then TrimStart(s[1..]) else s
  }

  /** `s` with its trailing white space removed. */
  function TrimEnd(s: string): (r: string)
    ensures |r| <= |s| && r == s[..|r|]
    ensures forall i :: |r| <= i < |s| ==> IsSpace(s[i])
    ensures r == [] || !IsSpace(r[|r| - 1])
  {
    if |s| > 0 && IsSpace(s[|s| - 1]) then TrimEnd(s[..|s| - 1]) else s
  }

  /** JavaScript's `String.prototype.trim`. */
  function Trim(s: string): (r: string)
    ensures r == [] || (!IsSpace(r[0]) && !IsSpace(r[|r| - 1]))
  {
    TrimEnd(TrimStart(s))
  }

  /** A string trims to nothing exactly when it is all white space. */
  lemma {:induction false} TrimEmptyIffBlank(s: string)
    ensures Trim(s) == [] <==> IsBlank(s)
  {
    var t := TrimStart(s);
    if Trim(s) == [] {
      assert t == [];
    }
  }

  /** The string with every occurrence of `from` replaced by `to`. */
  function ReplaceChar(s: string, from: char, to: char): (r: string)
    ensures |r| == |s|
    ensures forall i :: 0 <= i < |s| ==> r[i] == (if s[i] == from then to else s[i])
  {
    seq(|s|, i requires 0 <= i < |s| => if s[i] == from then to else s[i])
  }

  /** The results of `f` on the elements of `s`, concatenated in order. */
  function FlatMap<T, U>(s: seq<T>, f: T -> seq<U>): seq<U> {
    if s == [] then [] else FlatMap(s[..|s| - 1], f) + f(s[|s| - 1])
  }

  /** Mapping a concatenation concatenates the mapped blocks. */
  lemma {:induction false} FlatMapConcat<T, U>(a: seq<T>, b: seq<T>, f: T -> seq<U>)
    ensures FlatMap(a + b, f) == FlatMap(a, f) + FlatMap(b, f)
    decreases |b|
  {
    if b == [] {
      assert a + b == a;
    } else {
      var n := |b| - 1;
      FlatMapConcat(a, b[..n], f);
      assert (a + b)[..|a + b| - 1] == a + b[..n];
    }
  }

  /** When `f` gives exactly one result per element, the mapped sequence
      lines up with `s`. */
  lemma {:induction false} FlatMapOfSingletons<T, U>(s: seq<T>, f: T -> seq<U>)
    requires forall i :: 0 <= i < |s| ==> |f(s[i])| == 1
    ensures |FlatMap(s, f)| == |s|
    ensures forall i :: 0 <= i < |s| ==> FlatMap(s, f)[i] == f(s[i])[0]
  {
    if s != [] {
      var n := |s| - 1;
      FlatMapOfSingletons(s[..n], f);
      forall i | 0 <= i < n ensures FlatMap(s, f)[i] == f(s[i])[0] {
        assert s[..n][i] == s[i];
      }
    }
  }

  /** Number of `true` entries. */
  function CountTrue(bs: seq<bool>): (n: nat)
    ensures n <= |bs|
  {
    if bs == [] then 0 else CountTrue(bs[..|bs| - 1]) + (if bs[|bs| - 1] then 1 else 0)
  }

  /** The positions of the `true` entries. */
  function TrueAt(bs: seq<bool>): set<int> {
    set i | 0 <= i < |bs| && bs[i]
  }

  /** `CountTrue` counts every `true` entry, wherever it stands. */
  lemma {:induction false} CountTrueIsTrueAt(bs: seq<bool>)
    ensures CountTrue(bs) == |TrueAt(bs)|
  {
    if bs != [] {
      var n := |bs| - 1;
      var init := bs[..n];
      CountTrueIsTrueAt(init);
      var tail: set<int> := if bs[n] then {n} else {};
      assert TrueAt(bs) == TrueAt(init) + tail by {
        forall i | i in TrueAt(bs) ensures i in TrueAt(init) + tail {
          if i < n { assert init[i] == bs[i]; }
        }
        forall i | i in TrueAt(init) ensures i in TrueAt(bs) {
          assert init[i] == bs[i];
        }
      }
      assert TrueAt(init) !! tail;
    }
  }

  lemma {:induction false} CountTrueAllFalse(bs: seq<bool>)
    requires forall i :: 0 <= i < |bs| ==> !bs[i]
    ensures CountTrue(bs) == 0
  {
    if bs != [] {
      CountTrueAllFalse(bs[..|bs| - 1]);
    }
  }

  lemma {:induction false} CountTruePrefix(bs: seq<bool>, k: nat)
    requires k <= |bs|
    requires forall i :: 0 <= i < |bs| ==> (bs[i] <==> i < k)
    ensures CountTrue(bs) == k
  {
    if bs != [] {
      var n := |bs| - 1;
      if k == |bs| {
        CountTruePrefix(bs[..n], n);
      } else {
        CountTruePrefix(bs[..n], k);
      }
    }
  }

  function Min(a: int, b: int): int { if a <= b then a else b }

  function Max(a: int, b: int): int { if a >= b then a else b }

  // ---------------------------------------------------------------------------
  // Decimal text

  predicate IsDigit(c: char) { '0' <= c <= '9' }

  predicate AllDigits(s: string) {
    forall i :: 0 <= i < |s| ==> IsDigit(s[i])
  }

  function DigitChar(d: nat): (c: char)
    requires d < 10
    ensures IsDigit(c) && (c as int) - ('0' as int) == d
  {
    (('0' as int) + d) as char
  }

  function DigitValue(c: char): nat
    requires IsDigit(c)
  {
    (c as int) - ('0' as int)
  }

  /** Decimal digits as `String` writes a non-negative integer: at least one,
      and no leading zero unless the number is 0 itself. */
  predicate PlainDigits(s: string) {
    |s| > 0 && AllDigits(s) && (s[0] == '0' ==> |s| == 1)
  }

  /** Decimal digits of `n`, as JavaScript's `String(n)` writes a non-negative integer. */
  function NatToString(n: nat): (r: string)
    ensures |r| > 0 && AllDigits(r)
    ensures r[0] == '0' ==> n == 0
    ensures PlainDigits(r)
  {
    if n < 10 then [DigitChar(n)] else NatToString(n / 10) + [DigitChar(n % 10)]
  }

  /** `String(i)` for an integer `i`: a minus sign before the digits of a negative number. */
  function IntToString(i: int): (r: string)
    ensures |r| > 0
    ensures i >= 0 ==> AllDigits(r)
    ensures i < 0 ==> r[0] == '-' && AllDigits(r[1..])
    ensures i >= 0 ==> PlainDigits(r)
    ensures i < 0 ==> PlainDigits(r[1..]) && r[1] != '0'
  {
    if i < 0 then "-" + NatToString(-i) else NatToString(i)
  }

  /** The number a string of decimal digits denotes. */
  function ParseNat(s: string): nat
    requires AllDigits(s)
  {
    if s == [] then 0 else ParseNat(s[..|s| - 1]) * 10 + DigitValue(s[|s| - 1])
  }

  /** Reading back the digits of `n` gives `n`. */
  lemma {:induction false} ParseNatToString(n: nat)
    ensures ParseNat(NatToString(n)) == n
  {
    var s := NatToString(n);
    if n >= 10 {
      ParseNatToString(n / 10);
      assert s[..|s| - 1] == NatToString(n / 10);
    }
  }

  /** Distinct numbers have distinct decimal text. */
  lemma {:induction false} NatToStringInjective(a: nat, b: nat)
    requires NatToString(a) == NatToString(b)
    ensures a == b
  {
    ParseNatToString(a);
    ParseNatToString(b);
  }

  lemma {:induction false} IntToStringInjective(a: int, b: int)
    requires IntToString(a) == IntToString(b)
    ensures a == b
  {
    var s := IntToString(a);
    if a < 0 && b < 0 {
      assert NatToString(-a) == s[1..] == NatToString(-b);
      NatToStringInjective(-a, -b);
    } else if a >= 0 && b >= 0 {
      NatToStringInjective(a, b);
    }
  }

  // ---------------------------------------------------------------------------
  // JavaScript number reading

  /** Length of the longest all-digit prefix of `s`. */
  function DigitPrefixLength(s: string): (k: nat)
    ensures k <= |s| && AllDigits(s[..k])
    ensures k < |s| ==> !IsDigit(s[k])
  {
    if s == [] || !IsDigit(s[0]) then 0
    else
      var k := 1 + DigitPrefixLength(s[1..]);
      assert s[..k] == [s[0]] + s[1..][..k - 1];
      k
  }

  /** JavaScript's `parseInt(s)` in base ten: leading white space, an optional
      sign, then the longest run of digits; `None` stands for NaN. The
      hexadecimal prefix is not modelled: `parseInt("0x1A")` is 26 in
      JavaScript, 0 here. */
  function ParseIntJs(s: string): Option<int> {
    var t := TrimStart(s);
    if |t| > 0 && (t[0] == '-' || t[0] == '+') then
      var body := t[1..];
      var k := DigitPrefixLength(body);
      if k == 0 then None
      else
        var v: int := ParseNat(body[..k]);
        Some(if t[0] == '-' then -v else v)
    else
      var k := DigitPrefixLength(t);
      if k == 0 then None else Some(ParseNat(t[..k]))
  }

  /** `parseInt(s) || 0`: the parsed integer, or 0 for NaN. */
  function ParseIntOrZero(s: string): int {
    match ParseIntJs(s)
    case Some(n) => n
    case None => 0
  }

  lemma {:induction false} DigitPrefixOfDigits(s: string)
    requires AllDigits(s)
    ensures DigitPrefixLength(s) == |s|
  {
  }

  /** Text that starts (ends) with a character other than white space is
      left alone by `TrimStart` (`TrimEnd`). */
  lemma {:induction false} NoLeadingSpace(s: string)
    requires |s| > 0 && !IsSpace(s[0])
    ensures TrimStart(s) == s
  {
  }

  lemma {:induction false} NoTrailingSpace(s: string)
    requires |s| > 0 && !IsSpace(s[|s| - 1])
    ensures TrimEnd(s) == s
  {
  }

  /** The digits of `n` start and end with a digit, and the digit prefix is
      all of them. */
  lemma {:induction false} DigitsOfNat(n: nat)
    ensures var d := NatToString(n);
      && !IsSpace(d[0]) && !IsSpace(d[|d| - 1]) && d[0] != '-' && d[0] != '+'
      && DigitPrefixLength(d) == |d| && d[..|d|] == d
  {
    var d := NatToString(n);
    assert IsDigit(d[0]) && IsDigit(d[|d| - 1]);
    DigitPrefixOfDigits(d);
  }

  /** `parseInt(String(n)) == n` for a non-negative `n`. */
  lemma {:induction false} ParseIntOfNat(n: nat)
    ensures ParseIntJs(NatToString(n)) == Some(n)
  {
    var d := NatToString(n);
    DigitsOfNat(n);
    NoLeadingSpace(d);
    ParseNatToString(n);
  }

  /** Digits that do not start with `0` denote a positive number. */
  lemma {:induction false} ParseNatPositive(s: string)
    requires |s| > 0 && AllDigits(s) && s[0] != '0'
    ensures ParseNat(s) > 0
  {
    if |s| > 1 {
      ParseNatPositive(s[..|s| - 1]);
    }
  }

  /** Plain digits are the only text `String` writes for their number. */
  lemma {:induction false} PlainDigitsAreCanonical(s: string)
    requires PlainDigits(s)
    ensures NatToString(ParseNat(s)) == s
    decreases |s|
  {
    var n := |s| - 1;
    if n == 0 {
      assert s[..0] == [];
      assert DigitChar(DigitValue(s[0])) == s[0];
    } else {
      var init := s[..n];
      assert init[0] == s[0];
      ParseNatPositive(init);
      PlainDigitsAreCanonical(init);
      assert DigitChar(DigitValue(s[n])) == s[n];
      assert s == init + [s[n]];
    }
  }

  /** `t` is a sign that agrees with `n` followed by plain digits, and reads
      back as `n`. */
  predicate SignedDigitsOf(t: string, n: int) {
    |t| > 1 && (t[0] == '+' || t[0] == '-') && (t[0] == '-' <==> n < 0)
    && PlainDigits(t[1..]) && ParseIntJs(t) == Some(n)
  }

  /** Such a text is the sign followed by `String` of the magnitude. */
  lemma {:induction false} SignedDigitsForm(t: string, n: int)
    requires SignedDigitsOf(t, n)
    ensures t == [t[0]] + NatToString(if n < 0 then -n else n)
  {
    var d := t[1..];
    NoLeadingSpace(t);
    DigitPrefixOfDigits(d);
    assert d[..|d|] == d;
    PlainDigitsAreCanonical(d);
    assert t == [t[0]] + d;
  }

  /** Sign, plain digits and value fix the text: two such texts are equal. */
  lemma {:induction false} SignedDigitsUnique(t: string, u: string, n: int)
    requires SignedDigitsOf(t, n) && SignedDigitsOf(u, n)
    ensures t == u
  {
    SignedDigitsForm(t, n);
    SignedDigitsForm(u, n);
  }

  /** `parseInt(sign + String(n))` is `n` with the sign applied. */
  lemma {:induction false} ParseIntOfSigned(sign: char, n: nat, s: string)
    requires (sign == '-' || sign == '+') && s == [sign] + NatToString(n)
    ensures ParseIntJs(s) == Some(if sign == '-' then -(n as int) else n as int)
  {
    var d := NatToString(n);
    assert s[0] == sign && s[1..] == d;
    NoLeadingSpace(s);
    DigitsOfNat(n);
    ParseNatToString(n);
  }

  /** `parseInt(String(i)) == i`: the decimal text of an integer reads back as it. */
  lemma {:induction false} ParseIntToString(i: int)
    ensures ParseIntJs(IntToString(i)) == Some(i)
  {
    if i < 0 {
      ParseIntOfNegative(i);
    } else {
      ParseIntOfNat(i);
    }
  }

  lemma {:induction false} ParseIntOfNegative(i: int)
    requires i < 0
    ensures ParseIntJs(IntToString(i)) == Some(i)
  {
    ParseIntOfSigned('-', -i, IntToString(i));
  }

  /** `parseInt("+" + String(n)) == n` for a non-negative `n`. */
  lemma {:induction false} ParseIntPlusSign(n: nat)
    ensures ParseIntJs("+" + NatToString(n)) == Some(n)
  {
    ParseIntOfSigned('+', n, "+" + NatToString(n));
  }

  /** JavaScript's `Number(s)` for text that is blank or an optionally signed
      run of decimal digits; any other text reads as NaN (`None`). */
  function ToNumber(s: string): (r: Option<int>)
    ensures IsBlank(s) ==> r == Some(0)
  {
    var t := Trim(s);
    TrimEmptyIffBlank(s);
    if t == [] then Some(0)
    else if AllDigits(t) then Some(ParseNat(t))
    else if (t[0] == '-' || t[0] == '+') && |t| > 1 && AllDigits(t[1..]) then
      var v: int := ParseNat(t[1..]);
      Some(if t[0] == '-' then -v else v)
    else None
  }

  lemma {:induction false} ToNumberOfIntToString(i: int)
    ensures ToNumber(IntToString(i)) == Some(i)
  {
    var d := NatToString(if i < 0 then -i else i);
    DigitsOfNat(if i < 0 then -i else i);
    if i < 0 {
      ToNumberOfNegative(d, -i);
    } else {
      NoLeadingSpace(d);
      NoTrailingSpace(d);
      ParseNatToString(i);
    }
  }

  lemma {:induction false} ToNumberOfNegative(d: string, n: nat)
    requires d == NatToString(n) && !IsSpace(d[|d| - 1])
    ensures ToNumber("-" + d) == Some(-(n as int))
  {
    var s := "-" + d;
    assert s[0] == '-' && s[|s| - 1] == d[|d| - 1] && s[1..] == d;
    NoLeadingSpace(s);
    NoTrailingSpace(s);
    assert !IsDigit(s[0]);
    ParseNatToString(n);
  }

  // ---------------------------------------------------------------------------
  // String order

  /** JavaScript's `a < b` on strings: lexicographic by character (by UTF-16
      code unit in JavaScript; the two agree below U+10000). */
  predicate LexLess(a: string, b: string) {
    if b == [] then false
    else if a == [] then true
    else if a[0] != b[0] then a[0] < b[0]
    else LexLess(a[1..], b[1..])
  }

  lemma {:induction false} LexLessIrreflexive(a: string)
    ensures !LexLess(a, a)
  {
    if a != [] {
      LexLessIrreflexive(a[1..]);
    }
  }

  lemma {:induction false} LexLessTransitive(a: string, b: string, c: string)
    requires LexLess(a, b) && LexLess(b, c)
    ensures LexLess(a, c)
  {
    if a != [] && a[0] == b[0] && b[0] == c[0] {
      LexLessTransitive(a[1..], b[1..], c[1..]);
    }
  }

  lemma {:induction false} LexLessTotal(a: string, b: string)
    ensures LexLess(a, b) || a == b || LexLess(b, a)
  {
    if a != [] && b != [] && a[0] == b[0] {
      LexLessTotal(a[1..], b[1..]);
      if a[1..] == b[1..] {
        assert a == [a[0]] + a[1..] && b == [b[0]] + b[1..];
      }
    }
  }

  lemma {:induction false} LexLessAsymmetric(a: string, b: string)
    requires LexLess(a, b)
    ensures !LexLess(b, a)
  {
    if LexLess(b, a) {
      LexLessTransitive(a, b, a);
      LexLessIrreflexive(a);
    }
  }

  predicate LexLe(a: string, b: string) { LexLess(a, b) || a == b }
}
